=== FILE: README.md ===
# music21 key, analysis and notation helpers in Dafny

This project models eight small parts of music21, the Python toolkit for
computer-aided musicology, and proves properties of them:

- **Keys and key signatures** (`key.py`, module `Key`):
  - converting key strings;
  - converting between a number of sharps and a tonic pitch, with the mode offsets;
  - the altered pitches of a signature and the accidental of a step;
  - tonic and mode, transposition and the scale of a signature;
  - the textual description;
  - building a `Key` from a tonic name and the mode inferred from its case;
  - tonal certainty.
- **Key detection** (`analysis/keyDetect.py`, module `KeyDetect`):
  - Sapp's key profiles as listed in `getWeights`;
  - the convolution of a pitch-class distribution with a profile;
  - ranking of the likely keys;
  - the major/minor decision;
  - the sliding-window drivers over measures.
- **Figured-bass notation** (`figuredBass/notation.py`, module `FiguredBass`):
  - parsing a notation column into numbers and modifier strings;
  - expanding shorthand to longhand;
  - turning modifiers into accidentals and applying them to pitches.
- **Editorial data** (`editorial.py`, module `Editorial`):
  - the Lilypond text a note editorial renders before, after and attached to a note;
  - searching a list of objects by editorial attribute.
- **Volume** (`volume.py`, module `Volume`):
  - setting velocity and velocity scalar, with their clamping;
  - construction precedence and merging;
  - the realised amplitude under a dynamic context.
- **Contour helpers** (`contour/utils.py`, module `Contour`):
  - rendering contour values as sign strings;
  - enumerating with indices;
  - replacing zeros.
- **The Abjad bridge** (`abj/translate.py`, module `Abjad`): translating
  Lilypond pitch spellings to Abjad's English spellings, and the refusals of
  `noteToAbjad`.
- **The repetition game** (`audioSearch/repetitionGame.py`, module
  `RepetitionGame`): judging one turn from the notes heard.

Three shared modules support these:
- `Wrappers`: `Option` and `Result`.
- `Strings`: digits, case, strip, join/split, replace-all.
- `Pitches`: steps, accidentals counted in quarter tones, and a pitch's position
  on the line of fifths. An interval is represented by the number of fifths it
  moves along that line.

`pitch.py`, `interval.py`, `scale.py` and `lily/translate.py` are not part of
this model. `Pitches` is the minimal stand-in the modelled code needs.
It reads accidental names in any case, as `pitch.Accidental("Sharp")` in the
editorial documentation (editorial.py:96-99) does.
`LilyPitchName` assumes Lilypond's Dutch spelling: the letter followed by one
"is" per sharp or one "es" per flat.

Values are immutable throughout. A setter returns the updated object. Python
exceptions become the `Failure` case of a `Result`.

## Model

| member | source | states |
|---|---|---|
| Key.ConvertKeyString | music21/key.py:43-71 | A trailing `b` is rewritten as a flat sign; a string without one is returned unchanged; a result never ends in `b` unless the input starts with it |
| Key.ConvertKeyStringTrailingFlat | music21/key.py:65-71 | For every key name `t`, `t + "b"` becomes `t + "-"`: the flat is converted and nothing else is touched |
| Key.ConvertKeyStringExamples | music21/key.py:51-63 | The documented conversions: `Eb`→`E-`, `bb`→`b-`, `Bb`→`B-`, and `f#`, `b#`, `c` unchanged |
| Key.SharpsToPitch | music21/key.py:73-126 | The tonic of the major key with `n` sharps is the plain pitch `n` fifths from C; no sharps count means C |
| Key.SharpsToPitchOfLine | music21/key.py:99-122 | Every plain twelve-tone pitch is the tonic of the major key with its line-of-fifths number of sharps |
| Key.SharpsToPitchExamples | music21/key.py:73-98 | The documented tonics: 1→G, 2→D, −2→B-flat, −6→G-flat, 6→F-sharp |
| Key.PitchToSharps | music21/key.py:138-225 | A name that does not parse is refused as unparsable; a parsed name, pitch or note succeeds exactly when it is twelve-tone, with its fifths position plus the mode's table offset, and a quarter-tone one is refused; an unrecognised value is refused |
| Key.PitchToSharpsOfSharpsToPitch | music21/key.py:73-225 | `pitchToSharps` inverts `sharpsToPitch` for every sharps count |
| Key.SharpsToPitchOfPitchToSharps | music21/key.py:73-225 | For every plain pitch and mode, removing the mode offset and converting back gives the pitch again |
| Key.PitchToSharpsExamplesMajor | music21/key.py:138-225 | The documented counts: c→0, e-→−3, g#→8 |
| Key.PitchToSharpsExamplesModes | music21/key.py:128-135 | c minor→−3, a minor→0, e dorian→2, per the mode table |
| Key.PitchToSharpsExamplesDoubleFlat | music21/key.py:138-225 | f-- major→−15 and f-- locrian→−20: the count is not bounded to ±7 |
| Key.PitchToSharpsExamplesQuarterTone | music21/key.py:216-217 | A quarter-tone tonic is refused |
| Key.AlteredList | music21/key.py:452-479 | `\|n\|` altered pitches. Sharps follow the order F C G D A E B and flats the reverse. Each pass round the order adds one more sharp or flat |
| Key.AlteredListExamples | music21/key.py:452-479 | Three sharps are F# C# G# |
| Key.AlteredListExamplesFlat | music21/key.py:452-479 | Three flats are B- E- A- |
| Key.AlteredListExamplesDouble | music21/key.py:452-479 | Nine sharps continue with F## and C##; eight flats reach B-- |
| Key.NewKeySignature | music21/key.py:359-381 | A key signature accepts no sharps or a whole number of sharps and refuses a fractional one; its cache starts coherent |
| Key.SetSharps | music21/key.py:682-685 | Setting sharps keeps the mode and leaves the altered-pitch cache coherent with the new count |
| Key.SetMode | music21/key.py:706-709 | Setting the mode keeps the sharps and leaves the cache coherent |
| Key.AlteredPitches | music21/key.py:452-479 | The altered pitches are those of the sharps count; no count is an error; the returned signature keeps its sharps and mode |
| Key.AccidentalByStep | music21/key.py:516-599 | Looking up a step needs a sharps count and keeps the signature's count |
| Key.AccidentalByStepClosedForm | music21/key.py:592-597 | The accidental of a step is the last matching altered pitch's: none when the step is not reached, else one sharp or flat per pass of the order that reaches it |
| Key.AccidentalByStepExamples | music21/key.py:516-591 | With one sharp F is sharp and G plain |
| Key.AccidentalByStepExamplesFlat | music21/key.py:516-591 | With one flat B is flat; with eight flats B is double flat |
| Key.PitchAndMode | music21/key.py:416-448 | The tonic is the major tonic of the sharps, moved three fifths up for a minor mode; a minor signature without sharps is an error |
| Key.PitchAndModeExamples | music21/key.py:421-438 | −7 sharps→C-flat, −3→E-flat, 4 sharps minor→C-sharp minor |
| Key.Transpose | music21/key.py:601-649 | Transposing moves the tonic by the interval's fifths and re-adds the mode offset; the mode is kept |
| Key.TransposeMajorMinor | music21/key.py:629-649 | For major, minor or no mode, transposing adds the interval's fifths to the sharps |
| Key.TransposeExamples | music21/key.py:609-627 | The documented transpositions: 2 sharps up a fifth→3; 3 down a minor second→8; 8 down an augmented third→−3 |
| Key.TransposeDorianByUnison | music21/key.py:443-447 | Dorian with no sharps, transposed by a unison, ends with −2 sharps (see Findings) |
| Key.ModeTonic | music21/key.py:128-135 | The tonic a signature implies in any mode: its fifths position is the sharps less the mode offset |
| Key.TransposeIntended | music21/key.py:601-649 | Transposing any mode adds exactly the interval's fifths to the sharps |
| Key.TransposeIntendedAgrees | music21/key.py:629-649 | The corrected transposition equals the original for major and minor keys |
| Key.TransposeIntendedInverse | music21/key.py:601-649 | Transposing by an interval and then by its inverse restores the sharps |
| Key.GetScale | music21/key.py:651-677 | Major or no mode gives the major scale, minor the minor scale, both on the signature's tonic; any other mode is refused |
| Key.GetScaleExamples | music21/key.py:651-677 | Three sharps is A major, or F-sharp minor |
| Key.CountDescription | music21/key.py:391-403 | The wording of a sharps count never holds a comma |
| Key.StrDescription | music21/key.py:389-408 | The description is the count's wording, followed by ", mode " and the mode exactly when a mode is set |
| Key.StrDescriptionInjective | music21/key.py:389-408 | Different sharps counts have different descriptions |
| Key.StrDescriptionDeterminesSignature | music21/key.py:389-408 | Two signatures with the same description have the same sharps count and the same mode |
| Key.DescriptionTail | music21/key.py:389-408 | Each range of counts has its own wording: "None", digits then " sharps"/" flats", "1 sharp", "1 flat", "no sharps or flats" |
| Key.InferMode | music21/key.py:838-850 | A given mode is lower-cased and the name kept; otherwise an `m` in the name means minor and is removed, else an `M` means major and is removed, else a lower-case name means minor and any other name major |
| Key.NewKey | music21/key.py:824-871 | A key exists exactly when the tonic name, after mode inference, parses as a twelve-tone pitch; its tonic is that pitch and its mode the inferred one; an unparsable name and a quarter-tone tonic are refused; the key is well formed and has no correlation data |
| Key.NewKeyOfPitch | music21/key.py:826-828 | A key built from a plain twelve-tone pitch without a mode is that pitch's major key, with its fifths position as sharps |
| Key.NewKeyOfChord | music21/key.py:829-835 | A key built from a chord without a mode has the chord's root as tonic, minor exactly for a minor triad, with the matching sharps |
| Key.KeyToString | music21/key.py:876-884 | The string is the tonic's name, upper-case for major and lower-case for minor, then a space and the mode |
| Key.KeyToStringInjective | music21/key.py:876-884 | Two major or minor keys have the same string exactly when they have the same mode and tonic name |
| Key.KeyToStringDeterminesKey | music21/key.py:876-884 | Two well-formed major or minor keys on plain tonics with the same string have the same tonic, mode and sharps |
| Key.KeyExamples | music21/key.py:789-818 | c is c minor with −3 sharps |
| Key.KeyExamplesSharps | music21/key.py:789-818 | Lower-case c# is C-sharp minor, with 4 sharps |
| Key.KeyExamplesSharpsMajor | music21/key.py:789-818 | Upper-case C# is C-sharp major, with 7 sharps |
| Key.KeyExamplesFlatMajor | music21/key.py:789-818 | F- is F-flat major, with −8 sharps |
| Key.FFlatMajorDoubleFlatB | music21/key.py:812-818 | In F-flat major, B is double flat |
| Key.KeySignatureNamesTonic | music21/key.py:416-448 | A well-formed major or minor key's signature names its own tonic and mode back |
| Key.TonalCertainty | music21/key.py:888-926 | Certainty is the correlation coefficient plus twice its lead over the first positive alternative; it needs alternatives and a coefficient |
| Key.TonalCertaintyRewardsLead | music21/key.py:888-919 | Certainty exceeds the coefficient exactly when the coefficient leads the first positive alternative |
| KeyDetect.GetWeights | music21/analysis/keyDetect.py:37-50 | A profile has one weight per pitch class |
| KeyDetect.ProfilesPeakAtTonic | music21/analysis/keyDetect.py:47-50 | Both profiles weigh the tonic strictly more than any other degree |
| KeyDetect.AccumulateScore | music21/analysis/keyDetect.py:64-66 | The inner loop sums every term of the convolution for one key |
| KeyDetect.ConvoluteDistribution | music21/analysis/keyDetect.py:53-70 | The twelve scores are the sums of the weighted distribution at every key |
| KeyDetect.ConvolutionOfSilence | music21/analysis/keyDetect.py:53-70 | An empty distribution scores zero for every key |
| KeyDetect.ConvolutionAdditive | music21/analysis/keyDetect.py:53-70 | Scores of combined music are the sums of the scores |
| KeyDetect.TermsScale | music21/analysis/keyDetect.py:53-70 | Scaling every count by a factor scales each key's score by that factor, whatever the profile |
| KeyDetect.ConvolutionTransposed | music21/analysis/keyDetect.py:64-66 | Transposing the distribution moves the scores by the same amount |
| KeyDetect.ConvolutionIsMirrored | music21/analysis/keyDetect.py:64-66 | The score at key i is the tonic-aligned score at key −i (see Findings) |
| KeyDetect.TonicConvolutionTransposed | music21/analysis/keyDetect.py:53-70 | With the weights aligned on the tonic, transposing the music moves every score up by the same interval |
| KeyDetect.GetLikelyKeys | music21/analysis/keyDetect.py:85-98 | Twelve (key, score) pairs, scores descending and a permutation of the input, each key the first with that score |
| KeyDetect.LikelyKeysHead | music21/analysis/keyDetect.py:85-98 | The first likely key is the first key with the highest score |
| KeyDetect.LikelyKeysRepeatOnTies | music21/analysis/keyDetect.py:96-98 | When all scores tie, every entry names key 0 (see Findings) |
| KeyDetect.RankKeys | music21/analysis/keyDetect.py:85-98 | Twelve distinct keys with their scores, descending |
| KeyDetect.SingleKeyDetect | music21/analysis/keyDetect.py:244-275 | Major exactly when the best major score beats the best minor score; the key is the first with that best score |
| KeyDetect.LoneNoteReportedMirrored | music21/analysis/keyDetect.py:263-266 | A single pitch class k is reported as major on −k (a lone G as F major) |
| KeyDetect.SingleKeyDetectIntended | music21/analysis/keyDetect.py:244-275 | Same decision, over tonic-aligned scores: the key reported carries the best score |
| KeyDetect.LoneNoteIntended | music21/analysis/keyDetect.py:244-275 | A single pitch class k is reported as major on k |
| KeyDetect.Merge | music21/analysis/keyDetect.py:199 | Counts of two spans add pitch class by pitch class |
| KeyDetect.Distribution | music21/analysis/keyDetect.py:200-205 | Twelve entries: the count of each pitch class, zero when absent |
| KeyDetect.WindowDistributionAdds | music21/analysis/keyDetect.py:198-205 | The distribution of a window is the sum of its measures' distributions |
| KeyDetect.WindowKeyDetect | music21/analysis/keyDetect.py:189-210 | One key per window of consecutive measures, in order, none when the window is longer than the piece |
| KeyDetect.RunKeyDetect | music21/analysis/keyDetect.py:157-186 | One row per window size from the minimum to the piece length, each row the windowed keys of that size |
| FiguredBass.ReadFigure | music21/figuredBass/notation.py:92-126 | A figure with more than one run of digits and of non-digits is refused as invalid; the number or modifier is absent exactly when there are no such characters; the number is the value of the run of digits and the modifier the stripped run of other characters |
| FiguredBass.ParseFigureString | music21/figuredBass/notation.py:92-126 | Parsing a written modifier-then-number figure gives back its number and modifier |
| FiguredBass.ParseNumberFirstString | music21/figuredBass/notation.py:49-55 | A figure written number first, as in `4,2+` or `6#5`, also parses back to its number and modifier |
| FiguredBass.ParseFigureRefuses | music21/figuredBass/notation.py:99-108 | "6#5#" is refused as an invalid figure |
| FiguredBass.ParseFigures | music21/figuredBass/notation.py:92-126 | A column parses when every figure parses, and then figure by figure |
| FiguredBass.ParseNotationColumn | music21/figuredBass/notation.py:72-126 | One number and one modifier per comma-separated figure |
| FiguredBass.ParseNotationColumnOfFigures | music21/figuredBass/notation.py:72-126 | Figures joined with commas parse back to their numbers and modifiers |
| FiguredBass.WithThirds | music21/figuredBass/notation.py:173-182 | A missing number reads as a third; others are kept |
| FiguredBass.TranslateToLonghand | music21/figuredBass/notation.py:128-185 | Shorthand columns expand to the fixed longhand and carry each modifier to its number; other columns keep their figures, a missing number as 3 |
| FiguredBass.LonghandKeepsFigures | music21/figuredBass/notation.py:151-172 | Every original number appears in the longhand with its modifier |
| FiguredBass.ShorthandContainsOriginals | music21/figuredBass/notation.py:22-29 | Each shorthand expansion contains the numbers it expands |
| FiguredBass.LonghandOfThird | music21/figuredBass/notation.py:151-172 | A lone modifier applies to the third of a 5-3 chord |
| FiguredBass.LonghandOfSixThree | music21/figuredBass/notation.py:151-172 | "6" with a third modifier keeps both on 6 and 3 |
| FiguredBass.LonghandOfSixFive | music21/figuredBass/notation.py:151-172 | "6,5" becomes 6-5-3 with no modifier on the added third |
| FiguredBass.ToAccidental | music21/figuredBass/notation.py:270-300 | None gives no accidental; a known accidental string gives that accidental; `+`, `/`, `\` are special; anything else is refused |
| FiguredBass.ToAccidentalNamed | music21/figuredBass/notation.py:287-300 | `#`, `-`, `n` give sharp, flat, natural |
| FiguredBass.ToAccidentalSpecial | music21/figuredBass/notation.py:258-260 | `+` and `\` are sharps and `/` a flat |
| FiguredBass.ToAccidentalCapitalised | music21/figuredBass/notation.py:289-292 | Accidental names are read in any case: "Sharp" is a sharp and "N" a natural |
| FiguredBass.SpecialModifierReads | music21/figuredBass/notation.py:293-296 | A special sign is not an accidental string itself and reads as the accidental it stands for |
| FiguredBass.ToAccidentalRefuses | music21/figuredBass/notation.py:296-300 | An unknown modifier string is refused |
| FiguredBass.NewModifier | music21/figuredBass/notation.py:263-265 | A modifier exists exactly when its string converts, holding both |
| FiguredBass.ModifyPitch | music21/figuredBass/notation.py:322-367 | The step is kept. Natural or no prior accidental replaces the accidental. Otherwise the two add, and an unsupported sum is refused |
| FiguredBass.ModifyPitchUndo | music21/figuredBass/notation.py:349-367 | Applying a modifier and then its opposite restores the pitch |
| FiguredBass.ModifyPitchName | music21/figuredBass/notation.py:302-320 | An unparsable name is refused; a parsable one succeeds exactly when modifying its pitch does, with the same error otherwise; the new name reads back as the modified pitch |
| FiguredBass.ModifiedNameReadBack | music21/figuredBass/notation.py:302-320 | The name of a pitch modified by a supported modifier reads back as that pitch |
| FiguredBass.ModifyPitchNameExamples | music21/figuredBass/notation.py:311-316 | D with a sharp is D#, F with a flat F-, C# with a natural C |
| FiguredBass.MakeModifiers | music21/figuredBass/notation.py:187-210 | One modifier per modifier string, all or nothing |
| FiguredBass.NewNotation | music21/figuredBass/notation.py:32-70 | A notation exists exactly when its column parses and every longhand modifier string names an accidental (otherwise the modifier is refused); it keeps its column, its parsed figures and their longhand, and holds one figure per longhand number with that modifier's accidental |
| FiguredBass.BuildNotation | music21/figuredBass/notation.py:187-210 | Building from parsed figures succeeds exactly when every longhand modifier string converts, each figure holding its number and converted modifier |
| FiguredBass.NotationOfFigures | music21/figuredBass/notation.py:32-70 | A column written from figures builds a notation whose numbers are those figures' longhand |
| FiguredBass.NotationEmpty | music21/figuredBass/notation.py:151-172 | An empty column is a 5-3 chord |
| FiguredBass.NotationSharp | music21/figuredBass/notation.py:173-182 | "#" is 5-3 with a sharp third |
| FiguredBass.NotationFlatSix | music21/figuredBass/notation.py:151-172 | "-6,-" is 6-3 with both flat |
| FiguredBass.NotationSharpSixFive | music21/figuredBass/notation.py:151-172 | "#6,5" is 6-5-3 with a sharp six |
| Editorial.CommentLily | music21/editorial.py:205-230 | No text renders nothing; `below` and `above` quote the text after `_` or `^`, readable back; any other position is refused |
| Editorial.CommentLilyExample | music21/editorial.py:222-230 | An "above" comment "hello" is `^"hello"`; a new comment renders nothing |
| Editorial.LilyStart | music21/editorial.py:143-167 | An editorial with nothing to show renders nothing before the note |
| Editorial.ReadLilyStartOfLilyStart | music21/editorial.py:143-179 | The text before the note says whether there is ficta, which colour is shown and whether the note is hidden |
| Editorial.LilyEnd | music21/editorial.py:190-202 | After the note there is nothing or the unhide command |
| Editorial.LilyEndClosesStart | music21/editorial.py:143-202 | The unhide command follows exactly when the start text hides the note |
| Editorial.LilyStartExample | music21/editorial.py:159-167 | Ficta, blue and hidden render as `\ficta \color "blue" \hideNotes `; a new editorial renders nothing |
| Editorial.LilyAttached | music21/editorial.py:181-188 | A comment with text renders its Lilypond text; a truthy non-comment is an error; any text produced reads back as the comment |
| Editorial.Lookup | music21/editorial.py:58-64 | The interval attributes always have a value; a name that is not standard comes from the free-form entries |
| Editorial.StandardAttributeFirst | music21/editorial.py:122-136 | A free-form entry cannot shadow a standard attribute |
| Editorial.SelectedObjects | music21/editorial.py:58-73 | Every object kept has the attribute, with one of the wanted values when they are given |
| Editorial.GetObjectsWithEditorial | music21/editorial.py:58-73 | The loop keeps exactly the selected objects, in order |
| Editorial.SelectedObjectsIsSubsequence | music21/editorial.py:58-73 | The result is the input at exactly the positions of the selected objects |
| Editorial.GetObjectsWithEditorialExample | music21/editorial.py:40-56 | Five passing tones, two plain notes and three commented notes: the search finds five by `isPassingTone` and three by the comment values |
| Volume.SetParent | music21/volume.py:79-88 | A note or chord becomes the parent, None clears it, anything else is ignored; the velocity is kept |
| Volume.SetVelocity | music21/volume.py:93-101 | A number is clamped to 0..127: kept when in range, 0 below it, 127 above it; anything else is refused |
| Volume.SetVelocityIdempotent | music21/volume.py:93-101 | Re-setting the stored velocity changes nothing |
| Volume.VelocityScalar | music21/volume.py:116-118 | The scalar times 127 is the velocity; an unset velocity is an error |
| Volume.SetVelocityScalar | music21/volume.py:120-129 | A number is clamped to 0..1 and stored as a whole velocity in 0..127; anything else is refused |
| Volume.VelocityScalarOfSetVelocityScalar | music21/volume.py:116-129 | The scalar read back is within half a velocity step of the clamped scalar set |
| Volume.VelocityExamples | music21/volume.py:136-143 | 0.5 is velocity 64; velocity 127 reads as 1; 200 clamps to 127 and −3 to 0 |
| Volume.NewVolume | music21/volume.py:38-52 | A given velocity is used; otherwise a given scalar; otherwise no velocity; relativity as given |
| Volume.VelocityTakesPrecedence | music21/volume.py:46-49 | With a velocity given, the scalar given makes no difference |
| Volume.MergeAttributes | music21/volume.py:167-185 | Velocity and relativity come from the other volume, the parent stays; nothing to merge changes nothing |
| Volume.MergeAttributesIdempotent | music21/volume.py:167-185 | Merging twice is merging once, and the merged volume realises like the other one without context |
| Volume.GetRealized | music21/volume.py:188-255 | Asking for context without a parent is an error; a clipped value lies in [0, 1]; with no velocity in use the value is the base level, scaled by twice the dynamic's scalar when a dynamic applies and the velocity is relative or unset, then clipped when asked |
| Volume.AbsoluteVelocityIgnoresDynamics | music21/volume.py:188-255 | An absolute velocity fixes the result whatever the base level or dynamic; unclipped it is the velocity scalar |
| Volume.RelativeVelocityScales | music21/volume.py:188-255 | A relative velocity and the dynamic each scale the base level by twice their scalar |
| Volume.GetRealizedExamples | music21/volume.py:188-255 | Piano realises 0.425196, forte 0.992124; velocity 20 under forte scales, and as absolute is 20/127 |
| Contour.DoubleReplace | music21/contour/utils.py:1-8 | No digit one is left |
| Contour.DoubleReplaceOfContourValue | music21/contour/utils.py:1-8 | −1, 0, 1 print as "-", "0", "+", and read back as the value |
| Contour.DoubleReplaceMergesOutsideContour | music21/contour/utils.py:8 | Outside the contour values the printing loses information: −12 and −2 both print "-2" |
| Contour.DoubleReplaceExample | music21/contour/utils.py:4-5 | "-1 1 -1 1" becomes "- + - +" |
| Contour.ReplaceListToPlusMinus | music21/contour/utils.py:11-18 | The empty list prints as the empty string; otherwise splitting the output at spaces gives one rendering per element, in order |
| Contour.ReadContourOfReplaceList | music21/contour/utils.py:11-18 | A list of contour values printed with spaces reads back as the list |
| Contour.ReplaceListExample | music21/contour/utils.py:14-15 | [1, 1, −1, −1] prints as "+ + - -" |
| Contour.WithIndex | music21/contour/utils.py:21-25 | One pair per element, each element paired with its own index |
| Contour.WithIndexFrom | music21/contour/utils.py:21-25 | Each remaining element is paired with its own index, in order |
| Contour.WithIndexUnzips | music21/contour/utils.py:21-25 | The indices count up from zero and the elements are the sequence |
| Contour.ZerosReplaced | music21/contour/utils.py:28-40 | Every zero is replaced and every other element kept |
| Contour.ReplaceZeros | music21/contour/utils.py:35-40 | The loop over the enumerated copy computes exactly the zero replacement |
| Contour.ZerosReplacedLeavesNoZero | music21/contour/utils.py:28-40 | With a non-zero replacement no zero is left |
| Contour.ZerosReplacedIdempotent | music21/contour/utils.py:28-40 | A zero-free list is kept, so replacing twice is replacing once |
| Contour.ZerosReplacedExample | music21/contour/utils.py:31-32 | [0, 3, 2, 0] with −1 becomes [−1, 3, 2, −1] |
| Abjad.TranslateLilyStringPitch | music21/abj/translate.py:60-74 | No "es" is left in the result |
| Abjad.TranslateExample | music21/abj/translate.py:68-69 | "cis''2" becomes "cs''2" |
| Abjad.TranslateFlats | music21/abj/translate.py:72-74 | Any number of flats is spelled with one `f` each |
| Abjad.TranslateSharps | music21/abj/translate.py:72-74 | Any number of sharps on a step other than E is spelled with one `s` each |
| Abjad.TranslateESharps | music21/abj/translate.py:72-74 | E with n sharps comes out as F with n−1 sharps (see Findings) |
| Abjad.TranslateLilyPitchName | music21/abj/translate.py:60-74 | Every twelve-tone pitch gets its own English name, except E-sharps, which become F |
| Abjad.ESharpBecomesF | music21/abj/translate.py:72-74 | "eis''4" becomes "f''4" as written and "es''4" with the passes swapped |
| Abjad.TranslateIntendedSpellsPitch | music21/abj/translate.py:60-74 | With the passes swapped every twelve-tone pitch, E-sharp included, gets its own English name |
| Abjad.AbjadPitchName | music21/abj/translate.py:134-153 | No `#` is left in the name |
| Abjad.AbjadPitchNameSpells | music21/abj/translate.py:146-147 | Every twelve-tone pitch name is the lower-case letter with one `s` per sharp or one `f` per flat |
| Abjad.AbjadPitchNameExample | music21/abj/translate.py:142-144 | D double flat is "dff" |
| Abjad.ParseAbjadPitchName | music21/abj/translate.py:134-153 | The Abjad name reads back as the pitch's step and alteration |
| Abjad.NoteToAbjad | music21/abj/translate.py:93-132 | Complex durations are refused, then tuplets; anything else is the note's Lilypond string with the pitch rewriting applied, so it holds no "es" |
| Abjad.NoteToAbjadSharp | music21/abj/translate.py:97-121 | A half-note C-sharp "cis''2" becomes "cs''2" |
| Abjad.NoteToAbjadFlat | music21/abj/translate.py:97-121 | "deses,32" becomes "dff,32" |
| Abjad.NoteToAbjadComplex | music21/abj/translate.py:125-126 | A complex duration is refused whatever else the note holds |
| RepetitionGame.Play | music21/audioSearch/repetitionGame.py:37-79 | One turn as written computes exactly the turn's reference meaning, and reports whether the game is still on |
| RepetitionGame.MatchRepeated | music21/audioSearch/repetitionGame.py:51-68 | The first loop succeeds exactly when the game was on and the notes heard (rests skipped) repeat the remembered ones |
| RepetitionGame.SkipRests | music21/audioSearch/repetitionGame.py:71-72 | The second loop stops at the first non-rest after the repeated notes |
| RepetitionGame.LostStaysLost | music21/audioSearch/repetitionGame.py:67-68 | Once lost, a game stays lost and remembers nothing new |
| RepetitionGame.TurnGrowsByAtMostOne | music21/audioSearch/repetitionGame.py:37-79 | A good turn adds exactly the first new note heard and counts a round, or adds nothing and does not count one |
| RepetitionGame.TurnKeepsConsistent | music21/audioSearch/repetitionGame.py:37-79 | While the game is on, the round counter equals the number of remembered notes |
| RepetitionGame.SessionKeepsConsistent | music21/audioSearch/repetitionGame.py:24-79 | Over any sequence of turns that invariant holds, and the remembered notes only grow at the end |
| RepetitionGame.TurnExamples | music21/audioSearch/repetitionGame.py:51-75 | Repeating C among rests and adding D wins a round; starting with D loses |

## Left out

- Audio input: the microphone, pitch transcription, the graphical interface and
  the printed messages are left out. The notes a turn heard are an input to `RepetitionGame.Play`.
- `KeyWeightKeyAnalysis.getDifference`, `getDifferenceDebug`, `findLongestPart`
  and the stream traversal of `getMeasureRange` are left out. A piece is given as its
  per-measure pitch-class counts.
- The `sharpsToPitch` cache and the deep copies are left out; they do not change results.
- The `Music21Object` and `DiatonicScale` machinery behind `Key` is left out, and so
  are the scale objects returned by `getScale`: a scale is its kind and tonic.
- Interval parsing (`'p5'`, `'-m2'`) is left out: an interval is given by the
  number of fifths it moves.
- Octaves are left out: key arithmetic does not use them, and a game note's octave is
  carried but never compared.
- The weak reference to a volume's parent and `getContextByClass` are left out.
  The dynamic in effect is an input to `GetRealized`.
- Floating-point rounding is left out: volumes use exact reals, so the documented
  values hold exactly here.
- `inPlace` mutation is left out: every operation returns a new value.
- JSON serialisation attributes of editorials and comments are left out.
- Python's non-boolean values for `hidden` and `color` are left out: hidden is a
  boolean and a colour is a string or nothing.
- Abjad object construction, `streamToAbjad` and `music21ObjectToAbjad` are left
  out. The Lilypond string of a note is an input to `Abjad.NoteToAbjad`.
- `Key()` without a tonic is left out: the model requires a tonic name or pitch.
- Key.NewKeySignature: a whole-number float count such as `3.0` is stored as the
  integer 3. Python keeps the float, so `_strDescription` prints "3.0 sharps" and,
  under Python 2, `range()` over it raises a TypeError in `alteredPitches` and
  `sharpsToPitch`. The model keeps every sharps count as an integer.
- Key.KeyToString: only major and minor keys are described in terms of the name.
  For other modes Python formats the tonic `Pitch` object itself, whose text is
  not part of this model; the model writes the pitch's name there, and the contract
  states only the length and the trailing space and mode.
- Octave designations in names (`"c4"`) are left out: `Pitches.ParseName` refuses a
  name with an octave, so `Key("c4")` is an unparsable-name failure here.
- Floating-point comparison in key detection is left out: `KeyDetect` scores are
  exact reals, so `GetLikelyKeys`, `SingleKeyDetect` and `LikelyKeysRepeatOnTies`
  compare them exactly, where Python's float sums could break or create ties.
- Editorial.GetObjectsWithEditorial: a `CommentValue` is compared by its contents,
  while Python's `in` on a list of comments compares them by equality, which for
  these objects is identity; two distinct comments with the same text match here.
- KeyDetect.GetWeights: its contract states the length only. The weights'
  defining facts are in `KeyDetect.ProfilesPeakAtTonic`.
- Editorial.Lookup: Python's `getattr` reaches any attribute of the object. Only
  the documented attributes, the methods and the free-form entries are modelled.
- Strings.ReplaceAll: an empty pattern is not allowed. The model never replaces
  with one.

## Findings

| source | as written | input that shows it | evidently intended | confidence | as-written member | corrected member |
|---|---|---|---|---|---|---|
| music21/analysis/keyDetect.py:64-66 | the weight index is `(j + i) % 12`, so the score at key i aligns the profile's tonic with pitch class −i | a distribution holding only G (pitch class 7) is reported as F major (key 5) | `(j - i) % 12`, aligning the tonic with pitch class i, so a lone G is G major | high, not executed | KeyDetect.LoneNoteReportedMirrored | KeyDetect.LoneNoteIntended |
| music21/analysis/keyDetect.py:96-98 | each sorted score is looked up with `index`, which finds the first key with that score | twelve equal scores give twelve copies of key 0 | each key listed once, tied keys in order | medium, not executed | KeyDetect.LikelyKeysRepeatOnTies | KeyDetect.RankKeys |
| music21/key.py:639-642 | transpose takes the tonic from `_getPitchAndMode`, which ignores church modes, then adds the mode offset again | D dorian with no sharps, transposed by a unison, gets −2 sharps | the key signature is unchanged by a unison: sharps plus the interval's fifths in every mode | high, not executed | Key.TransposeDorianByUnison | Key.TransposeIntended |
| music21/abj/translate.py:72-74 | "is"→"s" runs before "es"→"f", so the "es" it leaves in an E-sharp becomes "f" | "eis''4" becomes "f''4" | "es''4", E-sharp in Abjad's English spelling | medium, not executed | Abjad.ESharpBecomesF | Abjad.TranslateIntendedSpellsPitch |

=== FILE: abjad.dfy ===
/** The music21 to Abjad bridge: rewriting Lilypond (Dutch) pitch spellings into
    Abjad's English ones, naming a pitch for Abjad, and the guards that refuse the
    notes the bridge cannot translate. */
module Abjad {
  import opened Wrappers
  import opened Pitches
  import Strings

  // ---------------------------------------------------------------------------
  // Lilypond strings

  /** `translateLilyStringPitch`: every "is" becomes "s", then every "es" becomes
      "f". No "es" survives the second pass. */
  function TranslateLilyStringPitch(s: string): (r: string)
    ensures !Strings.Contains(r, "es")
  {
    var sharpened := Strings.ReplaceAll(s, "is", "s");
    Strings.ReplaceAllNoOccurrence(sharpened, "es", "f");
    Strings.ReplaceAll(sharpened, "es", "f")
  }

  /** The lower-case letter Lilypond and Abjad both write for a step. */
  function Letter(s: Step): (c: char)
    ensures Strings.Lower(StepName(s)) == [c]
    ensures StepFromChar(c) == Some(s)
  {
    match s
    case C => 'c'
    case D => 'd'
    case E => 'e'
    case F => 'f'
    case G => 'g'
    case A => 'a'
    case B => 'b'
  }

  /** The Lilypond (Dutch) name of a twelve-tone pitch without octave marks: its
      letter, then "is" for each sharp or "es" for each flat. */
  function LilyPitchName(p: Pitch): string
    requires IsTwelveTone(p)
  {
    var alter := Alter(p);
    [Letter(p.step)] +
      if alter >= 0 then Strings.RepeatString("is", alter) else Strings.RepeatString("es", -alter)
  }

  /** The name Abjad expects: the letter, then "s" for each sharp or "f" for each
      flat. */
  function EnglishName(s: Step, alter: int): string {
    [Letter(s)] + if alter >= 0 then Strings.Repeat('s', alter) else Strings.Repeat('f', -alter)
  }

  /** The doc example: "cis''2" becomes "cs''2". */
  lemma TranslateExample(s: string)
    requires s == "cis''2"
    ensures TranslateLilyStringPitch(s) == "cs''2"
  {
    assert Strings.ReplaceAll("''2", "is", "s") == "''2";
    assert Strings.ReplaceAll(s, "is", "s") == "cs''2";
    Strings.NotContainsFirst("cs''2", "es");
    Strings.ReplaceAllAbsent("cs''2", "es", "f");
  }

  /** The flat spellings: a letter followed by any number of "es" becomes the
      letter followed by as many "f". */
  lemma TranslateFlats(s: Step, n: nat)
    ensures TranslateLilyStringPitch([Letter(s)] + Strings.RepeatString("es", n)) ==
            EnglishName(s, -(n as int))
  {
    var c := Letter(s);
    var flats := Strings.RepeatString("es", n);
    Strings.RepeatStringAvoids("es", n, 'i');
    Strings.NotContainsFirst([c] + flats, "is");
    Strings.ReplaceAllAbsent([c] + flats, "is", "s");
    Strings.ReplaceAllCons(c, flats, "es", "f");
    Strings.ReplaceAllRepeatString("es", "f", n);
    Strings.RepeatStringChar('f', n);
  }

  /** A letter followed by any number of "is" becomes the letter followed by as
      many "s" in the first pass. */
  lemma SharpenSharps(s: Step, n: nat)
    ensures Strings.ReplaceAll([Letter(s)] + Strings.RepeatString("is", n), "is", "s") ==
            [Letter(s)] + Strings.Repeat('s', n)
  {
    Strings.ReplaceAllCons(Letter(s), Strings.RepeatString("is", n), "is", "s");
    Strings.ReplaceAllRepeatString("is", "s", n);
    Strings.RepeatStringChar('s', n);
  }

  /** The sharp spellings of every letter but E come through as intended. */
  lemma TranslateSharps(s: Step, n: nat)
    requires s != E || n == 0
    ensures TranslateLilyStringPitch([Letter(s)] + Strings.RepeatString("is", n)) ==
            EnglishName(s, n)
  {
    var run := Strings.Repeat('s', n);
    SharpenSharps(s, n);
    Strings.ReplaceAllCons(Letter(s), run, "es", "f");
    Strings.NotContainsFirst(run, "es");
    Strings.ReplaceAllAbsent(run, "es", "f");
  }

  /** E with `n > 0` sharps loses its letter: the first pass leaves "e" followed by
      `n` copies of "s", and the second pass reads the leading "es" as a flat
      suffix and writes "f". The result names F with one sharp fewer, the same
      sound under another name. */
  lemma TranslateESharps(n: nat)
    requires n > 0
    ensures TranslateLilyStringPitch("e" + Strings.RepeatString("is", n)) ==
            EnglishName(F, n - 1)
  {
    SharpenSharps(E, n);
    var sharpened := "e" + Strings.Repeat('s', n);
    var rest := Strings.Repeat('s', n - 1);
    assert sharpened[..2] == "es";
    assert sharpened[2..] == rest;
    Strings.NotContainsFirst(rest, "es");
    Strings.ReplaceAllAbsent(rest, "es", "f");
  }

  /** Translating the Lilypond name of a pitch gives the name Abjad expects for it,
      except for E with sharps, which comes out as F with one sharp fewer. */
  lemma TranslateLilyPitchName(p: Pitch)
    requires IsTwelveTone(p)
    ensures p.step != E || Alter(p) <= 0 ==>
              TranslateLilyStringPitch(LilyPitchName(p)) == EnglishName(p.step, Alter(p))
    ensures p.step == E && Alter(p) > 0 ==>
              TranslateLilyStringPitch(LilyPitchName(p)) == EnglishName(F, Alter(p) - 1)
  {
    var alter := Alter(p);
    if alter >= 0 {
      if p.step == E && alter > 0 {
        TranslateESharps(alter);
      } else {
        TranslateSharps(p.step, alter);
      }
    } else {
      TranslateFlats(p.step, -alter);
    }
  }

  /** The concrete input: Lilypond's E-sharp in the fifth octave, a quarter note,
      arrives as F. */
  lemma ESharpBecomesF(s: string)
    requires s == "eis''4"
    ensures TranslateLilyStringPitch(s) == "f''4"
    ensures TranslateLilyStringPitchIntended(s) == "es''4"
  {
    assert Strings.ReplaceAll("''4", "is", "s") == "''4";
    assert Strings.ReplaceAll("is''4", "is", "s") == "s''4";
    assert Strings.ReplaceAll(s, "is", "s") == "es''4";
    assert Strings.ReplaceAll("''4", "es", "f") == "''4";
    assert Strings.ReplaceAll("es''4", "es", "f") == "f''4";
    assert Strings.ReplaceAll("s''4", "es", "f") == "s''4";
    assert Strings.ReplaceAll("is''4", "es", "f") == "is''4";
    assert Strings.ReplaceAll(s, "es", "f") == s;
  }

  /** The rewriting with the two passes swapped: flats first, then sharps. The "is"
      of a sharp can no longer be half of an "es". */
  function TranslateLilyStringPitchIntended(s: string): string {
    Strings.ReplaceAll(Strings.ReplaceAll(s, "es", "f"), "is", "s")
  }

  /** With the passes swapped every twelve-tone pitch, E-sharp included, comes out
      under its own English name. */
  lemma TranslateIntendedSpellsPitch(p: Pitch)
    requires IsTwelveTone(p)
    ensures TranslateLilyStringPitchIntended(LilyPitchName(p)) == EnglishName(p.step, Alter(p))
  {
    var c := Letter(p.step);
    var alter := Alter(p);
    if alter >= 0 {
      var sharps := Strings.RepeatString("is", alter);
      Strings.ReplaceAllCons(c, sharps, "es", "f");
      Strings.RepeatStringAvoids("is", alter, 'e');
      Strings.NotContainsFirst(sharps, "es");
      Strings.ReplaceAllAbsent(sharps, "es", "f");
      SharpenSharps(p.step, alter);
    } else {
      var flats := Strings.RepeatString("es", -alter);
      Strings.ReplaceAllCons(c, flats, "es", "f");
      Strings.ReplaceAllRepeatString("es", "f", -alter);
      Strings.RepeatStringChar('f', -alter);
      var flattened := [c] + Strings.Repeat('f', -alter);
      assert 'i' !in flattened;
      Strings.NotContainsFirst(flattened, "is");
      Strings.ReplaceAllAbsent(flattened, "is", "s");
    }
  }

  // ---------------------------------------------------------------------------
  // Pitch names

  /** The name rewriting of `pitchToAbjad`: the music21 name lower-cased, then every
      "-" turned into "f" and every "#" into "s". */
  function AbjadPitchName(p: Pitch): (r: string)
    ensures '#' !in r
  {
    var flattened := Strings.ReplaceAll(Strings.Lower(Name(p)), "-", "f");
    Strings.ReplaceAllRemovesChar(flattened, '#', "s");
    Strings.ReplaceAll(flattened, "#", "s")
  }

  /** Lower-casing distributes over concatenation. */
  lemma LowerAppend(a: string, b: string)
    ensures Strings.Lower(a + b) == Strings.Lower(a) + Strings.Lower(b)
  {
  }

  /** A run of a character that is not a letter is its own lower case. */
  lemma LowerRepeat(c: char, n: nat)
    requires !('A' <= c <= 'Z')
    ensures Strings.Lower(Strings.Repeat(c, n)) == Strings.Repeat(c, n)
  {
  }

  /** For a twelve-tone pitch the Abjad name is the English name: `D--` becomes
      "dff", `C#` becomes "cs". */
  lemma AbjadPitchNameSpells(p: Pitch)
    requires IsTwelveTone(p)
    ensures AbjadPitchName(p) == EnglishName(p.step, Alter(p))
  {
    LowerName(p);
    RewriteAccidentalRun(p.step, Alter(p));
  }

  /** The accidental sign of a twelve-tone alteration: '#' up, '-' down. */
  function AccidentalSign(alter: int): char {
    if alter >= 0 then '#' else '-'
  }

  /** A twelve-tone name lower-cased is the step letter and a run of signs. */
  lemma LowerName(p: Pitch)
    requires IsTwelveTone(p)
    ensures Strings.Lower(Name(p)) ==
              [Letter(p.step)] + Strings.Repeat(AccidentalSign(Alter(p)), if Alter(p) >= 0 then Alter(p) else -Alter(p))
  {
    var alter := Alter(p);
    var sym := AccidentalSign(alter);
    var run := Strings.Repeat(sym, if alter >= 0 then alter else -alter);
    assert p.accidental.Some? ==> Symbol(p.accidental.value) == run + "";
    assert Name(p) == StepName(p.step) + run;
    LowerAppend(StepName(p.step), run);
    LowerRepeat(sym, |run|);
  }

  /** The two rewritings turn a letter and a run of signs into the English name. */
  lemma RewriteAccidentalRun(st: Step, alter: int)
    ensures var lowered := [Letter(st)] + Strings.Repeat(AccidentalSign(alter), if alter >= 0 then alter else -alter);
            Strings.ReplaceAll(Strings.ReplaceAll(lowered, "-", "f"), "#", "s") == EnglishName(st, alter)
  {
    var c := Letter(st);
    var run := Strings.Repeat(AccidentalSign(alter), if alter >= 0 then alter else -alter);
    Strings.ReplaceAllConcatChar([c], run, '-', "f");
    assert Strings.ReplaceAll([c], "-", "f") == [c];
    assert Strings.ReplaceAll([c], "#", "s") == [c];
    if alter >= 0 {
      Strings.NotContainsFirst(run, "-");
      Strings.ReplaceAllAbsent(run, "-", "f");
      Strings.ReplaceAllConcatChar([c], run, '#', "s");
      Strings.ReplaceAllRepeat('#', 's', alter);
    } else {
      Strings.ReplaceAllRepeat('-', 'f', -alter);
      var flats := Strings.Repeat('f', -alter);
      Strings.ReplaceAllConcatChar([c], flats, '#', "s");
      Strings.NotContainsFirst(flats, "#");
      Strings.ReplaceAllAbsent(flats, "#", "s");
    }
  }

  /** The doc example: D double-flat is named "dff". */
  lemma AbjadPitchNameExample(p: Pitch)
    requires p == Pitch(D, Some(DoubleFlat))
    ensures AbjadPitchName(p) == "dff"
  {
    AbjadPitchNameSpells(p);
    assert Strings.Repeat('f', 2) == "ff";
  }

  /** Reading an English name back: a step letter followed only by "s" (sharps) or
      only by "f" (flats). */
  function ParseEnglishName(s: string): (r: Option<(Step, int)>)
    ensures r.Some? ==> |s| >= 1 && StepFromChar(s[0]) == Some(r.value.0)
  {
    if |s| == 0 then None
    else match StepFromChar(s[0])
      case None => None
      case Some(step) =>
        var suffix := s[1..];
        if forall k :: 0 <= k < |suffix| ==> suffix[k] == 's' then Some((step, |suffix|))
        else if forall k :: 0 <= k < |suffix| ==> suffix[k] == 'f' then Some((step, -|suffix|))
        else None
  }

  /** The Abjad name determines the pitch's step and alteration: reading it back
      gives both. */
  lemma ParseAbjadPitchName(p: Pitch)
    requires IsTwelveTone(p)
    ensures ParseEnglishName(AbjadPitchName(p)) == Some((p.step, Alter(p)))
  {
    AbjadPitchNameSpells(p);
    var s := EnglishName(p.step, Alter(p));
    assert s[0] == Letter(p.step);
    var suffix := s[1..];
    if Alter(p) < 0 {
      assert suffix == Strings.Repeat('f', -Alter(p));
      assert suffix[0] != 's';
    }
  }

  // ---------------------------------------------------------------------------
  // Notes

  datatype AbjadError =
    | ComplexDuration   // "cannot translate complex notes directly"
    | TupletNote        // "cannot translate tuplet notes directly"

  /** What `noteToAbjad` reads of a note: its duration type, how many tuplets its
      duration carries, and the Lilypond string the Lilypond converter writes for
      it. */
  datatype Note = Note(durationType: string, tuplets: nat, lily: string)

  /** `noteToAbjad`: complex durations and tuplets are refused, in that order;
      anything else becomes its Lilypond string rewritten into Abjad's spelling. */
  function NoteToAbjad(n: Note): (r: Result<string, AbjadError>)
    ensures r.Failure? <==> n.durationType == "complex" || n.tuplets > 0
    ensures n.durationType == "complex" ==> r == Failure(ComplexDuration)
    ensures n.durationType != "complex" && n.tuplets > 0 ==> r == Failure(TupletNote)
    ensures r.Success? ==> r.value == TranslateLilyStringPitch(n.lily) && !Strings.Contains(r.value, "es")
  {
    if n.durationType == "complex" then Failure(ComplexDuration)
    else if n.tuplets > 0 then Failure(TupletNote)
    else Success(TranslateLilyStringPitch(n.lily))
  }

  /** The doc example for a sharp: C#5 as a half note becomes "cs''2". */
  lemma NoteToAbjadSharp(n: Note)
    requires n == Note("half", 0, "cis''2")
    ensures NoteToAbjad(n) == Success("cs''2")
  {
    TranslateExample(n.lily);
  }

  /** The doc example for a flat: D--2 as a 32nd note, "deses,32" in Lilypond,
      becomes "dff,32". */
  lemma NoteToAbjadFlat(n: Note)
    requires n == Note("32nd", 0, "deses,32")
    ensures NoteToAbjad(n) == Success("dff,32")
  {
    var lily := n.lily;
    Strings.NotContainsFirst(lily, "is");
    Strings.ReplaceAllAbsent(lily, "is", "s");
    FlatSuffix(lily);
  }

  lemma FlatSuffix(lily: string)
    requires lily == "deses,32"
    ensures Strings.ReplaceAll(lily, "es", "f") == "dff,32"
  {
    Strings.NotContainsFirst(",32", "es");
    Strings.ReplaceAllAbsent(",32", "es", "f");
    assert "es,32"[..2] == "es" && "es,32"[2..] == ",32";
    assert Strings.ReplaceAll("es,32", "es", "f") == "f,32";
    assert "eses,32"[..2] == "es" && "eses,32"[2..] == "es,32";
    assert Strings.ReplaceAll("eses,32", "es", "f") == "ff,32";
    assert lily[..2] != "es" && lily[1..] == "eses,32";
  }

  /** The doc example for a refusal: a note with a complex duration. */
  lemma NoteToAbjadComplex(n: Note)
    requires n.durationType == "complex"
    ensures NoteToAbjad(n) == Failure(ComplexDuration)
  {
  }
}

=== FILE: contour.dfy ===
/** The helpers of the contour package: rendering contour values (-1, 0 and 1,
    "down", "same", "up") as sign strings, enumerating a sequence with its
    indices, and replacing the zeros of a sequence. */
module Contour {
  import opened Wrappers
  import Strings

  // ---------------------------------------------------------------------------
  // Sign strings

  /** `double_replace`: every "-1" becomes "-", then every remaining "1" becomes "+".
      No digit one survives. */
  function DoubleReplace(s: string): (r: string)
    ensures '1' !in r
  {
    var dashed := Strings.ReplaceAll(s, "-1", "-");
    Strings.ReplaceAllRemovesChar(dashed, '1', "+");
    Strings.ReplaceAll(dashed, "1", "+")
  }

  /** The contour values: down, same, up. */
  predicate IsContourValue(x: int) {
    -1 <= x <= 1
  }

  /** The sign a contour value is meant to print as. */
  function SignString(x: int): string {
    if x < 0 then "-" else if x == 0 then "0" else "+"
  }

  /** Reading a sign back. */
  function ReadSign(s: string): Option<int> {
    if s == "-" then Some(-1)
    else if s == "0" then Some(0)
    else if s == "+" then Some(1)
    else None
  }

  /** `double_replace(str(x))` prints each contour value as its sign, and the
      sign reads back as the value. */
  lemma DoubleReplaceOfContourValue(x: int)
    requires IsContourValue(x)
    ensures DoubleReplace(Strings.IntToString(x)) == SignString(x)
    ensures ReadSign(DoubleReplace(Strings.IntToString(x))) == Some(x)
  {
    if x == -1 {
      assert Strings.IntToString(x) == "-1";
      assert Strings.ReplaceAll("-1", "-1", "-") == "-";
      assert Strings.ReplaceAll("-", "1", "+") == "-";
    } else if x == 0 {
      assert Strings.IntToString(x) == "0";
      assert Strings.ReplaceAll("0", "-1", "-") == "0";
      assert Strings.ReplaceAll("0", "1", "+") == "0";
    } else {
      assert Strings.IntToString(x) == "1";
      assert Strings.ReplaceAll("1", "-1", "-") == "1";
      assert Strings.ReplaceAll("1", "1", "+") == "+";
    }
  }

  /** Outside the contour values the rendering is lossy: the "-1" at the front of
      `-12` collapses to "-", so `-12` prints exactly as `-2` does. */
  lemma DoubleReplaceMergesOutsideContour(a: int, b: int)
    requires a == -12 && b == -2
    ensures DoubleReplace(Strings.IntToString(a)) == DoubleReplace(Strings.IntToString(b)) == "-2"
  {
    assert Strings.NatToString(12) == "12";
    assert Strings.IntToString(a) == "-12";
    assert Strings.ReplaceAll("-12", "-1", "-") == "-2";
    assert Strings.ReplaceAll("-2", "1", "+") == "-2";
    assert Strings.IntToString(b) == "-2";
    assert Strings.ReplaceAll("-2", "-1", "-") == "-2";
  }

  /** The documented example: '-1 1 -1 1' becomes '- + - +'. */
  lemma DoubleReplaceExample(s: string)
    requires s == "-1 1 -1 1"
    ensures DoubleReplace(s) == "- + - +"
  {
    DownPass(s);
    UpPass("- 1 - 1");
  }

  lemma DownPass(s: string)
    requires s == "-1 1 -1 1"
    ensures Strings.ReplaceAll(s, "-1", "-") == "- 1 - 1"
  {
    assert Strings.ReplaceAll("1", "-1", "-") == "1";
    assert Strings.ReplaceAll(" -1 1", "-1", "-") == " - 1";
    assert Strings.ReplaceAll("-1 1", "-1", "-") == "- 1";
    assert Strings.ReplaceAll(" 1 -1 1", "-1", "-") == " 1 - 1";
  }

  lemma UpPass(s: string)
    requires s == "- 1 - 1"
    ensures Strings.ReplaceAll(s, "1", "+") == "- + - +"
  {
    assert Strings.ReplaceAll(" 1", "1", "+") == " +";
    assert Strings.ReplaceAll(" - 1", "1", "+") == " - +";
    assert Strings.ReplaceAll(" 1 - 1", "1", "+") == " + - +";
  }

  /** The per-element renderings `replace_list_to_plus_minus` joins. */
  function Signs(xs: seq<int>): (parts: seq<string>)
    ensures |parts| == |xs|
  {
    seq(|xs|, k requires 0 <= k < |xs| => DoubleReplace(Strings.IntToString(xs[k])))
  }

  /** `replace_list_to_plus_minus`: each element's rendering, joined with single
      spaces. No rendering holds a space, so splitting at spaces gives the
      renderings back one per element. */
  function ReplaceListToPlusMinus(xs: seq<int>): (r: string)
    ensures |xs| == 0 <==> r == ""
    ensures |xs| > 0 ==> Strings.Split(r, ' ') == Signs(xs)
  {
    if |xs| == 0 then ""
    else
      SplitOfSigns(xs);
      Strings.Join(" ", Signs(xs))
  }

  /** Rendering an integer never produces a space. */
  lemma SignHasNoSpace(x: int)
    ensures ' ' !in DoubleReplace(Strings.IntToString(x))
  {
    var s := Strings.IntToString(x);
    assert ' ' !in s by {
      if x < 0 {
        assert Strings.AllDigits(Strings.NatToString(-x));
      } else {
        assert Strings.AllDigits(Strings.NatToString(x));
      }
    }
    Strings.ReplaceAllKeepsAbsent(s, "-1", "-", ' ');
    Strings.ReplaceAllKeepsAbsent(Strings.ReplaceAll(s, "-1", "-"), "1", "+", ' ');
  }

  /** Rendering an integer never produces the empty string. */
  lemma SignNotEmpty(x: int)
    ensures DoubleReplace(Strings.IntToString(x)) != ""
  {
    var dashed := Strings.ReplaceAll(Strings.IntToString(x), "-1", "-");
    assert dashed != "";
    assert Strings.ReplaceAll(dashed, "1", "+") != "";
  }

  lemma SplitOfSigns(xs: seq<int>)
    requires |xs| > 0
    ensures Strings.Join(" ", Signs(xs)) != ""
    ensures Strings.Split(Strings.Join(" ", Signs(xs)), ' ') == Signs(xs)
  {
    var parts := Signs(xs);
    forall k | 0 <= k < |parts| ensures ' ' !in parts[k] {
      SignHasNoSpace(xs[k]);
    }
    Strings.SplitOfJoin(parts, ' ');
    assert Strings.Join(" ", parts) == Strings.Join([' '], parts);
    SignNotEmpty(xs[0]);
    JoinOfSignsNotEmpty(parts);
  }

  /** Reading a space-separated sign string back into contour values. */
  function ReadContour(s: string): Option<seq<int>> {
    if s == "" then Some([]) else ReadSigns(Strings.Split(s, ' '))
  }

  function ReadSigns(parts: seq<string>): (r: Option<seq<int>>)
    ensures r.Some? ==> |r.value| == |parts|
    decreases |parts|
  {
    if |parts| == 0 then Some([])
    else match (ReadSign(parts[0]), ReadSigns(parts[1..]))
      case (Some(x), Some(rest)) => Some([x] + rest)
      case _ => None
  }

  /** A contour rendered by `replace_list_to_plus_minus` reads back as itself: the
      rendering of contour values loses nothing. */
  lemma ReadContourOfReplaceList(xs: seq<int>)
    requires forall k :: 0 <= k < |xs| ==> IsContourValue(xs[k])
    ensures ReadContour(ReplaceListToPlusMinus(xs)) == Some(xs)
  {
    var parts := Signs(xs);
    forall k | 0 <= k < |xs| ensures parts[k] == SignString(xs[k]) {
      DoubleReplaceOfContourValue(xs[k]);
    }
    if |xs| > 0 {
      ReadSignsOfSigns(xs, parts);
    }
  }

  lemma JoinOfSignsNotEmpty(parts: seq<string>)
    requires |parts| > 0 && |parts[0]| > 0
    ensures Strings.Join(" ", parts) != ""
  {
  }

  lemma {:induction false} ReadSignsOfSigns(xs: seq<int>, parts: seq<string>)
    requires |parts| == |xs|
    requires forall k :: 0 <= k < |xs| ==> IsContourValue(xs[k]) && parts[k] == SignString(xs[k])
    ensures ReadSigns(parts) == Some(xs)
    decreases |xs|
  {
    if |xs| > 0 {
      ReadSignsOfSigns(xs[1..], parts[1..]);
      assert ReadSign(parts[0]) == Some(xs[0]);
      assert [xs[0]] + xs[1..] == xs;
    }
  }

  /** The documented example: [1, 1, -1, -1] becomes '+ + - -'. */
  lemma ReplaceListExample(xs: seq<int>)
    requires xs == [1, 1, -1, -1]
    ensures ReplaceListToPlusMinus(xs) == "+ + - -"
  {
    var parts := Signs(xs);
    forall k | 0 <= k < |xs| ensures parts[k] == SignString(xs[k]) {
      DoubleReplaceOfContourValue(xs[k]);
    }
    assert parts == ["+", "+", "-", "-"];
    assert Strings.Join(" ", parts[3..]) == "-";
    assert Strings.Join(" ", parts[2..]) == "- -";
    assert Strings.Join(" ", parts[1..]) == "+ - -";
  }

  // ---------------------------------------------------------------------------
  // Enumeration and zero replacement

  /** `with_index(seq)` from position `i` on: the pairs `(j, s[j])` the generator
      still has to yield, in ascending order of `j`. */
  function WithIndexFrom<T>(s: seq<T>, i: nat): (r: seq<(nat, T)>)
    requires i <= |s|
    ensures |r| == |s| - i
    ensures forall k :: 0 <= k < |r| ==> r[k] == (i + k, s[i + k])
    decreases |s| - i
  {
    if i == |s| then [] else [(i, s[i])] + WithIndexFrom(s, i + 1)
  }

  /** `with_index(seq)`: every index paired with its element, in ascending order. */
  function WithIndex<T>(s: seq<T>): (r: seq<(nat, T)>)
    ensures |r| == |s|
    ensures forall k :: 0 <= k < |r| ==> r[k] == (k, s[k])
  {
    WithIndexFrom(s, 0)
  }

  /** The enumeration's second components are the sequence itself and its first
      components count up from zero. */
  lemma WithIndexUnzips<T>(s: seq<T>)
    ensures var r := WithIndex(s);
            |r| == |s| &&
            seq(|r|, k requires 0 <= k < |r| => r[k].1) == s &&
            forall k :: 0 <= k < |r| ==> r[k].0 == k
  {
  }

  /** The reference meaning of `replace_all`: each zero replaced, every other
      element kept. */
  function ZerosReplaced(s: seq<int>, replacement: int): (r: seq<int>)
    ensures |r| == |s|
    ensures forall k :: 0 <= k < |s| ==> r[k] == if s[k] == 0 then replacement else s[k]
    decreases |s|
  {
    if |s| == 0 then []
    else [if s[0] == 0 then replacement else s[0]] + ZerosReplaced(s[1..], replacement)
  }

  /** `replace_all(seq, replacement)`: a copy of `seq`, walked with `with_index`,
      where each element equal to zero is overwritten. The input is a value, so it
      is not modified. */
  method ReplaceZeros(s: seq<int>, replacement: int) returns (r: seq<int>)
    ensures r == ZerosReplaced(s, replacement)
  {
    r := s;
    var pairs := WithIndex(r);
    var n := 0;
    while n < |pairs|
      invariant 0 <= n <= |pairs| == |s| == |r|
      invariant forall k :: 0 <= k < n ==> r[k] == if s[k] == 0 then replacement else s[k]
      invariant forall k :: n <= k < |s| ==> r[k] == s[k]
    {
      var (i, elem) := pairs[n];
      if elem == 0 {
        r := r[i := replacement];
      }
      n := n + 1;
    }
  }

  /** With a non-zero replacement no zero is left. */
  lemma ZerosReplacedLeavesNoZero(s: seq<int>, replacement: int)
    requires replacement != 0
    ensures 0 !in ZerosReplaced(s, replacement)
  {
  }

  /** Replacing zeros twice is replacing them once; a zero-free sequence is kept. */
  lemma ZerosReplacedIdempotent(s: seq<int>, replacement: int)
    ensures 0 !in s ==> ZerosReplaced(s, replacement) == s
    ensures ZerosReplaced(ZerosReplaced(s, replacement), replacement) == ZerosReplaced(s, replacement)
  {
  }

  /** The documented example: [0, 3, 2, 0] with -1 becomes [-1, 3, 2, -1]. */
  lemma ZerosReplacedExample(s: seq<int>)
    requires s == [0, 3, 2, 0]
    ensures ZerosReplaced(s, -1) == [-1, 3, 2, -1]
  {
  }
}

=== FILE: editorial.dfy ===
/** Editorial data attached to notes (musica ficta, colour, hiding, comments,
    free-form entries) and its rendering as Lilypond text. */
module Editorial {
  import opened Wrappers
  import opened Pitches

  datatype EditorialError =
    | CannotDealWithPosition(position: string)  // a comment placed neither above nor below
    | NotAComment                               // a truthy comment attribute that is not a Comment

  /** A comment shown above or below a note. */
  datatype Comment = Comment(position: string, text: Option<string>)

  /** A new comment: below the note, without text. */
  const NewComment := Comment("below", None)

  /** The values an editorial attribute can hold, compared by value: nothing,
      a truth value, a string, an accidental, a comment, a list, or one of the
      editorial's own internal members (its `misc` dictionary or a method),
      named. */
  datatype Value =
    | NoValue
    | Flag(b: bool)
    | Text(s: string)
    | AccidentalValue(a: Accidental)
    | CommentValue(c: Comment)
    | ListValue(items: seq<Value>)
    | Internal(name: string)

  /** Python truthiness of a value. */
  predicate Truthy(v: Value) {
    match v
    case NoValue => false
    case Flag(b) => b
    case Text(s) => |s| > 0
    case ListValue(items) => |items| > 0
    case _ => true
  }

  /** The editorial of one note. The interval attributes hold analysis results,
      a missing entry meaning the attribute's initial value; `misc` holds the
      free-form entries. */
  datatype NoteEditorial = NoteEditorial(
    ficta: Option<Accidental>,
    color: Option<string>,
    hidden: bool,
    comment: Value,
    intervals: map<string, Value>,
    misc: map<string, Value>)

  const IntervalAttributes: set<string> := {
    "harmonicInterval", "harmonicIntervals", "melodicInterval", "melodicIntervals",
    "melodicIntervalOverRests", "melodicIntervalsOverRests"}

  /** Members of the editorial that are not editorial data: the `misc`
      dictionary itself and the methods. */
  const InternalAttributes: set<string> := {
    "misc", "jsonAttributes", "lilyStart", "fictaLilyStart", "colorLilyStart", "lilyAttached", "lilyEnd"}

  /** The initial value of an interval attribute: an empty list for the plural
      names, nothing for the others. */
  function InitialInterval(name: string): Value {
    if name in {"harmonicIntervals", "melodicIntervals", "melodicIntervalsOverRests"} then ListValue([]) else NoValue
  }

  /** A new editorial: no ficta, no colour, not hidden, a new comment, the
      initial interval values and no free-form entries. */
  const NewNoteEditorial := NoteEditorial(None, None, false, CommentValue(NewComment), map[], map[])

  // ---------------------------------------------------------------------------
  // Lilypond rendering

  const FictaMark := "\\ficta "
  const ColorOpen := "\\color \""
  const ColorClose := "\" "
  const HideMark := "\\hideNotes "
  const UnhideMark := "\\unHideNotes "

  /** `Comment.lily`: nothing without text; the text quoted after `_` below the
      note and after `^` above it; any other position is an error. */
  function CommentLily(c: Comment): (r: Result<string, EditorialError>)
    ensures c.text.None? ==> r == Success("")
    ensures c.text.Some? ==> (r.Success? <==> c.position in {"below", "above"})
    ensures r.Failure? ==> r.error == CannotDealWithPosition(c.position)
    ensures c.text.Some? && r.Success? ==> ReadCommentLily(r.value) == Some((c.position, c.text.value))
  {
    if c.text.None? then Success("")
    else if c.position == "below" then
      ReadCommentOf('_', c.text.value);
      Success("_\"" + c.text.value + "\"")
    else if c.position == "above" then
      ReadCommentOf('^', c.text.value);
      Success("^\"" + c.text.value + "\"")
    else Failure(CannotDealWithPosition(c.position))
  }

  /** Reads a rendered comment back: its position and its text. */
  function ReadCommentLily(s: string): Option<(string, string)> {
    if |s| < 3 || s[1] != '"' || s[|s| - 1] != '"' then None
    else if s[0] == '_' then Some(("below", s[2..|s| - 1]))
    else if s[0] == '^' then Some(("above", s[2..|s| - 1]))
    else None
  }

  lemma ReadCommentOf(mark: char, text: string)
    requires mark in {'_', '^'}
    ensures ReadCommentLily([mark] + "\"" + text + "\"") == Some((if mark == '_' then "below" else "above", text))
  {
    var s := [mark] + "\"" + text + "\"";
    assert s[2..|s| - 1] == text;
  }

  lemma CommentLilyExample()
    ensures CommentLily(Comment("above", Some("hello"))) == Success("^\"hello\"")
    ensures CommentLily(NewComment) == Success("")
  {
    assert "^\"" + "hello" + "\"" == "^\"hello\"";
  }

  /** Colours are written only when set to a non-empty name. */
  predicate ColorShown(ed: NoteEditorial) {
    ed.color.Some? && |ed.color.value| > 0
  }

  /** `NoteEditorial.lilyStart`: the ficta mark when ficta is set, the colour
      command when a colour is set, and the hiding command when hidden, in that
      order. */
  function LilyStart(ed: NoteEditorial): (r: string)
    ensures ed.ficta.None? && !ColorShown(ed) && !ed.hidden ==> r == ""
  {
    (if ed.ficta.Some? then FictaMark else "")
    + (if ColorShown(ed) then ColorOpen + ed.color.value + ColorClose else "")
    + (if ed.hidden then HideMark else "")
  }

  predicate StartsWith(s: string, p: string) {
    |p| <= |s| && s[..|p|] == p
  }

  predicate EndsWith(s: string, p: string) {
    |p| <= |s| && s[|s| - |p|..] == p
  }

  /** What a rendered start string says: whether ficta is marked, the colour
      named, and whether the note is hidden. */
  function ReadLilyStart(s: string): (bool, Option<string>, bool) {
    var (ficta, s1) := ReadMark(s);
    var (hidden, s2) := ReadHide(s1);
    (ficta, ReadColor(s2), hidden)
  }

  /** Whether `s` starts with the ficta mark, and what follows it. */
  function ReadMark(s: string): (bool, string) {
    if StartsWith(s, FictaMark) then (true, s[|FictaMark|..]) else (false, s)
  }

  /** Whether `s` ends with the hiding mark, and what precedes it. */
  function ReadHide(s: string): (bool, string) {
    if EndsWith(s, HideMark) then (true, s[..|s| - |HideMark|]) else (false, s)
  }

  /** The colour a colour command names. */
  function ReadColor(s: string): Option<string> {
    if |s| >= |ColorOpen| + |ColorClose| && StartsWith(s, ColorOpen) && EndsWith(s, ColorClose)
    then Some(s[|ColorOpen|..|s| - |ColorClose|]) else None
  }

  function ColorPart(ed: NoteEditorial): string {
    if ColorShown(ed) then ColorOpen + ed.color.value + ColorClose else ""
  }

  function HidePart(ed: NoteEditorial): string {
    if ed.hidden then HideMark else ""
  }

  /** The start string says everything it renders: ficta, the colour shown,
      and hiding can all be read back from it. */
  lemma ReadLilyStartOfLilyStart(ed: NoteEditorial)
    ensures ReadLilyStart(LilyStart(ed)) == (ed.ficta.Some?, if ColorShown(ed) then ed.color else None, ed.hidden)
  {
    var rest := ColorPart(ed) + HidePart(ed);
    FictaRead(ed);
    assert ReadMark(LilyStart(ed)) == (ed.ficta.Some?, rest);
    HiddenRead(ed);
    assert ReadHide(rest) == (ed.hidden, ColorPart(ed));
    ColorRead(ed);
  }

  lemma FictaRead(ed: NoteEditorial)
    ensures ReadMark(LilyStart(ed)) == (ed.ficta.Some?, ColorPart(ed) + HidePart(ed))
  {
    var rest := ColorPart(ed) + HidePart(ed);
    var s := LilyStart(ed);
    if ed.ficta.Some? {
      assert s == FictaMark + rest;
      assert s[..|FictaMark|] == FictaMark && s[|FictaMark|..] == rest;
    } else {
      assert s == rest;
      NoFictaMark(ed);
    }
  }

  lemma ColorRead(ed: NoteEditorial)
    ensures ReadColor(ColorPart(ed)) == if ColorShown(ed) then ed.color else None
  {
    var c := ColorPart(ed);
    if ColorShown(ed) {
      var name := ed.color.value;
      assert c[..|ColorOpen|] == ColorOpen;
      assert c[|c| - |ColorClose|..] == ColorClose;
      assert c[|ColorOpen|..|c| - |ColorClose|] == name;
    }
  }

  /** Without ficta, a start string does not begin with the ficta mark. */
  lemma NoFictaMark(ed: NoteEditorial)
    ensures !StartsWith(ColorPart(ed) + HidePart(ed), FictaMark)
  {
    var rest := ColorPart(ed) + HidePart(ed);
    if |rest| >= 2 {
      if ColorShown(ed) {
        assert rest[1] == ColorOpen[1];
      } else {
        assert rest[1] == HideMark[1];
      }
      assert FictaMark[1] == 'f';
    }
  }

  /** After the ficta mark, the rest ends with the hiding mark exactly when the
      note is hidden. */
  lemma HiddenRead(ed: NoteEditorial)
    ensures var rest := ColorPart(ed) + HidePart(ed);
            EndsWith(rest, HideMark) == ed.hidden
            && (ed.hidden ==> rest[..|rest| - |HideMark|] == ColorPart(ed))
            && (!ed.hidden ==> rest == ColorPart(ed))
  {
    var c := ColorPart(ed);
    var rest := c + HidePart(ed);
    if ed.hidden {
      assert rest[|rest| - |HideMark|..] == HideMark;
      assert rest[..|rest| - |HideMark|] == c;
    } else {
      assert rest == c;
      if |c| >= |HideMark| {
        assert ColorShown(ed);
        assert c[|c| - 2] == '"';
        assert HideMark[|HideMark| - 2] == 's';
        assert c[|c| - |HideMark|..][|HideMark| - 2] == c[|c| - 2];
      }
    }
  }

  /** `NoteEditorial.lilyEnd`: the un-hiding command exactly when hidden. */
  function LilyEnd(ed: NoteEditorial): (r: string)
    ensures r == "" || r == UnhideMark
  {
    if ed.hidden then UnhideMark else ""
  }

  /** Every hiding command a note's start string opens is closed by its end
      string, and nothing is closed that was not opened. */
  lemma LilyEndClosesStart(ed: NoteEditorial)
    ensures LilyEnd(ed) == UnhideMark <==> ReadLilyStart(LilyStart(ed)).2
  {
    ReadLilyStartOfLilyStart(ed);
  }

  lemma LilyStartExample(ed: NoteEditorial)
    requires ed == NoteEditorial(Some(Sharp), Some("blue"), true, CommentValue(NewComment), map[], map[])
    ensures LilyStart(ed) == "\\ficta \\color \"blue\" \\hideNotes "
    ensures LilyStart(NewNoteEditorial) == "" && LilyEnd(NewNoteEditorial) == ""
  {
  }

  /** `NoteEditorial.lilyAttached`: the comment's rendering when the comment is
      set and has text; nothing otherwise. A truthy comment attribute that is
      not a comment has no text to read. */
  function LilyAttached(ed: NoteEditorial): (r: Result<string, EditorialError>)
    ensures ed.comment.CommentValue? ==>
              var c := ed.comment.c;
              r == if c.text.Some? && |c.text.value| > 0 then CommentLily(c) else Success("")
    ensures !ed.comment.CommentValue? ==> (r.Failure? <==> Truthy(ed.comment))
    ensures r.Success? && r.value != "" ==>
              ed.comment.CommentValue? && ReadCommentLily(r.value) == Some((ed.comment.c.position, ed.comment.c.text.value))
  {
    match ed.comment
    case CommentValue(c) =>
      if c.text.Some? && |c.text.value| > 0 then CommentLily(c) else Success("")
    case _ =>
      if Truthy(ed.comment) then Failure(NotAComment) else Success("")
  }

  // ---------------------------------------------------------------------------
  // Searching by editorial attribute

  /** The value of an attribute of the editorial: the standard attributes
      first, then the free-form entries; None when neither has the name. */
  function Lookup(ed: NoteEditorial, name: string): (r: Option<Value>)
    ensures name in IntervalAttributes ==> r.Some?
    ensures name !in {"ficta", "color", "hidden", "comment"} && name !in IntervalAttributes && name !in InternalAttributes ==>
              r == if name in ed.misc then Some(ed.misc[name]) else None
  {
    if name == "ficta" then Some(if ed.ficta.None? then NoValue else AccidentalValue(ed.ficta.value))
    else if name == "color" then Some(if ed.color.None? then NoValue else Text(ed.color.value))
    else if name == "hidden" then Some(Flag(ed.hidden))
    else if name == "comment" then Some(ed.comment)
    else if name in IntervalAttributes then
      Some(if name in ed.intervals then ed.intervals[name] else InitialInterval(name))
    else if name in InternalAttributes then Some(Internal(name))
    else if name in ed.misc then Some(ed.misc[name])
    else None
  }

  /** A standard attribute shadows a free-form entry of the same name. */
  lemma StandardAttributeFirst(ed: NoteEditorial, name: string, v: Value)
    requires name in {"ficta", "color", "hidden", "comment"}
    ensures Lookup(ed.(misc := ed.misc[name := v]), name) == Lookup(ed, name)
  {
  }

  /** Something in a list being searched: an object with or without an
      editorial. */
  datatype Element = Element(editorial: Option<NoteEditorial>)

  /** Whether `getObjectsWithEditorial` keeps an object: it has an editorial,
      the attribute has a value, and that value is among the wanted values
      when they are given. */
  predicate Selected(e: Element, name: string, values: Option<seq<Value>>) {
    e.editorial.Some?
    && Lookup(e.editorial.value, name).Some?
    && (values.Some? ==> Lookup(e.editorial.value, name).value in values.value)
  }

  /** The selected objects, in order. */
  function SelectedObjects(objs: seq<Element>, name: string, values: Option<seq<Value>>): (r: seq<Element>)
    ensures |r| <= |objs|
    ensures forall k :: 0 <= k < |r| ==> Selected(r[k], name, values) && r[k] in objs
    decreases |objs|
  {
    if |objs| == 0 then []
    else
      var rest := SelectedObjects(objs[1..], name, values);
      if Selected(objs[0], name, values) then [objs[0]] + rest else rest
  }

  /** `getObjectsWithEditorial`: one pass over the list, keeping the selected
      objects. */
  method GetObjectsWithEditorial(objs: seq<Element>, name: string, values: Option<seq<Value>>) returns (found: seq<Element>)
    ensures found == SelectedObjects(objs, name, values)
    ensures forall k :: 0 <= k < |found| ==> Selected(found[k], name, values)
  {
    found := [];
    var i := |objs|;
    while i > 0
      invariant 0 <= i <= |objs|
      invariant found == SelectedObjects(objs[i..], name, values)
    {
      i := i - 1;
      assert objs[i..][1..] == objs[i + 1..];
      if Selected(objs[i], name, values) {
        found := [objs[i]] + found;
      }
    }
    assert objs[0..] == objs;
  }

  /** `s` picks the entries of `objs` at the strictly increasing positions
      `idx`. */
  predicate PicksAt(s: seq<Element>, objs: seq<Element>, idx: seq<nat>) {
    |idx| == |s|
    && (forall k :: 0 <= k < |idx| ==> idx[k] < |objs| && s[k] == objs[idx[k]])
    && (forall k, l :: 0 <= k < l < |idx| ==> idx[k] < idx[l])
  }

  function Shift(idx: seq<nat>): (r: seq<nat>)
    ensures |r| == |idx| && forall k :: 0 <= k < |idx| ==> r[k] == idx[k] + 1
  {
    seq(|idx|, k requires 0 <= k < |idx| => idx[k] + 1)
  }

  /** Positions in the tail, shifted by one, are positions in the whole. */
  lemma ShiftPicks(objs: seq<Element>, r: seq<Element>, inner: seq<nat>)
    requires |objs| > 0 && PicksAt(r, objs[1..], inner)
    ensures PicksAt(r, objs, Shift(inner))
    ensures 0 !in Shift(inner)
    ensures forall j :: 1 <= j < |objs| ==> (j in Shift(inner) <==> j - 1 in inner)
  {
    var shifted := Shift(inner);
    forall k | 0 <= k < |shifted| ensures shifted[k] < |objs| && r[k] == objs[shifted[k]] {
      assert objs[1..][inner[k]] == objs[inner[k] + 1];
    }
    forall j | 1 <= j < |objs| ensures j in shifted <==> j - 1 in inner {
      if j - 1 in inner {
        var k :| 0 <= k < |inner| && inner[k] == j - 1;
        assert shifted[k] == j;
      }
    }
  }

  lemma ConsPicks(objs: seq<Element>, r: seq<Element>, idx: seq<nat>)
    requires |objs| > 0 && PicksAt(r, objs, idx) && 0 !in idx
    ensures PicksAt([objs[0]] + r, objs, [0] + idx)
  {
    var r2 := [objs[0]] + r;
    var idx2 := [0] + idx;
    forall k | 0 <= k < |idx2| ensures idx2[k] < |objs| && r2[k] == objs[idx2[k]] {
      if k > 0 { assert idx2[k] == idx[k - 1] && r2[k] == r[k - 1]; }
    }
    forall k, l | 0 <= k < l < |idx2| ensures idx2[k] < idx2[l] {
      if k > 0 {
        assert idx2[k] == idx[k - 1] && idx2[l] == idx[l - 1];
      } else {
        assert idx2[l] == idx[l - 1] && idx[l - 1] in idx;
      }
    }
  }

  /** The selection keeps order and misses nothing: it is the subsequence of
      the list at exactly the positions holding selected objects. */
  lemma {:induction false} SelectedObjectsIsSubsequence(objs: seq<Element>, name: string, values: Option<seq<Value>>)
    returns (idx: seq<nat>)
    ensures PicksAt(SelectedObjects(objs, name, values), objs, idx)
    ensures forall j :: 0 <= j < |objs| ==> (Selected(objs[j], name, values) <==> j in idx)
    decreases |objs|
  {
    if |objs| == 0 {
      idx := [];
    } else {
      var inner := SelectedObjectsIsSubsequence(objs[1..], name, values);
      var rest := SelectedObjects(objs[1..], name, values);
      ShiftPicks(objs, rest, inner);
      var shifted := Shift(inner);
      if Selected(objs[0], name, values) {
        ConsPicks(objs, rest, shifted);
        idx := [0] + shifted;
      } else {
        idx := shifted;
      }
      forall j | 0 <= j < |objs| ensures Selected(objs[j], name, values) <==> j in idx {
        if j > 0 {
          assert objs[j] == objs[1..][j - 1];
        }
      }
    }
  }

  /** `n` copies of an object, as `repeatAppend` adds them. */
  function Copies(e: Element, n: nat): (r: seq<Element>)
    ensures |r| == n && forall k :: 0 <= k < n ==> r[k] == e
  {
    seq(n, k => e)
  }

  lemma {:induction false} SelectedObjectsAppend(a: seq<Element>, b: seq<Element>, name: string, values: Option<seq<Value>>)
    ensures SelectedObjects(a + b, name, values) == SelectedObjects(a, name, values) + SelectedObjects(b, name, values)
    decreases |a|
  {
    if |a| > 0 {
      assert (a + b)[1..] == a[1..] + b;
      SelectedObjectsAppend(a[1..], b, name, values);
    } else {
      assert a + b == b;
    }
  }

  lemma {:induction false} SelectedCopies(e: Element, n: nat, name: string, values: Option<seq<Value>>)
    ensures |SelectedObjects(Copies(e, n), name, values)| == if Selected(e, name, values) then n else 0
    decreases n
  {
    if n > 0 {
      assert Copies(e, n)[1..] == Copies(e, n - 1);
      SelectedCopies(e, n - 1, name, values);
    }
  }

  /** The doctest: five notes marked as passing tones, two plain notes and
      three commented "consider revising"; searching for the passing-tone
      entry finds five, searching the comments for given texts finds three. */
  lemma GetObjectsWithEditorialExample(n1: Element, n2: Element, plain: Element, objs: seq<Element>, values: seq<Value>)
    requires plain == Element(Some(NewNoteEditorial))
    requires n1 == Element(Some(NewNoteEditorial.(misc := map["isPassingTone" := Flag(true)])))
    requires n2 == Element(Some(NewNoteEditorial.(comment := Text("consider revising"))))
    requires objs == Copies(n1, 5) + Copies(plain, 2) + Copies(n2, 3)
    requires values == [Text("consider revising"), Text("remove")]
    ensures |SelectedObjects(objs, "isPassingTone", None)| == 5
    ensures |SelectedObjects(objs, "comment", Some(values))| == 3
  {
    CountSelected(n1, plain, n2, "isPassingTone", None);
    CountSelected(n1, plain, n2, "comment", Some(values));
    assert Selected(n1, "isPassingTone", None);
    assert !Selected(plain, "isPassingTone", None) && !Selected(n2, "isPassingTone", None);
    assert !Selected(n1, "comment", Some(values)) && !Selected(plain, "comment", Some(values));
    assert Selected(n2, "comment", Some(values));
  }

  lemma CountSelected(n1: Element, plain: Element, n2: Element, name: string, values: Option<seq<Value>>)
    ensures |SelectedObjects(Copies(n1, 5) + Copies(plain, 2) + Copies(n2, 3), name, values)|
         == (if Selected(n1, name, values) then 5 else 0)
          + (if Selected(plain, name, values) then 2 else 0)
          + (if Selected(n2, name, values) then 3 else 0)
  {
    SelectedObjectsAppend(Copies(n1, 5) + Copies(plain, 2), Copies(n2, 3), name, values);
    SelectedObjectsAppend(Copies(n1, 5), Copies(plain, 2), name, values);
    SelectedCopies(n1, 5, name, values);
    SelectedCopies(plain, 2, name, values);
    SelectedCopies(n2, 3, name, values);
  }
}

=== FILE: key.dfy ===
/** Key signatures and keys: circle-of-fifths arithmetic over spelled pitches.
    A key signature is a signed count of sharps (negative for flats), optionally
    with a mode; a key adds a tonic pitch. */
module Key {
  import opened Wrappers
  import opened Pitches
  import Strings

  datatype KeyError =
    | QuarterToneKey                    // sharps of a pitch with a non-twelve-tone accidental
    | NotAPitch                         // sharps of something that is neither a name, a pitch nor a note
    | UnparsablePitchName(name: string) // a name `pitch.Pitch` cannot read
    | InvalidSharps                     // a KeySignature from a non-integral "number" of sharps
    | NoScaleForMode(mode: string)      // getScale for a mode other than major or minor
    | SharpsUnset                       // arithmetic on an unset (None) sharps count
    | NoAlternates                      // tonal certainty with no alternate interpretations
    | NoRunnerUp                        // tonal certainty with no positively correlated alternate
    | CoefficientUnset                  // tonal certainty of a key with no correlation coefficient

  // ---------------------------------------------------------------------------
  // Key strings

  /** Strips every trailing copy of `c` (Python's `s.rstrip(c)`). */
  function RStripChar(s: string, c: char): (r: string)
    ensures |r| <= |s| && r + Strings.Repeat(c, |s| - |r|) == s
    ensures |r| > 0 ==> r[|r| - 1] != c
    decreases |s|
  {
    if |s| > 0 && s[|s| - 1] == c then
      var r := RStripChar(s[..|s| - 1], c);
      assert Strings.Repeat(c, |s| - |r|) == Strings.Repeat(c, |s| - 1 - |r|) + [c] by {
        RepeatSnoc(c, |s| - 1 - |r|);
      }
      r
    else
      assert Strings.Repeat(c, 0) == "";
      s
  }

  lemma RepeatSnoc(c: char, n: nat)
    ensures Strings.Repeat(c, n + 1) == Strings.Repeat(c, n) + [c]
  {
  }

  /** `convertKeyStringToMusic21KeyString`: the flat written as a trailing `b`
      ("Eb") becomes music21's `-` ("E-"); "bb" and "Bb" are B-flat minor and
      major; a string starting with a lower-case `b` is left alone. */
  function ConvertKeyString(s: string): (r: string)
    ensures |s| == 0 || s[|s| - 1] != 'b' ==> r == s
    ensures |s| > 0 && s[0] != 'b' ==> |r| == 0 || r[|r| - 1] != 'b'
  {
    if s == "bb" then "b-"
    else if s == "Bb" then "B-"
    else if |s| > 0 && s[|s| - 1] == 'b' && s[0] != 'b' then RStripChar(s, 'b') + "-"
    else s
  }

  /** A single trailing `b` after a tonic that does not start with `b` is
      rewritten as a flat sign. */
  lemma ConvertKeyStringTrailingFlat(t: string)
    requires |t| > 0 && t[0] != 'b' && t[|t| - 1] != 'b' && t != "B"
    ensures ConvertKeyString(t + "b") == t + "-"
  {
    var s := t + "b";
    assert s[|s| - 1] == 'b' && s[0] == t[0];
    assert s[..|s| - 1] == t;
    assert RStripChar(s, 'b') == t;
  }

  lemma ConvertKeyStringExamples()
    ensures ConvertKeyString("Eb") == "E-"
    ensures ConvertKeyString("f#") == "f#"
    ensures ConvertKeyString("bb") == "b-"
    ensures ConvertKeyString("Bb") == "B-"
    ensures ConvertKeyString("b#") == "b#"
    ensures ConvertKeyString("c") == "c"
  {
    ConvertKeyStringTrailingFlat("E");
  }

  // ---------------------------------------------------------------------------
  // Sharps and pitches

  /** `transposePitch` applied `count` times, as the loops of key.py do it. */
  function StepBy(p: Pitch, iv: Interval, count: nat): (r: Pitch)
    requires IsTwelveTone(p)
    ensures IsTwelveTone(r)
    ensures count > 0 ==> IsPlain(r)
    ensures LineOfFifths(r) == LineOfFifths(p) + count * iv.fifths
    decreases count
  {
    if count == 0 then p else StepBy(Pitches.Transpose(p, iv), iv, count - 1)
  }

  /** `sharpsToPitch`: the major-key tonic with `sharpCount` sharps (flats when
      negative), reached from C by that many perfect fifths up or down. An unset
      count gives C. */
  function SharpsToPitch(sharpCount: Option<int>): (p: Pitch)
    ensures IsTwelveTone(p) && IsPlain(p)
    ensures LineOfFifths(p) == if sharpCount.None? then 0 else sharpCount.value
  {
    var n := if sharpCount.None? then 0 else sharpCount.value;
    if n > 0 then StepBy(Pitch(C, None), PerfectFifth, n)
    else if n < 0 then StepBy(Pitch(C, None), Interval(-1), -n)
    else Pitch(C, None)
  }

  /** Every plain twelve-tone pitch is the major tonic of its own line-of-fifths
      number. */
  lemma SharpsToPitchOfLine(p: Pitch)
    requires IsTwelveTone(p) && IsPlain(p)
    ensures SharpsToPitch(Some(LineOfFifths(p))) == p
  {
    var q := SharpsToPitch(Some(LineOfFifths(p)));
    FromLineOfFifthsOfLine(p);
    FromLineOfFifthsOfLine(q);
  }

  lemma SharpsToPitchExamples()
    ensures SharpsToPitch(None) == Pitch(C, None)
    ensures SharpsToPitch(Some(0)) == Pitch(C, None)
    ensures SharpsToPitch(Some(1)) == Pitch(G, None)
    ensures SharpsToPitch(Some(2)) == Pitch(D, None)
    ensures SharpsToPitch(Some(-2)) == Pitch(B, Some(Flat))
    ensures SharpsToPitch(Some(-6)) == Pitch(G, Some(Flat))
    ensures SharpsToPitch(Some(6)) == Pitch(F, Some(Sharp))
  {
    SharpsToPitchOfLine(Pitch(G, None));
    SharpsToPitchOfLine(Pitch(D, None));
    SharpsToPitchOfLine(Pitch(B, Some(Flat)));
    SharpsToPitchOfLine(Pitch(G, Some(Flat)));
    SharpsToPitchOfLine(Pitch(F, Some(Sharp)));
  }

  /** `modeSharpsAlter`: how many sharps a mode's signature differs from the
      major key on the same tonic. */
  function ModeSharpsAlter(mode: string): Option<int> {
    if mode == "major" then Some(0)
    else if mode == "minor" then Some(-3)
    else if mode == "dorian" then Some(-2)
    else if mode == "phrygian" then Some(-4)
    else if mode == "lydian" then Some(1)
    else if mode == "mixolydian" then Some(-1)
    else if mode == "locrian" then Some(-5)
    else None
  }

  /** The offset `pitchToSharps` adds for a mode: the table's, or nothing when the
      mode is unset or not in the table. */
  function ModeOffset(mode: Option<string>): int {
    if mode.Some? && ModeSharpsAlter(mode.value).Some? then ModeSharpsAlter(mode.value).value else 0
  }

  /** What `pitchToSharps` accepts: a pitch name, a pitch, a note (its pitch), or
      anything else (refused). */
  datatype PitchSource = FromName(name: string) | FromPitch(p: Pitch) | FromNote(notePitch: Pitch) | Unrecognised

  /** `pitchToSharps`: the number of sharps of the key on `value` in `mode`. */
  function PitchToSharps(value: PitchSource, mode: Option<string>): (r: Result<int, KeyError>)
    ensures value.Unrecognised? ==> r == Failure(NotAPitch)
    ensures value.FromPitch? ==>
              (r.Success? <==> IsTwelveTone(value.p))
              && (r.Failure? ==> r.error == QuarterToneKey)
              && (r.Success? ==> r.value == LineOfFifths(value.p) + ModeOffset(mode))
    ensures value.FromNote? ==>
              (r.Success? <==> IsTwelveTone(value.notePitch))
              && (r.Failure? ==> r.error == QuarterToneKey)
              && (r.Success? ==> r.value == LineOfFifths(value.notePitch) + ModeOffset(mode))
    ensures value.FromName? ==>
              (r.Success? <==> ParseName(value.name).Some? && IsTwelveTone(ParseName(value.name).value))
              && (ParseName(value.name).None? ==> r == Failure(UnparsablePitchName(value.name)))
              && (ParseName(value.name).Some? && r.Failure? ==> r.error == QuarterToneKey)
              && (r.Success? ==> r.value == LineOfFifths(ParseName(value.name).value) + ModeOffset(mode))
  {
    var p :- match value
      case FromName(name) =>
        (match ParseName(name)
         case Some(p) => Success(p)
         case None => Failure(UnparsablePitchName(name)))
      case FromPitch(p) => Success(p)
      case FromNote(p) => Success(p)
      case Unrecognised => Failure(NotAPitch);
    var sharps := FifthsIndex(p.step) - 1;
    var sharps :- if p.accidental.None? then Success(sharps)
                  else if !p.accidental.value.IsTwelveTone() then Failure(QuarterToneKey)
                  else Success(sharps + 7 * p.accidental.value.Alter());
    Success(sharps + ModeOffset(mode))
  }

  /** `pitchToSharps(sharpsToPitch(n)) == n`. */
  lemma PitchToSharpsOfSharpsToPitch(n: int)
    ensures PitchToSharps(FromPitch(SharpsToPitch(Some(n))), None) == Success(n)
  {
    var p := SharpsToPitch(Some(n));
    assert IsTwelveTone(p) && LineOfFifths(p) == n;
    assert ModeOffset(None) == 0;
  }

  /** Going the other way: the tonic of the major key `pitchToSharps` reports for
      a plain pitch, shifted back by the mode's offset, is that pitch. */
  lemma SharpsToPitchOfPitchToSharps(p: Pitch, mode: Option<string>)
    requires IsTwelveTone(p) && IsPlain(p)
    ensures PitchToSharps(FromPitch(p), mode).Success?
    ensures SharpsToPitch(Some(PitchToSharps(FromPitch(p), mode).value - ModeOffset(mode))) == p
  {
    SharpsToPitchOfLine(p);
  }

  lemma PitchToSharpsExamplesMajor()
    ensures PitchToSharps(FromName("c"), None) == Success(0)
    ensures PitchToSharps(FromName("e-"), None) == Success(-3)
    ensures PitchToSharps(FromName("g#"), None) == Success(8)
  {
    assert ParseName("c") == Some(Pitch(C, None));
    AccidentalFromPlainString("-");
    AccidentalFromPlainString("#");
    assert ParseName("e-") == Some(Pitch(E, Some(Flat)));
    assert ParseName("g#") == Some(Pitch(G, Some(Sharp)));
  }

  lemma PitchToSharpsExamplesModes()
    ensures PitchToSharps(FromName("c"), Some("minor")) == Success(-3)
    ensures PitchToSharps(FromName("a"), Some("minor")) == Success(0)
    ensures PitchToSharps(FromName("e"), Some("dorian")) == Success(2)
  {
    assert ParseName("c") == Some(Pitch(C, None));
    assert ParseName("a") == Some(Pitch(A, None));
    assert ParseName("e") == Some(Pitch(E, None));
  }

  lemma PitchToSharpsExamplesDoubleFlat()
    ensures PitchToSharps(FromName("f--"), None) == Success(-15)
    ensures PitchToSharps(FromName("f--"), Some("locrian")) == Success(-20)
  {
    AccidentalFromPlainString("--");
    assert ParseName("f--") == Some(Pitch(F, Some(DoubleFlat)));
  }

  lemma PitchToSharpsExamplesQuarterTone()
    ensures PitchToSharps(FromName("C~"), None) == Failure(QuarterToneKey)
  {
    AccidentalFromPlainString("~");
    assert ParseName("C~") == Some(Pitch(C, Some(Accidental(1))));
  }

  // ---------------------------------------------------------------------------
  // Altered pitches

  /** The pitches visited by transposing `start` by `iv` `count` times,
      each copied after its step. */
  function CollectSteps(start: Pitch, iv: Interval, count: nat): (r: seq<Pitch>)
    requires IsTwelveTone(start)
    ensures |r| == count
    ensures forall i :: 0 <= i < count ==> IsTwelveTone(r[i]) && IsPlain(r[i])
    ensures forall i :: 0 <= i < count ==> LineOfFifths(r[i]) == LineOfFifths(start) + (i + 1) * iv.fifths
    decreases count
  {
    if count == 0 then []
    else
      var next := Pitches.Transpose(start, iv);
      var rest := CollectSteps(next, iv, count - 1);
      var r := [next] + rest;
      assert forall i :: 0 < i < count ==> LineOfFifths(r[i]) == LineOfFifths(start) + (i + 1) * iv.fifths by {
        forall i | 0 < i < count
          ensures LineOfFifths(r[i]) == LineOfFifths(start) + (i + 1) * iv.fifths
        {
          assert r[i] == rest[i - 1];
          assert (i + 1) * iv.fifths == iv.fifths + i * iv.fifths;
        }
      }
      r
  }

  /** Two numbers below seven that differ by a multiple of seven are equal. */
  lemma SameResidue(a: int, b: int, x: int, y: int)
    requires 0 <= a < 7 && 0 <= b < 7 && a + 7 * x == b + 7 * y
    ensures a == b && x == y
  {
  }

  /** The pitches a signature of `sharps` alters, in the order they are written:
      sharps start at F# and go up by fifths, flats start at B- and go up by
      fourths; past seven, each letter comes round again one accidental further. */
  function AlteredList(sharps: int): (r: seq<Pitch>)
    ensures |r| == if sharps >= 0 then sharps else -sharps
    ensures forall i :: 0 <= i < |r| ==> IsTwelveTone(r[i]) && IsPlain(r[i])
    ensures sharps > 0 ==> forall i :: 0 <= i < |r| ==>
              r[i].step == FifthsOrder[i % 7] && Alter(r[i]) == 1 + i / 7
    ensures sharps < 0 ==> forall i :: 0 <= i < |r| ==>
              r[i].step == FifthsOrder[6 - i % 7] && Alter(r[i]) == -(1 + i / 7)
  {
    if sharps > 0 then
      var r := CollectSteps(Pitch(B, None), PerfectFifth, sharps);
      assert forall i :: 0 <= i < |r| ==> r[i].step == FifthsOrder[i % 7] && Alter(r[i]) == 1 + i / 7 by {
        forall i | 0 <= i < |r|
          ensures r[i].step == FifthsOrder[i % 7] && Alter(r[i]) == 1 + i / 7
        {
          SameResidue(FifthsIndex(r[i].step), i % 7, Alter(r[i]) - 1, i / 7);
        }
      }
      r
    else if sharps < 0 then
      var r := CollectSteps(Pitch(F, None), Interval(-1), -sharps);
      assert forall i :: 0 <= i < |r| ==> r[i].step == FifthsOrder[6 - i % 7] && Alter(r[i]) == -(1 + i / 7) by {
        forall i | 0 <= i < |r|
          ensures r[i].step == FifthsOrder[6 - i % 7] && Alter(r[i]) == -(1 + i / 7)
        {
          SameResidue(FifthsIndex(r[i].step), 6 - i % 7, Alter(r[i]), -(1 + i / 7));
        }
      }
      r
    else []
  }

  /** A plain twelve-tone pitch is determined by its step and alteration. */
  lemma PitchOfStepAndAlter(p: Pitch, st: Step, alter: int)
    requires IsTwelveTone(p) && IsPlain(p) && p.step == st && Alter(p) == alter && alter != 0
    ensures p == Pitch(st, Some(Accidental(2 * alter)))
  {
  }

  lemma AlteredListExamples()
    ensures AlteredList(3) == [Pitch(F, Some(Sharp)), Pitch(C, Some(Sharp)), Pitch(G, Some(Sharp))]
  {
    var s := AlteredList(3);
    PitchOfStepAndAlter(s[0], F, 1);
    PitchOfStepAndAlter(s[1], C, 1);
    PitchOfStepAndAlter(s[2], G, 1);
  }

  lemma AlteredListExamplesFlat()
    ensures AlteredList(-3) == [Pitch(B, Some(Flat)), Pitch(E, Some(Flat)), Pitch(A, Some(Flat))]
  {
    var f := AlteredList(-3);
    PitchOfStepAndAlter(f[0], B, -1);
    PitchOfStepAndAlter(f[1], E, -1);
    PitchOfStepAndAlter(f[2], A, -1);
  }

  lemma AlteredListExamplesDouble()
    ensures AlteredList(9)[7] == Pitch(F, Some(DoubleSharp)) && AlteredList(9)[8] == Pitch(C, Some(DoubleSharp))
    ensures AlteredList(-8)[7] == Pitch(B, Some(DoubleFlat))
  {
    var s := AlteredList(9);
    PitchOfStepAndAlter(s[7], F, 2);
    PitchOfStepAndAlter(s[8], C, 2);
    var f := AlteredList(-8);
    PitchOfStepAndAlter(f[7], B, -2);
  }

  // ---------------------------------------------------------------------------
  // Key signatures

  /** A key signature: the sharps count (unset when `None`), an optional mode,
      and the cache of altered pitches (empty when not yet computed). */
  datatype KeySignature = KeySignature(sharps: Option<int>, mode: Option<string>, alteredCache: seq<Pitch>)

  /** The cache, when filled, holds exactly the altered pitches of the current
      sharps count. */
  predicate CacheCoherent(ks: KeySignature) {
    ks.alteredCache == [] || (ks.sharps.Some? && ks.alteredCache == AlteredList(ks.sharps.value))
  }

  /** What the constructor's `sharps` argument can be. */
  datatype SharpsArg = NoSharps | Number(x: real) | Text(text: string)

  /** `KeySignature(sharps, mode)`: refuses a number that is not integral and any
      string (the caller wanted a `Key`). */
  function NewKeySignature(sharps: SharpsArg, mode: Option<string>): (r: Result<KeySignature, KeyError>)
    ensures r.Success? <==> sharps.NoSharps? || (sharps.Number? && sharps.x.Floor as real == sharps.x)
    ensures r.Failure? ==> r.error == InvalidSharps
    ensures r.Success? ==> CacheCoherent(r.value) && r.value.mode == mode
    ensures r.Success? && sharps.Number? ==> r.value.sharps == Some(sharps.x.Floor)
    ensures r.Success? && sharps.NoSharps? ==> r.value.sharps.None?
  {
    match sharps
    case NoSharps => Success(KeySignature(None, mode, []))
    case Number(x) =>
      if x.Floor as real != x then Failure(InvalidSharps)
      else Success(KeySignature(Some(x.Floor), mode, []))
    case Text(_) => Failure(InvalidSharps)
  }

  /** Setting `sharps` clears the cache when the value changes. */
  function SetSharps(ks: KeySignature, value: Option<int>): (r: KeySignature)
    requires CacheCoherent(ks)
    ensures CacheCoherent(r) && r.sharps == value && r.mode == ks.mode
  {
    if value != ks.sharps then KeySignature(value, ks.mode, []) else ks
  }

  /** Setting `mode` clears the cache when the value changes. */
  function SetMode(ks: KeySignature, value: Option<string>): (r: KeySignature)
    requires CacheCoherent(ks)
    ensures CacheCoherent(r) && r.mode == value && r.sharps == ks.sharps
  {
    if value != ks.mode then KeySignature(ks.sharps, value, []) else ks
  }

  /** The `alteredPitches` property: the cached list when there is one, else the
      list computed afresh (and cached). An unset sharps count is a type error. */
  function AlteredPitches(ks: KeySignature): (r: Result<(seq<Pitch>, KeySignature), KeyError>)
    requires CacheCoherent(ks)
    ensures r.Success? <==> ks.sharps.Some?
    ensures r.Success? ==>
              r.value.0 == AlteredList(ks.sharps.value)
              && CacheCoherent(r.value.1)
              && r.value.1.sharps == ks.sharps && r.value.1.mode == ks.mode
  {
    if ks.alteredCache != [] then Success((ks.alteredCache, ks))
    else if ks.sharps.None? then Failure(SharpsUnset)
    else
      var post := AlteredList(ks.sharps.value);
      Success((post, KeySignature(ks.sharps, ks.mode, post)))
  }

  /** Whether a pitch's step is named by `step`, ignoring case. */
  predicate StepMatches(p: Pitch, step: string) {
    Strings.Lower(StepName(p.step)) == Strings.Lower(step)
  }

  /** The accidental of the last pitch in `ps` whose step is `step`, if any. */
  function LastAccidentalFor(ps: seq<Pitch>, step: string): Option<Accidental>
    decreases |ps|
  {
    if |ps| == 0 then None
    else if StepMatches(ps[|ps| - 1], step) then ps[|ps| - 1].accidental
    else LastAccidentalFor(ps[..|ps| - 1], step)
  }

  /** The reverse scan finds the accidental of the last matching pitch. */
  lemma {:induction false} LastAccidentalForIsLast(ps: seq<Pitch>, step: string, i: nat)
    requires i < |ps| && StepMatches(ps[i], step)
    requires forall j :: i < j < |ps| ==> !StepMatches(ps[j], step)
    ensures LastAccidentalFor(ps, step) == ps[i].accidental
    decreases |ps|
  {
    if i < |ps| - 1 {
      LastAccidentalForIsLast(ps[..|ps| - 1], step, i);
    }
  }

  /** The reverse scan finds nothing when no pitch matches. */
  lemma {:induction false} LastAccidentalForNone(ps: seq<Pitch>, step: string)
    requires forall j :: 0 <= j < |ps| ==> !StepMatches(ps[j], step)
    ensures LastAccidentalFor(ps, step) == None
    decreases |ps|
  {
    if |ps| > 0 {
      LastAccidentalForNone(ps[..|ps| - 1], step);
    }
  }

  /** `accidentalByStep(step)`: the accidental the signature puts on `step`, or
      none; goes through (and fills) the altered-pitch cache. */
  function AccidentalByStep(ks: KeySignature, step: string): (r: Result<(Option<Accidental>, KeySignature), KeyError>)
    requires CacheCoherent(ks)
    ensures r.Success? <==> ks.sharps.Some?
    ensures r.Success? ==> CacheCoherent(r.value.1) && r.value.1.sharps == ks.sharps
  {
    var (altered, post) :- AlteredPitches(ks);
    Success((LastAccidentalFor(altered, step), post))
  }

  /** How many of the first `n` positions `i` have `i % 7 == k`. */
  function Occurrences(n: nat, k: nat): nat {
    if n <= k then 0 else (n - 1 - k) / 7 + 1
  }

  lemma StepNameLowerInjective(a: Step, b: Step)
    requires Strings.Lower(StepName(a)) == Strings.Lower(StepName(b))
    ensures a == b
  {
    assert Strings.Lower(StepName(a))[0] == Strings.LowerChar(StepName(a)[0]);
    assert Strings.Lower(StepName(b))[0] == Strings.LowerChar(StepName(b)[0]);
  }

  /** The position in the sharp order (flat order for negative counts) at which
      a step's altered pitches appear, every seven places. */
  function OrderPosition(sharps: int, st: Step): nat {
    if sharps >= 0 then FifthsIndex(st) else 6 - FifthsIndex(st)
  }

  /** A pitch of the altered list is on step `st` exactly at the positions
      congruent to the step's place in the order. */
  lemma AlteredListMatches(sharps: int, st: Step, step: string, j: nat)
    requires Strings.Lower(step) == Strings.Lower(StepName(st))
    requires j < |AlteredList(sharps)|
    ensures StepMatches(AlteredList(sharps)[j], step) <==> j % 7 == OrderPosition(sharps, st)
  {
    var p := AlteredList(sharps)[j];
    var k := if sharps >= 0 then j % 7 else 6 - j % 7;
    assert p.step == FifthsOrder[k];
    if StepMatches(p, step) {
      StepNameLowerInjective(p.step, st);
      FifthsOrderInjective(k, FifthsIndex(st));
    }
  }

  lemma FifthsOrderInjective(k: nat, m: nat)
    requires k < 7 && m < 7 && FifthsOrder[k] == FifthsOrder[m]
    ensures k == m
  {
  }

  /** The closed form of the reverse scan over the altered list. */
  lemma LastAccidentalInAlteredList(sharps: int, st: Step, step: string)
    requires Strings.Lower(step) == Strings.Lower(StepName(st))
    ensures var n := Occurrences(if sharps >= 0 then sharps else -sharps, OrderPosition(sharps, st));
            LastAccidentalFor(AlteredList(sharps), step) ==
              if n == 0 then None else Some(Accidental(if sharps > 0 then 2 * n else -2 * n))
  {
    var len := |AlteredList(sharps)|;
    if Occurrences(len, OrderPosition(sharps, st)) == 0 {
      NoAccidentalInAlteredList(sharps, st, step);
    } else {
      SomeAccidentalInAlteredList(sharps, st, step);
    }
  }

  lemma NoAccidentalInAlteredList(sharps: int, st: Step, step: string)
    requires Strings.Lower(step) == Strings.Lower(StepName(st))
    requires Occurrences(|AlteredList(sharps)|, OrderPosition(sharps, st)) == 0
    ensures LastAccidentalFor(AlteredList(sharps), step) == None
  {
    NoStepInAlteredList(sharps, st, step);
    LastAccidentalForNone(AlteredList(sharps), step);
  }

  /** When the altered list stops before the step's place in the order, no
      pitch of it is on that step. */
  lemma NoStepInAlteredList(sharps: int, st: Step, step: string)
    requires Strings.Lower(step) == Strings.Lower(StepName(st))
    requires |AlteredList(sharps)| <= OrderPosition(sharps, st)
    ensures forall j :: 0 <= j < |AlteredList(sharps)| ==> !StepMatches(AlteredList(sharps)[j], step)
  {
    forall j | 0 <= j < |AlteredList(sharps)| ensures !StepMatches(AlteredList(sharps)[j], step) {
      AlteredListMatches(sharps, st, step, j);
    }
  }

  lemma SomeAccidentalInAlteredList(sharps: int, st: Step, step: string)
    requires Strings.Lower(step) == Strings.Lower(StepName(st))
    requires Occurrences(|AlteredList(sharps)|, OrderPosition(sharps, st)) > 0
    ensures var n := Occurrences(|AlteredList(sharps)|, OrderPosition(sharps, st));
            LastAccidentalFor(AlteredList(sharps), step) == Some(Accidental(if sharps > 0 then 2 * n else -2 * n))
  {
    var len := |AlteredList(sharps)|;
    var n: int := Occurrences(len, OrderPosition(sharps, st));
    var i := LastOccurrence(len, OrderPosition(sharps, st));
    assert n == 1 + i / 7;
    var a := Accidental(if sharps > 0 then 2 * n else -2 * n);
    assert AlteredList(sharps)[i].accidental == Some(a) by {
      AlteredListAccidental(sharps, i);
    }
    assert LastAccidentalFor(AlteredList(sharps), step) == AlteredList(sharps)[i].accidental by {
      LastMatchInAlteredList(sharps, st, step, i);
    }
  }

  /** The reverse scan stops at the last position of the letter's place. */
  lemma LastMatchInAlteredList(sharps: int, st: Step, step: string, i: nat)
    requires Strings.Lower(step) == Strings.Lower(StepName(st))
    requires i < |AlteredList(sharps)| && i % 7 == OrderPosition(sharps, st)
    requires forall j :: i < j < |AlteredList(sharps)| ==> j % 7 != OrderPosition(sharps, st)
    ensures LastAccidentalFor(AlteredList(sharps), step) == AlteredList(sharps)[i].accidental
  {
    AlteredListMatches(sharps, st, step, i);
    NoMatchAfter(sharps, st, step, i);
    LastAccidentalForIsLast(AlteredList(sharps), step, i);
  }

  /** Past the last occurrence of a letter's position, no altered pitch is on it. */
  lemma NoMatchAfter(sharps: int, st: Step, step: string, i: nat)
    requires Strings.Lower(step) == Strings.Lower(StepName(st))
    requires i < |AlteredList(sharps)|
    requires forall j :: i < j < |AlteredList(sharps)| ==> j % 7 != OrderPosition(sharps, st)
    ensures forall j :: i < j < |AlteredList(sharps)| ==> !StepMatches(AlteredList(sharps)[j], step)
  {
    var ps := AlteredList(sharps);
    forall j | i < j < |ps| ensures !StepMatches(ps[j], step) {
      AlteredListMatches(sharps, st, step, j);
    }
  }

  /** The accidental at each position of the altered list. */
  lemma AlteredListAccidental(sharps: int, i: nat)
    requires i < |AlteredList(sharps)|
    ensures AlteredList(sharps)[i].accidental == Some(Accidental(if sharps > 0 then 2 * (1 + i / 7) else -2 * (1 + i / 7)))
  {
    var ps := AlteredList(sharps);
    var p := ps[i];
    var m := 1 + i / 7;
    if sharps > 0 {
      assert Alter(p) == m;
      PitchOfStepAndAlter(p, p.step, m);
    } else {
      assert Alter(p) == -m;
      PitchOfStepAndAlter(p, p.step, -m);
    }
  }

  /** The last position below `n` congruent to `k` modulo seven. */
  function LastOccurrence(n: nat, k: nat): (i: nat)
    requires k < 7 && Occurrences(n, k) > 0
    ensures i < n && i % 7 == k && i / 7 + 1 == Occurrences(n, k)
    ensures forall j :: i < j < n ==> j % 7 != k
  {
    var q := (n - 1 - k) / 7;
    assert (k + 7 * q) % 7 == k && (k + 7 * q) / 7 == q;
    k + 7 * q
  }

  /** The closed form of `accidentalByStep`: a letter is altered once for each
      time it appears in the altered list, i.e. it gets as many sharps (flats) as
      there are positions `i < |sharps|` with `i % 7` equal to the letter's place
      in the sharp (flat) order; a letter that never appears gets none. */
  lemma AccidentalByStepClosedForm(ks: KeySignature, st: Step, step: string)
    requires CacheCoherent(ks) && ks.sharps.Some?
    requires Strings.Lower(step) == Strings.Lower(StepName(st))
    ensures var s := ks.sharps.value;
            var n := Occurrences(if s >= 0 then s else -s, OrderPosition(s, st));
            AccidentalByStep(ks, step).Success?
            && AccidentalByStep(ks, step).value.0 ==
                 if n == 0 then None
                 else Some(Accidental(if s > 0 then 2 * n else -2 * n))
  {
    LastAccidentalInAlteredList(ks.sharps.value, st, step);
  }

  lemma AccidentalByStepExamples()
    ensures AccidentalByStep(KeySignature(Some(1), None, []), "F") == Success((Some(Sharp), KeySignature(Some(1), None, AlteredList(1))))
    ensures AccidentalByStep(KeySignature(Some(1), None, []), "G").value.0 == None
  {
    AccidentalByStepClosedForm(KeySignature(Some(1), None, []), F, "F");
    AccidentalByStepClosedForm(KeySignature(Some(1), None, []), G, "G");
  }

  lemma AccidentalByStepExamplesFlat()
    ensures AccidentalByStep(KeySignature(Some(-1), None, []), "B").value.0 == Some(Flat)
    ensures AccidentalByStep(KeySignature(Some(-8), Some("major"), []), "B").value.0 == Some(DoubleFlat)
  {
    AccidentalByStepClosedForm(KeySignature(Some(-1), None, []), B, "B");
    AccidentalByStepClosedForm(KeySignature(Some(-8), Some("major"), []), B, "B");
  }

  /** Whether `pitchAndMode` reads a mode as minor: "minor" in any case. */
  predicate IsMinorMode(mode: Option<string>) {
    mode.Some? && Strings.Lower(mode.value) == "minor"
  }

  lemma MinorModeSpellings()
    ensures IsMinorMode(Some("minor")) && IsMinorMode(Some("Minor")) && IsMinorMode(Some("MINOR"))
    ensures !IsMinorMode(None) && !IsMinorMode(Some("major")) && !IsMinorMode(Some("dorian"))
  {
    Strings.LowerUnchanged("minor");
    assert Strings.Lower("Minor") == "minor";
    assert Strings.Lower("MINOR") == "minor";
    assert Strings.Lower("major")[1] == 'a';
    assert Strings.Lower("dorian")[0] == 'd';
  }

  /** `pitchAndMode`: the tonic named by the signature, read as a minor key when
      the mode is "minor" in any case (three sharps further), as a major key
      otherwise; an unset count reads as C major but fails for minor. */
  function PitchAndMode(ks: KeySignature): (r: Result<(Pitch, Option<string>), KeyError>)
    ensures r.Success? ==> r.value.1 == ks.mode && IsTwelveTone(r.value.0) && IsPlain(r.value.0)
    ensures r.Failure? <==> ks.sharps.None? && IsMinorMode(ks.mode)
    ensures r.Success? && ks.sharps.Some? ==>
              LineOfFifths(r.value.0) ==
                ks.sharps.value + (if IsMinorMode(ks.mode) then 3 else 0)
  {
    if IsMinorMode(ks.mode) then
      if ks.sharps.None? then Failure(SharpsUnset)
      else Success((SharpsToPitch(Some(ks.sharps.value + 3)), ks.mode))
    else Success((SharpsToPitch(ks.sharps), ks.mode))
  }

  lemma PitchAndModeExamples()
    ensures PitchAndMode(KeySignature(Some(-7), None, [])) == Success((Pitch(C, Some(Flat)), None))
    ensures PitchAndMode(KeySignature(Some(-3), None, [])) == Success((Pitch(E, Some(Flat)), None))
    ensures PitchAndMode(KeySignature(Some(4), Some("minor"), [])) == Success((Pitch(C, Some(Sharp)), Some("minor")))
  {
    SharpsToPitchOfLine(Pitch(C, Some(Flat)));
    SharpsToPitchOfLine(Pitch(E, Some(Flat)));
    SharpsToPitchOfLine(Pitch(C, Some(Sharp)));
    MinorModeSpellings();
  }

  /** `transpose(interval)`: moves the tonic that `pitchAndMode` names by the
      interval and takes `pitchToSharps` of the result in the same mode. The
      mode is kept and the cache is cleared; the input is a value, so the
      original is never changed. */
  function Transpose(ks: KeySignature, iv: Interval): (r: Result<KeySignature, KeyError>)
    ensures r.Success? <==> PitchAndMode(ks).Success?
    ensures r.Success? ==> r.value.mode == ks.mode && r.value.alteredCache == [] && r.value.sharps.Some?
    ensures r.Success? ==>
              r.value.sharps.value == LineOfFifths(PitchAndMode(ks).value.0) + iv.fifths + ModeOffset(ks.mode)
  {
    var (p1, mode) :- PitchAndMode(ks);
    var p2 := Pitches.Transpose(p1, iv);
    var sharps := PitchToSharps(FromPitch(p2), mode).value;
    Success(KeySignature(Some(sharps), mode, []))
  }

  /** For a signature without a mode, in major, or in (lower-case) minor, the
      transposition adds the interval's fifths to the sharps count. */
  lemma TransposeMajorMinor(ks: KeySignature, iv: Interval)
    requires ks.sharps.Some?
    requires ks.mode.None? || ks.mode == Some("major") || ks.mode == Some("minor")
    ensures Transpose(ks, iv).Success?
    ensures Transpose(ks, iv).value.sharps == Some(ks.sharps.value + iv.fifths)
  {
    MinorModeSpellings();
    MajorMinorOffsets();
    var r := Transpose(ks, iv);
    if ks.mode == Some("minor") {
      assert LineOfFifths(PitchAndMode(ks).value.0) == ks.sharps.value + 3;
    } else {
      assert LineOfFifths(PitchAndMode(ks).value.0) == ks.sharps.value;
    }
  }

  lemma MajorMinorOffsets()
    ensures ModeOffset(Some("minor")) == -3 && ModeOffset(Some("major")) == 0 && ModeOffset(None) == 0
  {
    assert "minor"[1] != "major"[1];
  }

  lemma TransposeExamples()
    ensures Transpose(KeySignature(Some(2), None, []), Interval(1)).value.sharps == Some(3)     // 'p5'
    ensures Transpose(KeySignature(Some(3), None, []), Interval(5)).value.sharps == Some(8)     // '-m2'
    ensures Transpose(KeySignature(Some(8), None, []), Interval(-11)).value.sharps == Some(-3)  // '-a3'
  {
    TransposeMajorMinor(KeySignature(Some(2), None, []), Interval(1));
    TransposeMajorMinor(KeySignature(Some(3), None, []), Interval(5));
    TransposeMajorMinor(KeySignature(Some(8), None, []), Interval(-11));
  }

  /** In a church mode the as-written transposition also shifts by the mode's
      offset: a dorian signature transposed by a unison loses two sharps. */
  lemma TransposeDorianByUnison()
    ensures Transpose(KeySignature(Some(0), Some("dorian"), []), Interval(0)).value.sharps == Some(-2)
  {
    MinorModeSpellings();
  }

  /** The tonic of the signature's own mode: the major tonic moved back by the
      mode's offset (an unset count reads as zero sharps, but not in minor). */
  function ModeTonic(ks: KeySignature): (r: Result<Pitch, KeyError>)
    ensures r.Failure? <==> ks.sharps.None? && IsMinorMode(ks.mode)
    ensures r.Success? ==> IsTwelveTone(r.value) && IsPlain(r.value)
    ensures r.Success? ==>
              LineOfFifths(r.value) == (if ks.sharps.None? then 0 else ks.sharps.value) - ModeOffset(ks.mode)
  {
    if ks.sharps.None? && IsMinorMode(ks.mode) then Failure(SharpsUnset)
    else
      var s := if ks.sharps.None? then 0 else ks.sharps.value;
      Success(FromLineOfFifths(s - ModeOffset(ks.mode)))
  }

  /** Transposition through the tonic of the signature's own mode: whatever the
      mode, the sharps count moves by exactly the interval's fifths. */
  function TransposeIntended(ks: KeySignature, iv: Interval): (r: Result<KeySignature, KeyError>)
    ensures r.Success? <==> ModeTonic(ks).Success?
    ensures r.Success? ==> r.value.mode == ks.mode && r.value.alteredCache == []
    ensures r.Success? ==> r.value.sharps == Some((if ks.sharps.None? then 0 else ks.sharps.value) + iv.fifths)
  {
    var p1 :- ModeTonic(ks);
    var p2 := Pitches.Transpose(p1, iv);
    var sharps := PitchToSharps(FromPitch(p2), ks.mode).value;
    Success(KeySignature(Some(sharps), ks.mode, []))
  }

  /** The two transpositions agree on the modes the as-written one handles. */
  lemma TransposeIntendedAgrees(ks: KeySignature, iv: Interval)
    requires ks.sharps.Some?
    requires ks.mode.None? || ks.mode == Some("major") || ks.mode == Some("minor")
    ensures TransposeIntended(ks, iv) == Transpose(ks, iv)
  {
    TransposeMajorMinor(ks, iv);
    TransposeIntendedSucceeds(ks, iv);
    SameSignature(TransposeIntended(ks, iv), Transpose(ks, iv));
  }

  lemma TransposeIntendedSucceeds(ks: KeySignature, iv: Interval)
    requires ks.sharps.Some?
    ensures TransposeIntended(ks, iv).Success?
    ensures TransposeIntended(ks, iv).value == KeySignature(Some(ks.sharps.value + iv.fifths), ks.mode, [])
  {
    assert ModeTonic(ks).Success?;
    var v := TransposeIntended(ks, iv).value;
    SameFields(v, KeySignature(Some(ks.sharps.value + iv.fifths), ks.mode, []));
  }

  lemma SameFields(a: KeySignature, b: KeySignature)
    requires a.sharps == b.sharps && a.mode == b.mode && a.alteredCache == b.alteredCache
    ensures a == b
  {
  }

  lemma SameSignature(a: Result<KeySignature, KeyError>, b: Result<KeySignature, KeyError>)
    requires a.Success? && b.Success?
    requires a.value.sharps == b.value.sharps && a.value.mode == b.value.mode
    requires a.value.alteredCache == b.value.alteredCache
    ensures a == b
  {
    SameFields(a.value, b.value);
  }

  /** Transposing by an interval and back restores the sharps count. */
  lemma TransposeIntendedInverse(ks: KeySignature, iv: Interval)
    requires ks.sharps.Some? && TransposeIntended(ks, iv).Success?
    ensures TransposeIntended(TransposeIntended(ks, iv).value, Interval(-iv.fifths)).Success?
    ensures TransposeIntended(TransposeIntended(ks, iv).value, Interval(-iv.fifths)).value.sharps == ks.sharps
  {
    var there := KeySignature(Some(ks.sharps.value + iv.fifths), ks.mode, []);
    TransposeIntendedSucceeds(ks, iv);
    TransposeIntendedSucceeds(there, Interval(-iv.fifths));
  }

  datatype Scale = MajorScale(tonic: Pitch) | MinorScale(tonic: Pitch)

  /** `getScale`: the major scale for an unset or "major" mode, the minor scale
      for "minor", and an error for every other mode. */
  function GetScale(ks: KeySignature): (r: Result<Scale, KeyError>)
    ensures r.Success? ==> PitchAndMode(ks).Success? && r.value.tonic == PitchAndMode(ks).value.0
    ensures r.Success? && r.value.MajorScale? <==> PitchAndMode(ks).Success? && (ks.mode.None? || ks.mode == Some("major"))
    ensures r.Success? && r.value.MinorScale? <==> PitchAndMode(ks).Success? && ks.mode == Some("minor")
    ensures (PitchAndMode(ks).Success? && ks.mode.Some? && ks.mode.value != "major" && ks.mode.value != "minor")
            ==> r == Failure(NoScaleForMode(ks.mode.value))
  {
    var (p, mode) :- PitchAndMode(ks);
    if mode.None? || mode == Some("major") then Success(MajorScale(p))
    else if mode == Some("minor") then Success(MinorScale(p))
    else Failure(NoScaleForMode(mode.value))
  }

  lemma GetScaleExamples()
    ensures GetScale(KeySignature(Some(3), None, [])) == Success(MajorScale(Pitch(A, None)))
    ensures GetScale(KeySignature(Some(3), Some("minor"), [])) == Success(MinorScale(Pitch(F, Some(Sharp))))
  {
    SharpsToPitchOfLine(Pitch(A, None));
    SharpsToPitchOfLine(Pitch(F, Some(Sharp)));
    MinorModeSpellings();
  }

  /** The wording of a sharps count in `_strDescription`: "N sharps", "1 sharp",
      "no sharps or flats", "1 flat", "N flats", or "None" without a count. No
      wording holds a comma. */
  function CountDescription(sharps: Option<int>): (r: string)
    ensures ',' !in r
  {
    if sharps.None? then "None"
    else
      var ns := sharps.value;
      if ns > 1 then NumberWithoutComma(ns); Strings.NatToString(ns) + " sharps"
      else if ns == 1 then "1 sharp"
      else if ns == 0 then "no sharps or flats"
      else if ns == -1 then "1 flat"
      else NumberWithoutComma(-ns); Strings.NatToString(-ns) + " flats"
  }

  lemma NumberWithoutComma(n: nat)
    ensures ',' !in Strings.NatToString(n)
  {
    var d := Strings.NatToString(n);
    assert Strings.AllDigits(d);
  }

  /** `_strDescription`: the wording of the sharps count, followed by
      ", mode M" when a mode is set. */
  function StrDescription(ks: KeySignature): (r: string)
    ensures ks.mode.None? ==> r == CountDescription(ks.sharps)
    ensures ks.mode.Some? ==> r == CountDescription(ks.sharps) + ", mode " + ks.mode.value
  {
    var output := CountDescription(ks.sharps);
    if ks.mode.None? then output else output + ", mode " + ks.mode.value
  }

  /** The description of a signature names both its sharps count and its mode:
      the first comma, if any, ends the count's wording. */
  lemma StrDescriptionDeterminesSignature(k1: KeySignature, k2: KeySignature)
    requires StrDescription(k1) == StrDescription(k2)
    ensures k1.sharps == k2.sharps && k1.mode == k2.mode
  {
    var r := StrDescription(k1);
    var d1 := CountDescription(k1.sharps);
    var d2 := CountDescription(k2.sharps);
    if k1.mode.None? && k2.mode.None? {
      StrDescriptionInjective(k1.sharps, k2.sharps);
    } else if k1.mode.Some? && k2.mode.Some? {
      CommaSplits(d1, k1.mode.value, d2, k2.mode.value);
      StrDescriptionInjective(k1.sharps, k2.sharps);
    }
  }

  lemma CommaAt(d: string, m: string)
    ensures (d + ", mode " + m)[|d|] == ','
  {
  }

  lemma CommaSplits(d1: string, m1: string, d2: string, m2: string)
    requires ',' !in d1 && ',' !in d2
    requires d1 + ", mode " + m1 == d2 + ", mode " + m2
    ensures d1 == d2 && m1 == m2
  {
    var r := d1 + ", mode " + m1;
    if |d1| < |d2| {
      CommaAt(d1, m1);
    } else if |d2| < |d1| {
      CommaAt(d2, m2);
    }
    assert d1 == r[..|d1|] == d2;
    assert m1 == r[|d1| + 7..] == m2;
  }

  /** Digits are never a description's last six characters' start: used to tell
      the suffixes apart. */
  lemma NumberedSuffix(n: nat, suffix: string, m: nat, suffix': string)
    requires Strings.NatToString(n) + suffix == Strings.NatToString(m) + suffix'
    requires |suffix| == |suffix'| && suffix == suffix'
    ensures n == m
  {
    var a := Strings.NatToString(n);
    var b := Strings.NatToString(m);
    assert a == (a + suffix)[..|a + suffix| - |suffix|];
    assert b == (b + suffix')[..|b + suffix'| - |suffix'|];
    Strings.NatToStringInjective(n, m);
  }

  /** The description of a signature without mode determines its sharps count. */
  lemma StrDescriptionInjective(s1: Option<int>, s2: Option<int>)
    requires CountDescription(s1) == CountDescription(s2)
    ensures s1 == s2
  {
    var d1 := CountDescription(s1);
    var d2 := CountDescription(s2);
    assert d1 == d2;
    if s1.Some? && s2.Some? {
      var a := s1.value;
      var b := s2.value;
      if a > 1 && b > 1 {
        NumberedSuffix(a, " sharps", b, " sharps");
      } else if a < -1 && b < -1 {
        NumberedSuffix(-a, " flats", -b, " flats");
      } else {
        DescriptionTail(s1);
        DescriptionTail(s2);
      }
    } else if s1.Some? || s2.Some? {
      DescriptionTail(s1);
      DescriptionTail(s2);
    }
  }

  /** The last two characters and the length class of each kind of description. */
  lemma DescriptionTail(s: Option<int>)
    ensures var d := CountDescription(s);
            |d| >= 4
            && (s.None? <==> d == "None")
            && (s.Some? && s.value > 1 ==> d[|d| - 2..] == "ps" && d[|d| - 7] == ' ' && Strings.IsDigit(d[0]))
            && (s == Some(1) ==> d == "1 sharp")
            && (s == Some(0) ==> d == "no sharps or flats")
            && (s == Some(-1) ==> d == "1 flat")
            && (s.Some? && s.value < -1 ==> d[|d| - 2..] == "ts" && d[|d| - 6] == ' ' && Strings.IsDigit(d[0]))
  {
    var d := CountDescription(s);
    if s.Some? && s.value > 1 {
      var digits := Strings.NatToString(s.value);
      assert d == digits + " sharps";
      assert d[0] == digits[0];
      if s.value < 10 {
        assert |digits| == 1;
      } else {
        assert |digits| >= 1;
      }
      assert d != "None";
    } else if s.Some? && s.value < -1 {
      var digits := Strings.NatToString(-s.value);
      assert d == digits + " flats";
      assert d[0] == digits[0];
      assert d != "None";
    }
  }

  // ---------------------------------------------------------------------------
  // Keys

  /** A key: its signature (whose mode is always set), its tonic, and the
      correlation data a key-finding analysis may attach: the key's own
      correlation coefficient and those of its alternate interpretations, best
      first. */
  datatype Key = Key(signature: KeySignature, tonic: Pitch,
                     correlationCoefficient: Option<real>, alternateCoefficients: seq<Option<real>>)

  /** The invariant of a constructed key: its signature has a mode and a sharps
      count, and the count is that of the tonic in that mode. */
  predicate WellFormedKey(k: Key) {
    k.signature.mode.Some? && k.signature.sharps.Some? && CacheCoherent(k.signature)
    && IsTwelveTone(k.tonic)
    && k.signature.sharps.value == LineOfFifths(k.tonic) + ModeOffset(k.signature.mode)
  }

  /** What a `Key` can be built from: a name, a pitch, or a chord (its root and
      whether it is a minor triad). */
  datatype TonicArg = TonicName(name: string) | TonicPitch(p: Pitch) | TonicChord(root: Pitch, isMinorTriad: bool)

  /** Every occurrence of `c` removed (`re.sub(c, '', s)`). */
  function RemoveChar(s: string, c: char): (r: string)
    ensures c !in r && |r| <= |s|
    ensures c !in s ==> r == s
  {
    if |s| == 0 then ""
    else (if s[0] == c then "" else [s[0]]) + RemoveChar(s[1..], c)
  }

  /** The mode inference of the `Key` constructor: an explicit mode wins (lower-
      cased); else an `m` marks minor and an `M` major (and is removed); else an
      all-lower-case tonic is minor and any other tonic major. */
  function InferMode(tonic: string, mode: Option<string>): (r: (string, string))
    ensures mode.Some? ==> r == (tonic, Strings.Lower(mode.value))
    ensures mode.None? ==> r.1 == "minor" || r.1 == "major"
    ensures mode.None? && 'm' !in tonic && 'M' !in tonic ==>
              r.0 == tonic && (r.1 == "minor" <==> Strings.Lower(tonic) == tonic)
    ensures mode.None? && 'm' in tonic ==> r == (RemoveChar(tonic, 'm'), "minor")
    ensures mode.None? && 'm' !in tonic && 'M' in tonic ==> r == (RemoveChar(tonic, 'M'), "major")
  {
    if mode.Some? then (tonic, Strings.Lower(mode.value))
    else if 'm' in tonic then (RemoveChar(tonic, 'm'), "minor")
    else if 'M' in tonic then (RemoveChar(tonic, 'M'), "major")
    else if Strings.Lower(tonic) == tonic then (tonic, "minor")
    else (tonic, "major")
  }

  /** The tonic's name as the constructor reads it: the string given, or the
      name of the pitch or of the chord's root. */
  function TonicString(tonic: TonicArg): string {
    match tonic
    case TonicName(n) => n
    case TonicPitch(p) => Name(p)
    case TonicChord(root, _) => Name(root)
  }

  /** The mode before inference: the one given, or for a chord given without
      one, minor for a minor triad and major otherwise. */
  function GivenMode(tonic: TonicArg, mode: Option<string>): Option<string> {
    if tonic.TonicChord? && mode.None? then Some(if tonic.isMinorTriad then "minor" else "major")
    else mode
  }

  /** `Key(tonic, mode)`: infers the mode, takes the sharps of the tonic in that
      mode, and keeps the tonic pitch; no correlation data yet. The key exists
      exactly when the inferred tonic name is a twelve-tone pitch. */
  function NewKey(tonic: TonicArg, mode: Option<string>): (r: Result<Key, KeyError>)
    ensures var (t, m) := InferMode(TonicString(tonic), GivenMode(tonic, mode));
            (r.Success? <==> ParseName(t).Some? && IsTwelveTone(ParseName(t).value))
            && (ParseName(t).None? ==> r == Failure(UnparsablePitchName(t)))
            && (ParseName(t).Some? && r.Failure? ==> r.error == QuarterToneKey)
            && (r.Success? ==> r.value.tonic == ParseName(t).value && r.value.signature.mode == Some(m))
    ensures r.Success? ==> WellFormedKey(r.value)
    ensures r.Success? ==> r.value.correlationCoefficient.None? && r.value.alternateCoefficients == []
  {
    var (name, mode') := InferMode(TonicString(tonic), GivenMode(tonic, mode));
    var sharps :- PitchToSharps(FromName(name), Some(mode'));
    var p := ParseName(name).value;
    Success(Key(KeySignature(Some(sharps), Some(mode'), []), p, None, []))
  }

  /** A key on a pitch with no mode given is the major key on that very pitch. */
  lemma NewKeyOfPitch(p: Pitch)
    requires IsTwelveTone(p) && IsPlain(p)
    requires p.accidental.Some? ==> IsSupported(p.accidental.value.quarterTones)
    ensures NewKey(TonicPitch(p), None) == Success(Key(KeySignature(Some(LineOfFifths(p)), Some("major"), []), p, None, []))
  {
    var n := Name(p);
    NameInfersMajor(p);
    ParseNameOfName(p);
    MajorSharpsOfName(p);
    NewKeyOfInferred(TonicPitch(p), None, n, "major", p, LineOfFifths(p));
  }

  /** A pitch's name holds no `m` or `M` and starts upper-case, so it reads as major. */
  lemma NameInfersMajor(p: Pitch)
    ensures InferMode(Name(p), None) == (Name(p), "major")
  {
    NameChars(p);
    var n := Name(p);
    assert Strings.Lower(n)[0] != n[0];
  }

  lemma MajorSharpsOfName(p: Pitch)
    requires IsTwelveTone(p) && IsPlain(p)
    requires p.accidental.Some? ==> IsSupported(p.accidental.value.quarterTones)
    ensures PitchToSharps(FromName(Name(p)), Some("major")) == Success(LineOfFifths(p))
  {
    ParseNameOfName(p);
    MajorMinorOffsets();
  }

  /** The key built once mode inference, parsing and the sharps count are known. */
  lemma NewKeyOfInferred(tonic: TonicArg, mode: Option<string>, name: string, m: string, p: Pitch, sharps: int)
    requires InferMode(TonicString(tonic), GivenMode(tonic, mode)) == (name, m)
    requires ParseName(name) == Some(p)
    requires PitchToSharps(FromName(name), Some(m)) == Success(sharps)
    ensures NewKey(tonic, mode) == Success(Key(KeySignature(Some(sharps), Some(m), []), p, None, []))
  {
  }

  /** A key on a chord with no mode given is on the chord's root, minor exactly
      when the chord is a minor triad. */
  lemma NewKeyOfChord(root: Pitch, isMinorTriad: bool)
    requires IsTwelveTone(root) && IsPlain(root)
    requires root.accidental.Some? ==> IsSupported(root.accidental.value.quarterTones)
    ensures var r := NewKey(TonicChord(root, isMinorTriad), None);
            r.Success? && r.value.tonic == root
            && r.value.signature.mode == Some(if isMinorTriad then "minor" else "major")
            && r.value.signature.sharps == Some(LineOfFifths(root) + if isMinorTriad then -3 else 0)
  {
    var n := Name(root);
    var m := if isMinorTriad then "minor" else "major";
    assert Strings.Lower(m) == m;
    assert InferMode(TonicString(TonicChord(root, isMinorTriad)), GivenMode(TonicChord(root, isMinorTriad), None)) == (n, m);
    ParseNameOfName(root);
    MajorMinorOffsets();
    assert ModeOffset(Some(m)) == if isMinorTriad then -3 else 0;
  }

  /** `str(key)`: the tonic's name in upper case for major, lower case for minor,
      as is for any other mode, then a space and the mode. */
  function KeyToString(k: Key): (r: string)
    requires k.signature.mode.Some?
    ensures var mode := k.signature.mode.value; var n := |Name(k.tonic)|;
            |r| == n + 1 + |mode| && r[n..] == " " + mode
            && (mode == "major" ==> r[..n] == Name(k.tonic))
            && (mode == "minor" ==> r[..n] == Strings.Lower(Name(k.tonic)))
  {
    var mode := k.signature.mode.value;
    var tonic :=
      if mode == "major" then Strings.Upper(Name(k.tonic))
      else if mode == "minor" then Strings.Lower(Name(k.tonic))
      else Name(k.tonic);
    UpperName(k.tonic);
    KeyStringParts(tonic, mode);
    tonic + " " + mode
  }

  lemma UpperName(p: Pitch)
    ensures Strings.Upper(Name(p)) == Name(p)
  {
    NameChars(p);
    Strings.UpperUnchanged(Name(p));
  }

  lemma KeyStringParts(tonic: string, mode: string)
    ensures (tonic + " " + mode)[..|tonic|] == tonic && (tonic + " " + mode)[|tonic|..] == " " + mode
  {
  }

  predicate MajorOrMinor(k: Key) {
    k.signature.mode == Some("major") || k.signature.mode == Some("minor")
  }

  /** The string of a major or minor key is complete: two such keys print the
      same exactly when they have the same mode and tonic name. */
  lemma KeyToStringInjective(k1: Key, k2: Key)
    requires MajorOrMinor(k1) && MajorOrMinor(k2)
    ensures KeyToString(k1) == KeyToString(k2) <==>
              k1.signature.mode == k2.signature.mode && Name(k1.tonic) == Name(k2.tonic)
  {
    if KeyToString(k1) == KeyToString(k2) {
      SameKeyString(k1, k2);
    }
  }

  lemma SameKeyString(k1: Key, k2: Key)
    requires MajorOrMinor(k1) && MajorOrMinor(k2)
    requires KeyToString(k1) == KeyToString(k2)
    ensures k1.signature.mode == k2.signature.mode && Name(k1.tonic) == Name(k2.tonic)
  {
    var s := KeyToString(k1);
    var n1, n2 := Name(k1.tonic), Name(k2.tonic);
    assert |n1| == |n2|;
    assert k1.signature.mode.value == s[|n1| + 1..] == k2.signature.mode.value;
    if k1.signature.mode.value == "minor" {
      NameChars(k1.tonic);
      NameChars(k2.tonic);
      assert Strings.Lower(n1) == s[..|n1|] == Strings.Lower(n2);
      Strings.LowerInjective(n1, n2);
    }
  }

  /** For keys on plain tonics the string determines the key: the tonic and
      hence the signature. */
  lemma KeyToStringDeterminesKey(k1: Key, k2: Key)
    requires WellFormedKey(k1) && WellFormedKey(k2) && MajorOrMinor(k1) && MajorOrMinor(k2)
    requires IsPlain(k1.tonic) && (k1.tonic.accidental.Some? ==> IsSupported(k1.tonic.accidental.value.quarterTones))
    requires IsPlain(k2.tonic) && (k2.tonic.accidental.Some? ==> IsSupported(k2.tonic.accidental.value.quarterTones))
    requires KeyToString(k1) == KeyToString(k2)
    ensures k1.tonic == k2.tonic && k1.signature.mode == k2.signature.mode
    ensures k1.signature.sharps == k2.signature.sharps
  {
    SameKeyString(k1, k2);
    ParseNameOfName(k1.tonic);
    ParseNameOfName(k2.tonic);
  }

  lemma KeyExamples()
    ensures NewKey(TonicName("c"), None).Success?
    ensures NewKey(TonicName("c"), None).value.signature.sharps == Some(-3)
    ensures KeyToString(NewKey(TonicName("c"), None).value) == "c minor"
  {
    assert ParseName("c") == Some(Pitch(C, None));
    assert Strings.Lower("c") == "c";
    assert Strings.Lower(Name(Pitch(C, None))) == "c";
  }

  /** The tonic's case picks the mode: c# is C-sharp minor, C# C-sharp major. */
  lemma KeyExamplesSharps()
    ensures NewKey(TonicName("c#"), None).Success?
    ensures NewKey(TonicName("c#"), None).value.signature.sharps == Some(4)
  {
    AccidentalFromPlainString("#");
    assert ParseName("c#") == Some(Pitch(C, Some(Sharp)));
    assert Strings.Lower("c#") == "c#";
  }

  lemma KeyExamplesSharpsMajor()
    ensures NewKey(TonicName("C#"), None).Success?
    ensures NewKey(TonicName("C#"), None).value.signature.sharps == Some(7)
  {
    AccidentalFromPlainString("#");
    assert ParseName("C#") == Some(Pitch(C, Some(Sharp)));
    assert Strings.Lower("C#")[0] == 'c';
  }

  lemma KeyExamplesFlatMajor()
    ensures NewKey(TonicName("F-"), None).Success?
    ensures NewKey(TonicName("F-"), None).value.signature == KeySignature(Some(-8), Some("major"), [])
  {
    AccidentalFromPlainString("-");
    assert ParseName("F-") == Some(Pitch(F, Some(Flat)));
    assert Strings.Lower("F-")[0] == 'f';
  }

  /** The key of F-flat major puts a double flat on B. */
  lemma FFlatMajorDoubleFlatB()
    ensures AccidentalByStep(NewKey(TonicName("F-"), None).value.signature, "B").value.0 == Some(DoubleFlat)
  {
    KeyExamplesFlatMajor();
    AccidentalByStepExamplesFlat();
  }

  /** A key's signature names the key's own tonic: for major and minor keys the
      tonic `pitchAndMode` reports is the key's tonic. */
  lemma KeySignatureNamesTonic(k: Key)
    requires WellFormedKey(k) && IsPlain(k.tonic)
    requires k.signature.mode == Some("major") || k.signature.mode == Some("minor")
    ensures PitchAndMode(k.signature) == Success((k.tonic, k.signature.mode))
  {
    var sig := k.signature;
    MinorModeSpellings();
    MajorMinorOffsets();
    SharpsToPitchOfLine(k.tonic);
    if sig.mode == Some("minor") {
      assert sig.sharps.value + 3 == LineOfFifths(k.tonic);
    } else {
      assert sig.sharps.value == LineOfFifths(k.tonic);
    }
  }

  /** The coefficients the certainty measure uses: the key's own, then those of
      the alternates that are positive, in order. */
  function PositiveCoefficients(alts: seq<Option<real>>): (r: seq<real>)
    ensures forall i :: 0 <= i < |r| ==> r[i] > 0.0
    ensures |r| <= |alts|
  {
    if |alts| == 0 then []
    else (if alts[0].Some? && alts[0].value > 0.0 then [alts[0].value] else []) + PositiveCoefficients(alts[1..])
  }

  /** The first positive alternate coefficient is the first entry of the filter. */
  lemma {:induction false} FirstPositiveCoefficient(alts: seq<Option<real>>, i: nat)
    requires i < |alts| && alts[i].Some? && alts[i].value > 0.0
    requires forall j :: 0 <= j < i ==> alts[j].None? || alts[j].value <= 0.0
    ensures |PositiveCoefficients(alts)| > 0 && PositiveCoefficients(alts)[0] == alts[i].value
    decreases i
  {
    if i > 0 {
      FirstPositiveCoefficient(alts[1..], i - 1);
    }
  }

  /** `tonalCertainty(method='correlationCoefficient')`: the key's coefficient
      plus twice its lead over the first positively correlated alternate. Fails
      with no alternates, with no positive alternate, or with no coefficient. */
  function TonalCertainty(k: Key): (r: Result<real, KeyError>)
    ensures |k.alternateCoefficients| == 0 ==> r == Failure(NoAlternates)
    ensures r.Success? <==>
              |k.alternateCoefficients| > 0 && |PositiveCoefficients(k.alternateCoefficients)| > 0
              && k.correlationCoefficient.Some?
    ensures r.Success? ==>
              var cc := k.correlationCoefficient.value;
              var second := PositiveCoefficients(k.alternateCoefficients)[0];
              r.value - cc == 2.0 * (cc - second)
  {
    if |k.alternateCoefficients| == 0 then Failure(NoAlternates)
    else
      var positives := PositiveCoefficients(k.alternateCoefficients);
      if |positives| == 0 then Failure(NoRunnerUp)
      else if k.correlationCoefficient.None? then Failure(CoefficientUnset)
      else
        var absMagnitude := k.correlationCoefficient.value;
        var leaderSpan := absMagnitude - positives[0];
        Success(absMagnitude * 1.0 + leaderSpan * 2.0)
  }

  /** The certainty exceeds the key's own coefficient exactly when the key leads
      its first positive alternate, and grows with that lead. */
  lemma TonalCertaintyRewardsLead(k: Key, i: nat)
    requires k.correlationCoefficient.Some?
    requires i < |k.alternateCoefficients| && k.alternateCoefficients[i].Some? && k.alternateCoefficients[i].value > 0.0
    requires forall j :: 0 <= j < i ==> k.alternateCoefficients[j].None? || k.alternateCoefficients[j].value <= 0.0
    ensures TonalCertainty(k).Success?
    ensures TonalCertainty(k).value == 3.0 * k.correlationCoefficient.value - 2.0 * k.alternateCoefficients[i].value
    ensures (TonalCertainty(k).value > k.correlationCoefficient.value)
            <==> (k.correlationCoefficient.value > k.alternateCoefficients[i].value)
  {
    FirstPositiveCoefficient(k.alternateCoefficients, i);
  }
}

=== FILE: keydetect.dfy ===
/** Key finding by correlating a pitch-class distribution with Sapp's major and
    minor key profiles, over single windows and over all windows of a score. */
module KeyDetect {
  import opened Wrappers

  // ---------------------------------------------------------------------------
  // Sums

  /** The left-to-right sum of a sequence, as an accumulating loop computes it. */
  function Sum(s: seq<real>): real
    decreases |s|
  {
    if |s| == 0 then 0.0 else Sum(s[..|s| - 1]) + s[|s| - 1]
  }

  lemma {:induction false} SumConcat(a: seq<real>, b: seq<real>)
    ensures Sum(a + b) == Sum(a) + Sum(b)
    decreases |b|
  {
    if |b| == 0 {
      assert a + b == a;
    } else {
      assert (a + b)[..|a + b| - 1] == a + b[..|b| - 1];
      SumConcat(a, b[..|b| - 1]);
    }
  }

  /** A sum does not depend on where a cyclic sequence is cut. */
  lemma SumRotate(s: seq<real>, m: nat)
    requires m <= |s|
    ensures Sum(s[m..] + s[..m]) == Sum(s)
  {
    SumConcat(s[m..], s[..m]);
    SumConcat(s[..m], s[m..]);
    assert s[..m] + s[m..] == s;
  }

  lemma {:induction false} SumPointwise(a: seq<real>, b: seq<real>, c: seq<real>)
    requires |a| == |b| == |c|
    requires forall i :: 0 <= i < |c| ==> c[i] == a[i] + b[i]
    ensures Sum(c) == Sum(a) + Sum(b)
    decreases |c|
  {
    if |c| > 0 {
      SumPointwise(a[..|a| - 1], b[..|b| - 1], c[..|c| - 1]);
    }
  }

  lemma {:induction false} SumScale(a: seq<real>, k: real, c: seq<real>)
    requires |a| == |c|
    requires forall i :: 0 <= i < |c| ==> c[i] == k * a[i]
    ensures Sum(c) == k * Sum(a)
    decreases |c|
  {
    if |c| > 0 {
      SumScale(a[..|a| - 1], k, c[..|c| - 1]);
    }
  }

  /** A sum with at most one non-zero entry is that entry. */
  lemma {:induction false} SumSingle(s: seq<real>, k: nat)
    requires k < |s|
    requires forall i :: 0 <= i < |s| && i != k ==> s[i] == 0.0
    ensures Sum(s) == s[k]
    decreases |s|
  {
    if k < |s| - 1 {
      SumSingle(s[..|s| - 1], k);
    } else {
      SumZero(s[..|s| - 1]);
    }
  }

  lemma {:induction false} SumZero(s: seq<real>)
    requires forall i :: 0 <= i < |s| ==> s[i] == 0.0
    ensures Sum(s) == 0.0
    decreases |s|
  {
    if |s| > 0 {
      SumZero(s[..|s| - 1]);
    }
  }

  // ---------------------------------------------------------------------------
  // Profiles and the convolution

  /** Sapp's key profiles: the weight of each pitch class above the tonic. */
  const MajorProfile: seq<real> := [6.35, 2.33, 3.48, 2.33, 4.38, 4.09, 2.52, 5.19, 2.39, 3.66, 2.29, 2.88]
  const MinorProfile: seq<real> := [6.33, 2.68, 3.52, 5.38, 2.60, 3.53, 2.54, 4.75, 3.98, 2.69, 3.34, 3.17]

  /** `getWeights`: the major or the minor profile. */
  function GetWeights(isMajor: bool): (w: seq<real>)
    ensures |w| == 12
  {
    if isMajor then MajorProfile else MinorProfile
  }

  /** The terms of score `i`: weight `(j + i) % 12` times the count of class `j`,
      the indexing the code uses. */
  function Terms(w: seq<real>, d: seq<real>, i: int): (t: seq<real>)
    requires |w| == 12
    ensures |t| == |d|
  {
    seq(|d|, j requires 0 <= j < |d| => w[(j + i) % 12] * d[j])
  }

  /** The twelve scores `convoluteDistribution` computes. */
  function Convolution(d: seq<real>, isMajor: bool): (scores: seq<real>)
    ensures |scores| == 12
  {
    seq(12, i requires 0 <= i < 12 => Sum(Terms(GetWeights(isMajor), d, i)))
  }

  /** The inner loop of `convoluteDistribution`: one score, accumulated over
      the whole distribution. */
  method AccumulateScore(w: seq<real>, d: seq<real>, i: int) returns (score: real)
    requires |w| == 12
    ensures score == Sum(Terms(w, d, i))
  {
    score := 0.0;
    var j := 0;
    while j < |d|
      invariant 0 <= j <= |d|
      invariant score == Sum(Terms(w, d, i)[..j])
    {
      ghost var t := Terms(w, d, i);
      assert t[..j + 1][..j] == t[..j];
      score := score + w[(j + i) % 12] * d[j];
      j := j + 1;
    }
    assert Terms(w, d, i)[..|d|] == Terms(w, d, i);
  }

  /** `convoluteDistribution`: the twelve scores, the `i`-th weighting class
      `j` by profile entry `(j + i) % 12`. */
  method ConvoluteDistribution(d: seq<real>, isMajor: bool) returns (soln: seq<real>)
    ensures |soln| == 12
    ensures forall i :: 0 <= i < 12 ==> soln[i] == Sum(Terms(GetWeights(isMajor), d, i))
  {
    var w := GetWeights(isMajor);
    soln := [];
    var i := 0;
    while i < 12
      invariant 0 <= i <= 12 && |soln| == i
      invariant forall k :: 0 <= k < i ==> soln[k] == Sum(Terms(w, d, k))
    {
      var score := AccumulateScore(w, d, i);
      soln := soln + [score];
      i := i + 1;
    }
  }

  /** An empty (all-zero) distribution scores zero for every key. */
  lemma ConvolutionOfSilence(d: seq<real>, isMajor: bool)
    requires forall j :: 0 <= j < |d| ==> d[j] == 0.0
    ensures forall i :: 0 <= i < 12 ==> Convolution(d, isMajor)[i] == 0.0
  {
    forall i | 0 <= i < 12 ensures Convolution(d, isMajor)[i] == 0.0 {
      SumZero(Terms(GetWeights(isMajor), d, i));
    }
  }

  lemma TermsAdd(w: seq<real>, d1: seq<real>, d2: seq<real>, d: seq<real>, i: int)
    requires |w| == 12 && |d1| == |d2| == |d|
    requires forall j :: 0 <= j < |d| ==> d[j] == d1[j] + d2[j]
    ensures Sum(Terms(w, d, i)) == Sum(Terms(w, d1, i)) + Sum(Terms(w, d2, i))
  {
    var t, t1, t2 := Terms(w, d, i), Terms(w, d1, i), Terms(w, d2, i);
    forall j | 0 <= j < |d| ensures t[j] == t1[j] + t2[j] {
      var c := w[(j + i) % 12];
      assert t[j] == c * (d1[j] + d2[j]);
      assert c * (d1[j] + d2[j]) == c * d1[j] + c * d2[j];
    }
    SumPointwise(t1, t2, t);
  }

  /** Scaling every count scales the score of every key by the same factor,
      whatever the profile. */
  lemma TermsScale(w: seq<real>, d1: seq<real>, k: real, d: seq<real>, i: int)
    requires |w| == 12 && |d1| == |d|
    requires forall j :: 0 <= j < |d| ==> d[j] == k * d1[j]
    ensures Sum(Terms(w, d, i)) == k * Sum(Terms(w, d1, i))
  {
    var t, t1 := Terms(w, d, i), Terms(w, d1, i);
    forall j | 0 <= j < |d| ensures t[j] == k * t1[j] {
      var c := w[(j + i) % 12];
      assert t[j] == c * (k * d1[j]);
      assert c * (k * d1[j]) == k * (c * d1[j]);
    }
    SumScale(t1, k, t);
  }

  /** The scores are additive in the distribution: the scores of two spans of
      music together are the sums of their scores. */
  lemma ConvolutionAdditive(d1: seq<real>, d2: seq<real>, d: seq<real>, isMajor: bool)
    requires |d1| == |d2| == |d|
    requires forall j :: 0 <= j < |d| ==> d[j] == d1[j] + d2[j]
    ensures forall i :: 0 <= i < 12 ==>
              Convolution(d, isMajor)[i] == Convolution(d1, isMajor)[i] + Convolution(d2, isMajor)[i]
  {
    forall i | 0 <= i < 12
      ensures Convolution(d, isMajor)[i] == Convolution(d1, isMajor)[i] + Convolution(d2, isMajor)[i]
    {
      TermsAdd(GetWeights(isMajor), d1, d2, d, i);
    }
  }

  /** The distribution moved up by `r` semitones. */
  function Transposed(d: seq<real>, r: int): (t: seq<real>)
    requires |d| == 12
    ensures |t| == 12
  {
    seq(12, j requires 0 <= j < 12 => d[(j - r) % 12])
  }

  lemma ModShift(a: int, b: int, k: int)
    requires a == b + 12 * k
    ensures a % 12 == b % 12
  {
  }

  /** Position `j` of a sequence of twelve cut at `m` is position `(j + m) % 12`. */
  lemma RotatedIndex(t: seq<real>, m: nat, j: nat)
    requires |t| == 12 && m < 12 && j < 12
    ensures (t[m..] + t[..m])[j] == t[(j + m) % 12]
  {
    if j < 12 - m {
      ModShift(j + m, j + m, 0);
    } else {
      ModShift(j + m, j + m - 12, 1);
    }
  }

  lemma ModSum(a: int, b: int)
    ensures (a % 12 + b % 12) % 12 == (a + b) % 12
  {
    ModShift(a % 12 + b % 12, a + b, -(a / 12) - (b / 12));
  }

  /** The index arithmetic of a transposition by `r`: class `j` of the moved
      distribution is class `(j - r) % 12` of the original. */
  lemma TransposedMods(r: int, i: int, j: int)
    ensures (j + (-r) % 12) % 12 == (j - r) % 12
    ensures ((j - r) % 12 + (i + r) % 12) % 12 == (j + i) % 12
    ensures ((j - r) % 12 - i) % 12 == (j - (i + r) % 12) % 12
  {
    ModShift(j + (-r) % 12, j - r, -((-r) / 12));
    ModSum(j - r, i + r);
    var k := (j - r) % 12;
    ModShift(k - i, j - (i + r) % 12, ((i + r) % 12 - (i + r)) / 12 + (k - (j - r)) / 12);
  }

  /** The terms of a transposed distribution are the terms of the original,
      cut at another place. */
  lemma TermsTransposed(w: seq<real>, d: seq<real>, r: int, i: int)
    requires |w| == 12 && |d| == 12
    ensures Sum(Terms(w, Transposed(d, r), i)) == Sum(Terms(w, d, (i + r) % 12))
  {
    var dr := Transposed(d, r);
    var t' := Terms(w, dr, i);
    var t := Terms(w, d, (i + r) % 12);
    var m := (-r) % 12;
    forall j | 0 <= j < 12 ensures t'[j] == (t[m..] + t[..m])[j] {
      RotatedIndex(t, m, j);
      TransposedMods(r, i, j);
      var k := (j - r) % 12;
      calc {
        t'[j];
        w[(j + i) % 12] * dr[j];
        w[(k + (i + r) % 12) % 12] * d[k];
        t[k];
      }
    }
    assert t' == t[m..] + t[..m];
    SumRotate(t, m);
  }

  /** Moving a distribution up by `r` semitones moves every score `r` places the
      other way: `scores'[i] == scores[(i + r) % 12]`. */
  lemma ConvolutionTransposed(d: seq<real>, r: int, isMajor: bool, i: nat)
    requires |d| == 12 && i < 12
    ensures Convolution(Transposed(d, r), isMajor)[i] == Convolution(d, isMajor)[(i + r) % 12]
  {
    TermsTransposed(GetWeights(isMajor), d, r, i);
  }

  // ---------------------------------------------------------------------------
  // Ranking

  predicate Descending(s: seq<real>) {
    forall i, j :: 0 <= i < j < |s| ==> s[i] >= s[j]
  }

  /** Inserts `x` into a descending sequence. */
  function Insert(x: real, s: seq<real>): (r: seq<real>)
    requires Descending(s)
    ensures |r| == |s| + 1
    ensures multiset(r) == multiset(s) + multiset{x}
    ensures Descending(r)
    decreases |s|
  {
    if |s| == 0 then [x]
    else if x >= s[0] then [x] + s
    else
      var rest := Insert(x, s[1..]);
      BoundedByHead(s, x, rest);
      ConsDescending(s[0], rest);
      assert s == [s[0]] + s[1..];
      [s[0]] + rest
  }

  /** The head of a descending sequence bounds its tail with any smaller value
      added. */
  lemma BoundedByHead(s: seq<real>, x: real, rest: seq<real>)
    requires Descending(s) && |s| > 0 && x < s[0]
    requires multiset(rest) == multiset(s[1..]) + multiset{x}
    ensures forall k :: 0 <= k < |rest| ==> rest[k] <= s[0]
  {
    forall k | 0 <= k < |rest| ensures rest[k] <= s[0] {
      assert rest[k] in multiset(rest);
      if rest[k] != x {
        assert rest[k] in multiset(s[1..]);
        var m :| 0 <= m < |s[1..]| && s[1..][m] == rest[k];
        assert s[0] >= s[m + 1];
      }
    }
  }

  lemma ConsDescending(h: real, rest: seq<real>)
    requires Descending(rest)
    requires forall k :: 0 <= k < |rest| ==> rest[k] <= h
    ensures Descending([h] + rest)
  {
    var r := [h] + rest;
    forall p, q | 0 <= p < q < |r| ensures r[p] >= r[q] {
      assert r[q] == rest[q - 1];
      if p > 0 { assert r[p] == rest[p - 1]; }
    }
  }

  /** `sorted(scores)` reversed: the scores from highest to lowest. */
  function SortDescending(s: seq<real>): (r: seq<real>)
    ensures Descending(r)
    ensures multiset(r) == multiset(s) && |r| == |s|
    decreases |s|
  {
    if |s| == 0 then [] else
      assert s == s[..|s| - 1] + [s[|s| - 1]];
      Insert(s[|s| - 1], SortDescending(s[..|s| - 1]))
  }

  /** `list.index`: the first position holding `x`. */
  function IndexOf(s: seq<real>, x: real): (k: nat)
    requires x in s
    ensures k < |s| && s[k] == x
    ensures forall j :: 0 <= j < k ==> s[j] != x
  {
    if s[0] == x then 0 else 1 + IndexOf(s[1..], x)
  }

  /** `getLikelyKeys`: the scores from best to worst, each with the pitch class
      `list.index` finds for it, i.e. the first class holding that score. */
  function GetLikelyKeys(scores: seq<real>): (r: seq<(nat, real)>)
    requires |scores| == 12
    ensures |r| == 12
    ensures forall i :: 0 <= i < 12 ==> r[i].0 < 12 && scores[r[i].0] == r[i].1
    ensures forall i :: 0 <= i < 12 ==> forall k :: 0 <= k < r[i].0 ==> scores[k] != r[i].1
    ensures forall i, j :: 0 <= i < j < 12 ==> r[i].1 >= r[j].1
    ensures multiset(seq(12, i requires 0 <= i < 12 => r[i].1)) == multiset(scores)
  {
    var a := SortDescending(scores);
    MembersOfPermutation(scores, a);
    var r := seq(12, i requires 0 <= i < 12 => (IndexOf(scores, a[i]), a[i]));
    SecondsOf(r, a);
    r
  }

  lemma MembersOfPermutation(s: seq<real>, a: seq<real>)
    requires multiset(a) == multiset(s)
    ensures forall i :: 0 <= i < |a| ==> a[i] in s
  {
    forall i | 0 <= i < |a| ensures a[i] in s {
      assert a[i] in multiset(a);
    }
  }

  lemma SecondsOf(r: seq<(nat, real)>, a: seq<real>)
    requires |r| == |a| == 12 && forall i :: 0 <= i < 12 ==> r[i].1 == a[i]
    ensures seq(12, i requires 0 <= i < 12 => r[i].1) == a
  {
  }

  /** The largest score. */
  function Max(s: seq<real>): (m: real)
    requires |s| > 0
    ensures m in s && forall i :: 0 <= i < |s| ==> s[i] <= m
  {
    if |s| == 1 then s[0]
    else
      var m := Max(s[1..]);
      assert m in s[1..];
      if s[0] >= m then s[0] else m
  }

  /** The best-ranked key is the first pitch class with the largest score. */
  lemma LikelyKeysHead(scores: seq<real>)
    requires |scores| == 12
    ensures GetLikelyKeys(scores)[0].1 == Max(scores)
    ensures GetLikelyKeys(scores)[0].0 == IndexOf(scores, Max(scores))
  {
    var a := SortDescending(scores);
    var m := Max(scores);
    assert m in multiset(a);
    var k :| 0 <= k < 12 && a[k] == m;
    assert a[0] >= a[k];
    assert a[0] in multiset(scores);
  }

  /** Tied scores share a pitch class: twelve equal scores all report class 0. */
  lemma LikelyKeysRepeatOnTies()
    ensures GetLikelyKeys(seq(12, _ => 0.0)) == seq(12, _ => (0, 0.0))
  {
    var scores: seq<real> := seq(12, _ => 0.0);
    var r := GetLikelyKeys(scores);
    forall i | 0 <= i < 12 ensures r[i] == (0, 0.0) {
      assert r[i].1 in multiset(scores);
    }
  }

  /** Pitch classes ranked best first, ties broken by class: each class once. */
  function RankKeys(scores: seq<real>): (r: seq<(nat, real)>)
    requires |scores| == 12
    ensures |r| == 12
    ensures forall i :: 0 <= i < 12 ==> r[i].0 < 12 && scores[r[i].0] == r[i].1
    ensures forall i, j :: 0 <= i < j < 12 ==> r[i].0 != r[j].0
    ensures forall i, j :: 0 <= i < j < 12 ==> r[i].1 >= r[j].1
  {
    WithScores(scores, Ranking(scores))
  }

  /** The pitch classes ranked best first, ties broken by class. */
  function Ranking(scores: seq<real>): (ranked: seq<nat>)
    ensures |ranked| == |scores| && RankedBy(scores, ranked)
    ensures forall i, j :: 0 <= i < j < |ranked| ==> ranked[i] != ranked[j]
    ensures forall k :: 0 <= k < |scores| ==> k in ranked
  {
    var ranked := RankFrom(scores, |scores|);
    DistinctClasses(ranked, |scores|);
    assert forall k :: 0 <= k < |scores| ==> k in ranked by {
      forall k | 0 <= k < |scores| ensures k in ranked {
        ClassInRanking(scores, k);
      }
    }
    ranked
  }

  /** Each ranked class paired with its score. */
  function WithScores(scores: seq<real>, ranked: seq<nat>): (r: seq<(nat, real)>)
    requires RankedBy(scores, ranked)
    ensures |r| == |ranked|
    ensures forall i :: 0 <= i < |r| ==> r[i] == (ranked[i], scores[ranked[i]])
    ensures forall i, j :: 0 <= i < j < |r| ==> r[i].1 >= r[j].1
  {
    seq(|ranked|, i requires 0 <= i < |ranked| => (ranked[i], scores[ranked[i]]))
  }

  predicate RankedBy(scores: seq<real>, r: seq<nat>) {
    (forall i :: 0 <= i < |r| ==> r[i] < |scores|)
    && (forall i, j :: 0 <= i < j < |r| ==> scores[r[i]] >= scores[r[j]])
  }

  /** Inserts class `c` after every class scoring at least as much. */
  function InsertRanked(scores: seq<real>, c: nat, r: seq<nat>): (r': seq<nat>)
    requires c < |scores| && RankedBy(scores, r)
    ensures |r'| == |r| + 1
    ensures multiset(r') == multiset(r) + multiset{c}
    ensures RankedBy(scores, r')
    decreases |r|
  {
    if |r| == 0 then [c]
    else if scores[c] > scores[r[0]] then [c] + r
    else
      var rest := InsertRanked(scores, c, r[1..]);
      RankedBoundedByHead(scores, r, c, rest);
      ConsRanked(scores, r[0], rest);
      assert r == [r[0]] + r[1..];
      [r[0]] + rest
  }

  lemma RankedBoundedByHead(scores: seq<real>, r: seq<nat>, c: nat, rest: seq<nat>)
    requires RankedBy(scores, r) && |r| > 0 && c < |scores| && scores[c] <= scores[r[0]]
    requires multiset(rest) == multiset(r[1..]) + multiset{c}
    ensures forall k :: 0 <= k < |rest| ==> rest[k] < |scores| && scores[rest[k]] <= scores[r[0]]
  {
    forall k | 0 <= k < |rest| ensures rest[k] < |scores| && scores[rest[k]] <= scores[r[0]] {
      assert rest[k] in multiset(rest);
      if rest[k] != c {
        assert rest[k] in multiset(r[1..]);
        var m :| 0 <= m < |r[1..]| && r[1..][m] == rest[k];
        assert r[m + 1] == rest[k];
      }
    }
  }

  lemma ConsRanked(scores: seq<real>, h: nat, rest: seq<nat>)
    requires h < |scores| && RankedBy(scores, rest)
    requires forall k :: 0 <= k < |rest| ==> rest[k] < |scores| && scores[rest[k]] <= scores[h]
    ensures RankedBy(scores, [h] + rest)
  {
    var r := [h] + rest;
    forall p, q | 0 <= p < q < |r| ensures scores[r[p]] >= scores[r[q]] {
      assert r[q] == rest[q - 1];
      if p > 0 { assert r[p] == rest[p - 1]; }
    }
  }

  /** The classes `0 .. n - 1`, ranked. */
  function RankFrom(scores: seq<real>, n: nat): (r: seq<nat>)
    requires n <= |scores|
    ensures RankedBy(scores, r) && |r| == n
    ensures multiset(r) == multiset(Classes(n))
  {
    if n == 0 then []
    else
      assert Classes(n) == Classes(n - 1) + [n - 1];
      InsertRanked(scores, n - 1, RankFrom(scores, n - 1))
  }

  function Classes(n: nat): (c: seq<nat>)
    ensures |c| == n && forall i :: 0 <= i < n ==> c[i] == i
  {
    if n == 0 then [] else Classes(n - 1) + [n - 1]
  }

  /** A sequence with the multiset of `0 .. n - 1` holds no class twice. */
  lemma DistinctClasses(r: seq<nat>, n: nat)
    requires multiset(r) == multiset(Classes(n))
    ensures forall i, j :: 0 <= i < j < |r| ==> r[i] != r[j]
  {
    forall i, j | 0 <= i < j < |r| ensures r[i] != r[j] {
      if r[i] == r[j] {
        assert multiset(r)[r[i]] >= 2 by {
          assert r == r[..i] + [r[i]] + r[i + 1..j] + [r[j]] + r[j + 1..];
        }
        ClassesOnce(n, r[i]);
      }
    }
  }

  lemma {:induction false} ClassesOnce(n: nat, c: nat)
    ensures multiset(Classes(n))[c] <= 1
  {
    if n > 0 {
      ClassesOnce(n - 1, c);
      assert c !in Classes(n - 1) || c < n - 1;
      if c == n - 1 {
        assert c !in multiset(Classes(n - 1));
      }
    }
  }

  // ---------------------------------------------------------------------------
  // Single-window detection

  datatype Mode = Major | Minor

  /** `singleKeyDetect`: the best major key wins only with a strictly higher
      score than the best minor key; the tonic is the pitch class ranked first. */
  function SingleKeyDetect(d: seq<real>): (r: (nat, Mode))
    ensures r.1 == Major <==> Max(Convolution(d, true)) > Max(Convolution(d, false))
    ensures r.1 == Major ==> r.0 == IndexOf(Convolution(d, true), Max(Convolution(d, true)))
    ensures r.1 == Minor ==> r.0 == IndexOf(Convolution(d, false), Max(Convolution(d, false)))
  {
    var likelyMajor := GetLikelyKeys(Convolution(d, true));
    var likelyMinor := GetLikelyKeys(Convolution(d, false));
    LikelyKeysHead(Convolution(d, true));
    LikelyKeysHead(Convolution(d, false));
    if likelyMajor[0].1 > likelyMinor[0].1 then (likelyMajor[0].0, Major) else (likelyMinor[0].0, Minor)
  }

  // ---------------------------------------------------------------------------
  // Findings: the profile is read backwards

  /** The terms with the profile read relative to the candidate tonic,
      `w[(j - i) % 12]`. */
  function TonicTerms(w: seq<real>, d: seq<real>, i: int): (t: seq<real>)
    requires |w| == 12
    ensures |t| == |d|
  {
    seq(|d|, j requires 0 <= j < |d| => w[(j - i) % 12] * d[j])
  }

  /** Score `i` is the correlation with the key whose tonic is pitch class `i`. */
  function TonicConvolution(d: seq<real>, isMajor: bool): (scores: seq<real>)
    ensures |scores| == 12
  {
    seq(12, i requires 0 <= i < 12 => Sum(TonicTerms(GetWeights(isMajor), d, i)))
  }

  /** The code's score `i` is the intended score of tonic `-i`: its tonics are
      mirrored around C. */
  lemma ConvolutionIsMirrored(d: seq<real>, isMajor: bool, i: nat)
    requires i < 12
    ensures Convolution(d, isMajor)[i] == TonicConvolution(d, isMajor)[(12 - i) % 12]
  {
    TermsMirrored(GetWeights(isMajor), d, i);
  }

  /** The terms behind both readings agree, whatever the profile. */
  lemma TermsMirrored(w: seq<real>, d: seq<real>, i: nat)
    requires |w| == 12 && i < 12
    ensures Terms(w, d, i) == TonicTerms(w, d, (12 - i) % 12)
  {
    forall j | 0 <= j < |d| ensures Terms(w, d, i)[j] == TonicTerms(w, d, (12 - i) % 12)[j] {
      ModShift(j - (12 - i) % 12, j + i, if i == 0 then 0 else -1);
    }
  }

  lemma TonicTermsTransposed(w: seq<real>, d: seq<real>, r: int, i: int)
    requires |w| == 12 && |d| == 12
    ensures Sum(TonicTerms(w, Transposed(d, r), (i + r) % 12)) == Sum(TonicTerms(w, d, i))
  {
    var dr := Transposed(d, r);
    var t' := TonicTerms(w, dr, (i + r) % 12);
    var t := TonicTerms(w, d, i);
    var m := (-r) % 12;
    forall j | 0 <= j < 12 ensures t'[j] == (t[m..] + t[..m])[j] {
      RotatedIndex(t, m, j);
      TransposedMods(r, i, j);
      var k := (j - r) % 12;
      calc {
        t'[j];
        w[(j - (i + r) % 12) % 12] * dr[j];
        w[(k - i) % 12] * d[k];
        t[k];
      }
    }
    assert t' == t[m..] + t[..m];
    SumRotate(t, m);
  }

  /** Moving the distribution up by `r` semitones moves the intended scores up by
      `r` too: the key found follows the music. */
  lemma TonicConvolutionTransposed(d: seq<real>, r: int, isMajor: bool, i: nat)
    requires |d| == 12 && i < 12
    ensures TonicConvolution(Transposed(d, r), isMajor)[(i + r) % 12] == TonicConvolution(d, isMajor)[i]
  {
    TonicTermsTransposed(GetWeights(isMajor), d, r, i);
  }

  /** One pitch class sounding alone. */
  function Unit(k: nat): (d: seq<real>)
    requires k < 12
    ensures |d| == 12
  {
    seq(12, j requires 0 <= j < 12 => if j == k then 1.0 else 0.0)
  }

  lemma ConvolutionOfUnit(k: nat, isMajor: bool, i: nat)
    requires k < 12 && i < 12
    ensures Convolution(Unit(k), isMajor)[i] == GetWeights(isMajor)[(k + i) % 12]
    ensures TonicConvolution(Unit(k), isMajor)[i] == GetWeights(isMajor)[(k - i) % 12]
  {
    SumSingle(Terms(GetWeights(isMajor), Unit(k), i), k);
    SumSingle(TonicTerms(GetWeights(isMajor), Unit(k), i), k);
  }

  /** Both profiles weigh the tonic above every other pitch class. */
  lemma ProfilesPeakAtTonic(isMajor: bool)
    ensures forall k :: 0 < k < 12 ==> GetWeights(isMajor)[k] < GetWeights(isMajor)[0]
    ensures GetWeights(true)[0] == 6.35 && GetWeights(false)[0] == 6.33
  {
  }

  /** An entry no smaller than any other is the maximum. */
  lemma MaxAt(s: seq<real>, k: nat)
    requires k < |s| && forall i :: 0 <= i < |s| ==> s[i] <= s[k]
    ensures Max(s) == s[k]
  {
  }

  /** The scores of a lone pitch class under the code's indexing. */
  lemma UnitScores(k: nat, isMajor: bool)
    requires k < 12
    ensures forall i :: 0 <= i < 12 ==> Convolution(Unit(k), isMajor)[i] == GetWeights(isMajor)[(k + i) % 12]
    ensures forall i :: 0 <= i < 12 ==> TonicConvolution(Unit(k), isMajor)[i] == GetWeights(isMajor)[(k - i) % 12]
  {
    forall i | 0 <= i < 12
      ensures Convolution(Unit(k), isMajor)[i] == GetWeights(isMajor)[(k + i) % 12]
      ensures TonicConvolution(Unit(k), isMajor)[i] == GetWeights(isMajor)[(k - i) % 12]
    {
      ConvolutionOfUnit(k, isMajor, i);
    }
  }

  /** The top score of a lone pitch class is the profile's tonic weight, found
      at class `peak` and nowhere before it. */
  lemma UnitTop(scores: seq<real>, w: seq<real>, peak: nat)
    requires |scores| == 12 && |w| == 12 && peak < 12
    requires forall k :: 0 < k < 12 ==> w[k] < w[0]
    requires scores[peak] == w[0]
    requires forall i :: 0 <= i < 12 && i != peak ==> exists k :: 0 < k < 12 && scores[i] == w[k]
    ensures Max(scores) == w[0] && IndexOf(scores, w[0]) == peak
  {
    forall i | 0 <= i < 12 ensures scores[i] <= scores[peak] {
      if i != peak {
        var k :| 0 < k < 12 && scores[i] == w[k];
      }
    }
    MaxAt(scores, peak);
    forall i | 0 <= i < 12 && i != peak ensures scores[i] != w[0] {
      var k :| 0 < k < 12 && scores[i] == w[k];
    }
  }

  /** Under the code's indexing a lone pitch class `k` scores highest, with
      the profile's tonic weight, at class `-k`. */
  lemma UnitTopAsWritten(k: nat, isMajor: bool)
    requires k < 12
    ensures var scores := Convolution(Unit(k), isMajor);
            Max(scores) == GetWeights(isMajor)[0] && IndexOf(scores, GetWeights(isMajor)[0]) == (12 - k) % 12
  {
    ProfilesPeakAtTonic(isMajor);
    UnitScores(k, isMajor);
    var scores := Convolution(Unit(k), isMajor);
    var peak := (12 - k) % 12;
    assert (k + peak) % 12 == 0 by { ModShift(k + peak, 0, (k + peak) / 12); }
    forall i | 0 <= i < 12 && i != peak
      ensures exists m :: 0 < m < 12 && scores[i] == GetWeights(isMajor)[m]
    {
      var m := (k + i) % 12;
      assert 0 < m by {
        if m == 0 { ModShift(i, peak, (k + i) / 12 - (k + peak) / 12); }
      }
      assert scores[i] == GetWeights(isMajor)[m];
    }
    UnitTop(scores, GetWeights(isMajor), peak);
  }

  /** A lone pitch class `k` is reported as the major key on `-k`: a lone G
      (class 7) comes out as F major (class 5). */
  lemma LoneNoteReportedMirrored(k: nat)
    requires k < 12
    ensures SingleKeyDetect(Unit(k)) == ((12 - k) % 12, Major)
  {
    UnitTopAsWritten(k, true);
    UnitTopAsWritten(k, false);
    ProfilesPeakAtTonic(true);
  }

  /** `singleKeyDetect` with the profile read relative to the tonic. */
  function SingleKeyDetectIntended(d: seq<real>): (r: (nat, Mode))
    ensures r.1 == Major <==> Max(TonicConvolution(d, true)) > Max(TonicConvolution(d, false))
    ensures r.0 < 12
    ensures r.1 == Major ==> TonicConvolution(d, true)[r.0] == Max(TonicConvolution(d, true))
    ensures r.1 == Minor ==> TonicConvolution(d, false)[r.0] == Max(TonicConvolution(d, false))
  {
    var likelyMajor := RankKeys(TonicConvolution(d, true));
    var likelyMinor := RankKeys(TonicConvolution(d, false));
    RankKeysHead(TonicConvolution(d, true));
    RankKeysHead(TonicConvolution(d, false));
    if likelyMajor[0].1 > likelyMinor[0].1 then (likelyMajor[0].0, Major) else (likelyMinor[0].0, Minor)
  }

  lemma RankKeysHead(scores: seq<real>)
    requires |scores| == 12
    ensures RankKeys(scores)[0].1 == Max(scores)
  {
    var r := RankKeys(scores);
    var ranked := Ranking(scores);
    assert forall i :: 0 <= i < 12 ==> r[i] == (ranked[i], scores[ranked[i]]);
    var m := Max(scores);
    var k :| 0 <= k < 12 && scores[k] == m;
    assert k in ranked;
    var p :| 0 <= p < 12 && ranked[p] == k;
    assert r[0].1 >= r[p].1;
  }

  /** Every class appears in the ranking. */
  lemma ClassInRanking(scores: seq<real>, k: nat)
    requires k < |scores|
    ensures k in RankFrom(scores, |scores|)
  {
    var c := Classes(|scores|);
    assert c[k] == k;
    assert k in multiset(c);
    assert k in multiset(RankFrom(scores, |scores|));
  }

  /** Read relative to the tonic, a lone pitch class `k` scores highest, with
      the profile's tonic weight, at class `k` alone. */
  lemma UnitTopIntended(k: nat, isMajor: bool)
    requires k < 12
    ensures var scores := TonicConvolution(Unit(k), isMajor);
            Max(scores) == GetWeights(isMajor)[0]
            && forall i :: 0 <= i < 12 && scores[i] == Max(scores) ==> i == k
  {
    ProfilesPeakAtTonic(isMajor);
    UnitScores(k, isMajor);
    var scores := TonicConvolution(Unit(k), isMajor);
    assert (k - k) % 12 == 0;
    forall i | 0 <= i < 12 && i != k
      ensures exists m :: 0 < m < 12 && scores[i] == GetWeights(isMajor)[m]
    {
      var m := (k - i) % 12;
      assert 0 < m by {
        if m == 0 { ModShift(k - i, 0, (k - i) / 12); }
      }
      assert scores[i] == GetWeights(isMajor)[m];
    }
    UnitTop(scores, GetWeights(isMajor), k);
  }

  /** With the profile read relative to the tonic, a lone pitch class is the
      major key on that class: a lone G is G major. */
  lemma LoneNoteIntended(k: nat)
    requires k < 12
    ensures SingleKeyDetectIntended(Unit(k)) == (k, Major)
  {
    UnitTopIntended(k, true);
    UnitTopIntended(k, false);
    ProfilesPeakAtTonic(true);
  }

  // ---------------------------------------------------------------------------
  // Windows

  /** The pitch-class counts of one measure (or of a window): a missing class
      has not sounded. */
  type Counts = map<int, real>

  function Count(c: Counts, pc: int): real {
    if pc in c then c[pc] else 0.0
  }

  /** The counts of two spans of music together. */
  function Merge(a: Counts, b: Counts): (m: Counts)
    ensures forall pc :: Count(m, pc) == Count(a, pc) + Count(b, pc)
  {
    map pc | pc in a.Keys + b.Keys :: Count(a, pc) + Count(b, pc)
  }

  /** The counts of a run of measures. */
  function WindowCounts(measures: seq<Counts>): Counts
    decreases |measures|
  {
    if |measures| == 0 then map[] else Merge(WindowCounts(measures[..|measures| - 1]), measures[|measures| - 1])
  }

  /** The twelve-entry distribution of a window's counts, zero where a class is
      missing. */
  function Distribution(c: Counts): (d: seq<real>)
    ensures |d| == 12
    ensures forall j :: 0 <= j < 12 ==> (j in c ==> d[j] == c[j]) && (j !in c ==> d[j] == 0.0)
  {
    seq(12, j requires 0 <= j < 12 => Count(c, j))
  }

  /** A window's distribution is the sum of its measures' distributions. */
  lemma {:induction false} WindowDistributionAdds(measures: seq<Counts>, j: nat)
    requires j < 12
    ensures Distribution(WindowCounts(measures))[j] ==
              Sum(seq(|measures|, k requires 0 <= k < |measures| => Distribution(measures[k])[j]))
    decreases |measures|
  {
    if |measures| > 0 {
      var n := |measures|;
      WindowDistributionAdds(measures[..n - 1], j);
      assert seq(n, k requires 0 <= k < n => Distribution(measures[k])[j])[..n - 1]
          == seq(n - 1, k requires 0 <= k < n - 1 => Distribution(measures[..n - 1][k])[j]);
    }
  }

  /** The key found in window `i` of size `windowSize`. */
  function WindowKey(measures: seq<Counts>, windowSize: nat, i: nat): (nat, Mode)
    requires i + windowSize <= |measures|
  {
    SingleKeyDetect(Distribution(WindowCounts(measures[i..i + windowSize])))
  }

  /** How many windows of a size fit: `len(range(max - windowSize + 1))`. */
  function WindowCount(n: nat, windowSize: nat): nat {
    if windowSize <= n then n - windowSize + 1 else 0
  }

  /** The key of every window of a size, in order. */
  function WindowKeys(measures: seq<Counts>, windowSize: nat): seq<(nat, Mode)> {
    seq(WindowCount(|measures|, windowSize),
        i requires 0 <= i < WindowCount(|measures|, windowSize) => WindowKey(measures, windowSize, i))
  }

  /** A prefix one longer is the prefix and the next element. */
  lemma PrefixStep<T>(f: seq<T>, i: nat, x: T)
    requires i < |f| && f[i] == x
    ensures f[..i + 1] == f[..i] + [x]
  {
  }

  /** `windowKeyDetect`: the key of every run of `windowSize` consecutive
      measures, in order. */
  method WindowKeyDetect(measures: seq<Counts>, windowSize: nat) returns (keys: seq<(nat, Mode)>)
    ensures |keys| == WindowCount(|measures|, windowSize)
    ensures keys == WindowKeys(measures, windowSize)
  {
    keys := [];
    var count := if windowSize <= |measures| then |measures| - windowSize + 1 else 0;
    var i := 0;
    while i < count
      invariant 0 <= i <= count && keys == WindowKeys(measures, windowSize)[..i]
    {
      var key := WindowKey(measures, windowSize, i);
      PrefixStep(WindowKeys(measures, windowSize), i, key);
      keys := keys + [key];
      i := i + 1;
    }
    assert WindowKeys(measures, windowSize)[..count] == WindowKeys(measures, windowSize);
  }

  /** The window analysis for every window size from `minWindow` up to the
      whole piece, one row per size. */
  function KeyMatrix(measures: seq<Counts>, minWindow: nat): seq<seq<(nat, Mode)>> {
    seq(WindowCount(|measures|, minWindow),
        k requires 0 <= k < WindowCount(|measures|, minWindow) => WindowKeys(measures, minWindow + k))
  }

  /** `runKeyDetect`: the window analysis for every window size from
      `minWindow` up to the whole piece, one row per size. */
  method RunKeyDetect(measures: seq<Counts>, minWindow: nat) returns (matrix: seq<seq<(nat, Mode)>>)
    ensures |matrix| == WindowCount(|measures|, minWindow)
    ensures matrix == KeyMatrix(measures, minWindow)
  {
    matrix := [];
    var rows := WindowCount(|measures|, minWindow);
    var k := 0;
    while k < rows
      invariant 0 <= k <= rows && matrix == KeyMatrix(measures, minWindow)[..k]
    {
      var row := WindowKeyDetect(measures, minWindow + k);
      matrix := matrix + [row];
      k := k + 1;
    }
    assert KeyMatrix(measures, minWindow)[..rows] == KeyMatrix(measures, minWindow);
  }
}

=== FILE: notation.dfy ===
/** Figured-bass notation columns: a column such as "#6,5" is split into
    figures, each a number with an optional modifier; shorthand columns are
    expanded to their full figures; modifiers become accidentals that alter the
    pitches above the bass. */
module FiguredBass {
  import opened Wrappers
  import opened Pitches
  import Strings

  datatype NotationError =
    | InvalidNotation(figure: string)          // a figure with several numbers and several modifiers
    | ModifierUnsupported(modifier: string)    // a modifier no accidental is known for
    | ResultUnsupported(quarterTones: int)     // a modified pitch whose accidental does not exist
    | UnparsablePitch(name: string)            // a pitch name that cannot be read

  // ---------------------------------------------------------------------------
  // Digit runs

  predicate InClass(c: char, digits: bool) {
    Strings.IsDigit(c) == digits
  }

  /** Every character of `s` is in the class. */
  predicate AllInClass(s: string, digits: bool) {
    forall k :: 0 <= k < |s| ==> InClass(s[k], digits)
  }

  /** The characters of `s` in the class, in order. */
  function Filter(s: string, digits: bool): (r: string)
    ensures forall c :: c in r ==> InClass(c, digits)
    decreases |s|
  {
    if |s| == 0 then "" else (if InClass(s[0], digits) then [s[0]] else "") + Filter(s[1..], digits)
  }

  lemma {:induction false} FilterAppend(a: string, b: string, digits: bool)
    ensures Filter(a + b, digits) == Filter(a, digits) + Filter(b, digits)
    decreases |a|
  {
    if |a| > 0 {
      assert (a + b)[1..] == a[1..] + b;
      FilterAppend(a[1..], b, digits);
    } else {
      assert a + b == b;
    }
  }

  lemma {:induction false} FilterWithin(a: string, digits: bool)
    requires forall k :: 0 <= k < |a| ==> InClass(a[k], digits)
    ensures Filter(a, digits) == a
    decreases |a|
  {
    if |a| > 0 {
      FilterWithin(a[1..], digits);
    }
  }

  lemma {:induction false} FilterOutside(a: string, digits: bool)
    requires forall k :: 0 <= k < |a| ==> !InClass(a[k], digits)
    ensures Filter(a, digits) == ""
    decreases |a|
  {
    if |a| > 0 {
      FilterOutside(a[1..], digits);
    }
  }

  function Concat(runs: seq<string>): string
    decreases |runs|
  {
    if |runs| == 0 then "" else runs[0] + Concat(runs[1..])
  }

  /** The length of the run of the class that starts `s`. */
  function RunLength(s: string, digits: bool): (n: nat)
    ensures n <= |s|
    ensures forall k :: 0 <= k < n ==> InClass(s[k], digits)
    ensures n < |s| ==> !InClass(s[n], digits)
    decreases |s|
  {
    if |s| == 0 || !InClass(s[0], digits) then 0 else 1 + RunLength(s[1..], digits)
  }

  /** The maximal runs of digits (`digits`) or of non-digits (`!digits`) in `s`,
      left to right: what `re.findall('([0-9]*)', s)` (`'([^0-9]*)'`) leaves once
      its empty matches are removed. The runs are non-empty, hold only
      characters of the class, and together hold every such character of `s`. */
  function Runs(s: string, digits: bool): (runs: seq<string>)
    ensures forall k :: 0 <= k < |runs| ==> |runs[k]| > 0 && AllInClass(runs[k], digits)
    ensures Concat(runs) == Filter(s, digits)
    decreases |s|
  {
    if |s| == 0 then []
    else if !InClass(s[0], digits) then
      Runs(s[1..], digits)
    else
      var n := RunLength(s, digits);
      var rest := Runs(s[n..], digits);
      RunsCons(s, n, rest, digits);
      [s[..n]] + rest
  }

  /** A leading run of the class before the runs of the remainder gives the
      runs of the whole string. */
  lemma RunsCons(s: string, n: nat, rest: seq<string>, digits: bool)
    requires 0 < n <= |s| && forall k :: 0 <= k < n ==> InClass(s[k], digits)
    requires forall k :: 0 <= k < |rest| ==> |rest[k]| > 0 && AllInClass(rest[k], digits)
    requires Concat(rest) == Filter(s[n..], digits)
    ensures forall k :: 0 <= k < |[s[..n]] + rest| ==> |([s[..n]] + rest)[k]| > 0 && AllInClass(([s[..n]] + rest)[k], digits)
    ensures Concat([s[..n]] + rest) == Filter(s, digits)
  {
    RunsConsClass(s[..n], rest, digits);
    ConcatCons(s[..n], rest);
    FilterSplit(s, n, digits);
  }

  lemma RunsConsClass(h: string, rest: seq<string>, digits: bool)
    requires |h| > 0 && forall k :: 0 <= k < |h| ==> InClass(h[k], digits)
    requires forall k :: 0 <= k < |rest| ==> |rest[k]| > 0 && AllInClass(rest[k], digits)
    ensures forall k :: 0 <= k < |[h] + rest| ==> |([h] + rest)[k]| > 0 && AllInClass(([h] + rest)[k], digits)
  {
    var runs := [h] + rest;
    forall k | 0 <= k < |runs| ensures |runs[k]| > 0 && AllInClass(runs[k], digits) {
      if k > 0 { assert runs[k] == rest[k - 1]; }
    }
  }

  /** The class's characters of a string whose first `n` are all of the class. */
  lemma FilterSplit(s: string, n: nat, digits: bool)
    requires n <= |s| && forall k :: 0 <= k < n ==> InClass(s[k], digits)
    ensures Filter(s, digits) == s[..n] + Filter(s[n..], digits)
  {
    assert s == s[..n] + s[n..];
    FilterAppend(s[..n], s[n..], digits);
    FilterWithin(s[..n], digits);
  }

  lemma ConcatCons(h: string, rest: seq<string>)
    ensures Concat([h] + rest) == h + Concat(rest)
  {
    assert ([h] + rest)[1..] == rest;
  }

  /** A string entirely of the class is one run (or none when empty). */
  lemma RunsWithin(s: string, digits: bool)
    requires forall k :: 0 <= k < |s| ==> InClass(s[k], digits)
    ensures Runs(s, digits) == if |s| == 0 then [] else [s]
  {
    if |s| > 0 {
      assert RunLength(s, digits) == |s|;
      assert s[..|s|] == s && s[|s|..] == "";
      assert Runs("", digits) == [];
    }
  }

  /** A string with no character of the class has no run. */
  lemma {:induction false} RunsOutside(s: string, digits: bool)
    requires forall k :: 0 <= k < |s| ==> !InClass(s[k], digits)
    ensures Runs(s, digits) == []
    decreases |s|
  {
    if |s| > 0 {
      RunsOutside(s[1..], digits);
    }
  }

  /** Runs never straddle a change of class: a string of the other class
      followed by one of this class has the runs of the second part. */
  lemma {:induction false} RunsSkip(a: string, b: string, digits: bool)
    requires forall k :: 0 <= k < |a| ==> !InClass(a[k], digits)
    ensures Runs(a + b, digits) == Runs(b, digits)
    decreases |a|
  {
    if |a| > 0 {
      assert (a + b)[1..] == a[1..] + b;
      RunsSkip(a[1..], b, digits);
    } else {
      assert a + b == b;
    }
  }

  /** A run of the class followed by a string starting outside it. */
  lemma RunsHead(a: string, b: string, digits: bool)
    requires |a| > 0 && forall k :: 0 <= k < |a| ==> InClass(a[k], digits)
    requires |b| > 0 ==> !InClass(b[0], digits)
    ensures Runs(a + b, digits) == [a] + Runs(b, digits)
  {
    var s := a + b;
    assert RunLength(s, digits) == |a| by {
      RunLengthPrefix(a, b, digits);
    }
    assert s[..|a|] == a && s[|a|..] == b;
  }

  lemma {:induction false} RunLengthPrefix(a: string, b: string, digits: bool)
    requires forall k :: 0 <= k < |a| ==> InClass(a[k], digits)
    requires |b| > 0 ==> !InClass(b[0], digits)
    ensures RunLength(a + b, digits) == |a|
    decreases |a|
  {
    if |a| > 0 {
      assert (a + b)[1..] == a[1..] + b;
      RunLengthPrefix(a[1..], b, digits);
    } else {
      assert a + b == b;
    }
  }

  // ---------------------------------------------------------------------------
  // Parsing a column

  /** One figure's number and modifier string, either possibly absent. */
  type ParsedFigure = (Option<nat>, Option<string>)

  /** A stripped figure read as its first run of digits (the number) and its
      first run of other characters, stripped (the modifier). A figure with more
      than one of each is refused. */
  function ReadFigure(f: string): (r: Result<ParsedFigure, NotationError>)
    ensures r.Failure? <==> |Runs(f, true)| > 1 && |Runs(f, false)| > 1
    ensures r.Failure? ==> r.error == InvalidNotation(f)
    ensures r.Success? ==> (r.value.0.None? <==> Filter(f, true) == "")
    ensures r.Success? ==> (r.value.1.None? <==> Filter(f, false) == "")
    ensures r.Success? && r.value.0.Some? ==>
              |Runs(f, true)| > 0 && r.value.0.value == Strings.DigitsValue(Runs(f, true)[0])
    ensures r.Success? && r.value.1.Some? ==>
              |Runs(f, false)| > 0 && r.value.1.value == Strings.Strip(Runs(f, false)[0])
  {
    var m1 := Runs(f, true);
    var m2 := Runs(f, false);
    if |m1| > 1 && |m2| > 1 then Failure(InvalidNotation(f))
    else
      Success((if |m1| == 0 then None else Some(Strings.DigitsValue(m1[0])),
               if |m2| == 0 then None else Some(Strings.Strip(m2[0]))))
  }

  /** `_parseNotationColumn` on one figure: the figure is stripped, then read. */
  function ParseFigure(figure: string): (r: Result<ParsedFigure, NotationError>)
    ensures r.Success? ==> (r.value.0.None? <==> Filter(figure, true) == "")
  {
    StripKeepsDigits(figure);
    ReadFigure(Strings.Strip(figure))
  }

  /** Stripping whitespace removes no digit. */
  lemma StripKeepsDigits(s: string)
    ensures Filter(Strings.Strip(s), true) == Filter(s, true)
  {
    var i := |s| - |Strings.LStrip(s)|;
    var r := Strings.Strip(s);
    Strings.StripInfix(s);
    var front := s[..i];
    var back := s[i + |r|..];
    assert s == front + r + back;
    assert Strings.AllSpace(front) && Strings.AllSpace(back);
    SpacesHaveNoDigits(front);
    SpacesHaveNoDigits(back);
    FilterAppend(front + r, back, true);
    FilterAppend(front, r, true);
  }

  lemma SpacesHaveNoDigits(s: string)
    requires Strings.AllSpace(s)
    ensures Filter(s, true) == ""
  {
    forall k | 0 <= k < |s| ensures !InClass(s[k], true) {
      assert Strings.IsSpace(s[k]);
    }
    FilterOutside(s, true);
  }

  /** The figure a number and a modifier are written as: the modifier, then the
      number (`#6`, `-`, `5`). */
  function FigureString(f: ParsedFigure): string {
    ModifierPart(f) + NumberPart(f)
  }

  /** The other order a figure can be written in: the number, then the
      modifier (`6#`, `2+`). */
  function NumberFirstString(f: ParsedFigure): string {
    NumberPart(f) + ModifierPart(f)
  }

  function ModifierPart(f: ParsedFigure): string {
    if f.1.None? then "" else f.1.value
  }

  function NumberPart(f: ParsedFigure): (n: string)
    ensures forall k :: 0 <= k < |n| ==> Strings.IsDigit(n[k])
    ensures f.0.Some? ==> |n| > 0
  {
    if f.0.None? then "" else Strings.NatToString(f.0.value)
  }

  /** A modifier that can be written before a number: non-empty, without digits
      or commas, and without whitespace at either end. */
  predicate WritableModifier(m: string) {
    |m| > 0 && !Strings.IsSpace(m[0]) && !Strings.IsSpace(m[|m| - 1])
    && forall k :: 0 <= k < |m| ==> !Strings.IsDigit(m[k]) && m[k] != ','
  }

  predicate WritableFigure(f: ParsedFigure) {
    f.1.Some? ==> WritableModifier(f.1.value)
  }

  lemma StripUnchanged(s: string)
    requires |s| > 0 ==> !Strings.IsSpace(s[0]) && !Strings.IsSpace(s[|s| - 1])
    ensures Strings.Strip(s) == s
  {
    if |s| > 0 {
      assert Strings.LStrip(s) == s;
      assert Strings.RStrip(s) == s;
    }
  }

  /** A written figure has no whitespace to strip. */
  lemma FigureStringStripped(f: ParsedFigure)
    requires WritableFigure(f)
    ensures Strings.Strip(FigureString(f)) == FigureString(f)
  {
    var m := ModifierPart(f);
    var n := NumberPart(f);
    var s := m + n;
    if |s| > 0 {
      if |m| > 0 { assert s[0] == m[0]; } else { assert s[0] == n[0]; }
      if |n| > 0 { assert s[|s| - 1] == n[|n| - 1]; } else { assert s[|s| - 1] == m[|m| - 1]; }
    }
    StripUnchanged(s);
  }

  /** The runs of a written figure: the number alone is its run of digits, the
      modifier alone its run of other characters. */
  lemma FigureStringRuns(f: ParsedFigure)
    requires WritableFigure(f)
    ensures Runs(FigureString(f), true) == if f.0.None? then [] else [NumberPart(f)]
    ensures Runs(FigureString(f), false) == if f.1.None? then [] else [ModifierPart(f)]
  {
    var m := ModifierPart(f);
    var n := NumberPart(f);
    RunsSkip(m, n, true);
    RunsWithin(n, true);
    RunsOutside(n, false);
    if |m| > 0 {
      RunsHead(m, n, false);
    } else {
      assert m + n == n;
    }
  }

  /** Reading back a written figure gives its number and modifier. */
  lemma ParseFigureString(f: ParsedFigure)
    requires WritableFigure(f)
    ensures ParseFigure(FigureString(f)) == Success(f)
  {
    FigureStringStripped(f);
    FigureStringRuns(f);
    ReadWrittenFigure(f, FigureString(f));
  }

  /** Reading back a figure written number first gives its number and modifier. */
  lemma ParseNumberFirstString(f: ParsedFigure)
    requires WritableFigure(f)
    ensures ParseFigure(NumberFirstString(f)) == Success(f)
  {
    NumberFirstStripped(f);
    NumberFirstRuns(f);
    ReadWrittenFigure(f, NumberFirstString(f));
  }

  lemma NumberFirstStripped(f: ParsedFigure)
    requires WritableFigure(f)
    ensures Strings.Strip(NumberFirstString(f)) == NumberFirstString(f)
  {
    var m := ModifierPart(f);
    var n := NumberPart(f);
    var s := n + m;
    if |s| > 0 {
      if |n| > 0 { assert s[0] == n[0]; } else { assert s[0] == m[0]; }
      if |m| > 0 { assert s[|s| - 1] == m[|m| - 1]; } else { assert s[|s| - 1] == n[|n| - 1]; }
    }
    StripUnchanged(s);
  }

  lemma NumberFirstRuns(f: ParsedFigure)
    requires WritableFigure(f)
    ensures Runs(NumberFirstString(f), true) == if f.0.None? then [] else [NumberPart(f)]
    ensures Runs(NumberFirstString(f), false) == if f.1.None? then [] else [ModifierPart(f)]
  {
    var m := ModifierPart(f);
    var n := NumberPart(f);
    RunsSkip(n, m, false);
    RunsWithin(m, false);
    RunsOutside(m, true);
    if |n| > 0 {
      RunsHead(n, m, true);
    } else {
      assert n + m == m;
    }
  }

  lemma ReadWrittenFigure(f: ParsedFigure, s: string)
    requires WritableFigure(f)
    requires Runs(s, true) == if f.0.None? then [] else [NumberPart(f)]
    requires Runs(s, false) == if f.1.None? then [] else [ModifierPart(f)]
    ensures ReadFigure(s) == Success(f)
  {
    if f.1.Some? {
      StripUnchanged(f.1.value);
    }
    if f.0.Some? {
      Strings.DigitsValueOfNatToString(f.0.value);
    }
  }

  lemma ParseFigureSharpSix(s: string)
    requires s == "#6"
    ensures ParseFigure(s) == Success((Some(6), Some("#")))
  {
    var f: ParsedFigure := (Some(6), Some("#"));
    assert NumberPart(f) == "6";
    assert FigureString(f) == "#6";
    ParseFigureString(f);
  }

  lemma ParseFigureFive(s: string)
    requires s == "5"
    ensures ParseFigure(s) == Success((Some(5), None))
  {
    ParseFigureString((Some(5), None));
    assert NumberPart((Some(5), None)) == "5";
  }

  lemma ParseFigureSixSharp(s: string)
    requires s == "6#"
    ensures ParseFigure(s) == Success((Some(6), Some("#")))
  {
    var f: ParsedFigure := (Some(6), Some("#"));
    assert NumberPart(f) == "6";
    assert NumberFirstString(f) == "6#";
    ParseNumberFirstString(f);
  }

  lemma ParseFigureTwoPlus(s: string)
    requires s == "2+"
    ensures ParseFigure(s) == Success((Some(2), Some("+")))
  {
    var f: ParsedFigure := (Some(2), Some("+"));
    assert NumberPart(f) == "2";
    assert NumberFirstString(f) == "2+";
    ParseNumberFirstString(f);
  }

  lemma ParseFigureFlat(s: string)
    requires s == "-"
    ensures ParseFigure(s) == Success((None, Some("-")))
  {
    var f: ParsedFigure := (None, Some(s));
    assert FigureString(f) == s;
    ParseFigureString(f);
  }

  /** "6#5#" has two numbers and two modifiers. */
  lemma ParseFigureRefuses(s: string)
    requires s == "6#5#"
    ensures ReadFigure(s).Failure?
  {
    RunsDigits('6', '#', '5', '#');
    RunsOthers('6', '#', '5', '#');
  }

  /** A digit, a sign, a digit, a sign: the digit runs are the two digits... */
  lemma RunsDigits(d1: char, m1: char, d2: char, m2: char)
    requires Strings.IsDigit(d1) && Strings.IsDigit(d2) && !Strings.IsDigit(m1) && !Strings.IsDigit(m2)
    ensures Runs([d1, m1, d2, m2], true) == [[d1], [d2]]
  {
    RunsOutside([m2], true);
    assert [d2, m2] == [d2] + [m2];
    RunsHead([d2], [m2], true);
    assert Runs([d2, m2], true) == [[d2]];
    assert [m1, d2, m2] == [m1] + [d2, m2];
    RunsSkip([m1], [d2, m2], true);
    assert Runs([m1, d2, m2], true) == [[d2]];
    assert [d1, m1, d2, m2] == [d1] + [m1, d2, m2];
    RunsHead([d1], [m1, d2, m2], true);
  }

  /** ...and the other runs are the two signs. */
  lemma RunsOthers(d1: char, m1: char, d2: char, m2: char)
    requires Strings.IsDigit(d1) && Strings.IsDigit(d2) && !Strings.IsDigit(m1) && !Strings.IsDigit(m2)
    ensures Runs([d1, m1, d2, m2], false) == [[m1], [m2]]
  {
    RunsWithin([m2], false);
    assert [d2, m2] == [d2] + [m2];
    RunsSkip([d2], [m2], false);
    assert Runs([d2, m2], false) == [[m2]];
    assert [m1, d2, m2] == [m1] + [d2, m2];
    RunsHead([m1], [d2, m2], false);
    assert Runs([m1, d2, m2], false) == [[m1], [m2]];
    assert [d1, m1, d2, m2] == [d1] + [m1, d2, m2];
    RunsSkip([d1], [m1, d2, m2], false);
  }

  /** The values of `rs` in order, or the first failure among them. */
  function Collect<T>(rs: seq<Result<T, NotationError>>): (r: Result<seq<T>, NotationError>)
    ensures r.Success? <==> forall k :: 0 <= k < |rs| ==> rs[k].Success?
    ensures r.Success? ==> |r.value| == |rs| && forall k :: 0 <= k < |rs| ==> r.value[k] == rs[k].value
    decreases |rs|
  {
    if |rs| == 0 then Success([])
    else
      var first :- rs[0];
      var rest :- Collect(rs[1..]);
      Success([first] + rest)
  }

  /** Each figure parsed, in order; the first refused figure refuses the column. */
  function ParseFigures(figures: seq<string>): (r: Result<seq<ParsedFigure>, NotationError>)
    ensures r.Success? <==> forall k :: 0 <= k < |figures| ==> ParseFigure(figures[k]).Success?
    ensures r.Success? ==> |r.value| == |figures|
    ensures r.Success? ==> forall k :: 0 <= k < |figures| ==> r.value[k] == ParseFigure(figures[k]).value
    decreases |figures|
  {
    if |figures| == 0 then Success([])
    else
      var first :- ParseFigure(figures[0]);
      var rest :- ParseFigures(figures[1..]);
      Success([first] + rest)
  }

  /** `_parseNotationColumn`: the column split at commas, each figure parsed. */
  function ParseNotationColumn(column: string): (r: Result<(seq<Option<nat>>, seq<Option<string>>), NotationError>)
    ensures r.Success? ==> |r.value.0| == |r.value.1| == |Strings.Split(column, ',')|
    ensures r.Success? <==> ParseFigures(Strings.Split(column, ',')).Success?
  {
    match ParseFigures(Strings.Split(column, ','))
    case Failure(e) => Failure(e)
    case Success(figures) =>
      Success((seq(|figures|, k requires 0 <= k < |figures| => figures[k].0),
               seq(|figures|, k requires 0 <= k < |figures| => figures[k].1)))
  }

  /** The figures, written and joined with commas, are read back. */
  lemma ParseNotationColumnOfFigures(figs: seq<ParsedFigure>)
    requires |figs| > 0 && forall k :: 0 <= k < |figs| ==> WritableFigure(figs[k])
    ensures var column := Strings.Join(",", seq(|figs|, k requires 0 <= k < |figs| => FigureString(figs[k])));
            ParseNotationColumn(column) ==
              Success((seq(|figs|, k requires 0 <= k < |figs| => figs[k].0),
                       seq(|figs|, k requires 0 <= k < |figs| => figs[k].1)))
  {
    var parts := seq(|figs|, k requires 0 <= k < |figs| => FigureString(figs[k]));
    forall k | 0 <= k < |parts| ensures ',' !in parts[k] {
      FigureStringHasNoComma(figs[k]);
    }
    Strings.SplitOfJoin(parts, ',');
    forall k | 0 <= k < |parts| ensures ParseFigure(parts[k]) == Success(figs[k]) {
      ParseFigureString(figs[k]);
    }
    var got := ParseFigures(parts);
    assert got.Success?;
    assert got.value == figs;
  }

  lemma FigureStringHasNoComma(f: ParsedFigure)
    requires WritableFigure(f)
    ensures ',' !in FigureString(f)
  {
    var m := if f.1.None? then "" else f.1.value;
    var n := if f.0.None? then "" else Strings.NatToString(f.0.value);
    assert FigureString(f) == m + n;
    assert forall k :: 0 <= k < |n| ==> Strings.IsDigit(n[k]);
    forall k | 0 <= k < |m + n| ensures (m + n)[k] != ',' {
      if k >= |m| { assert (m + n)[k] == n[k - |m|]; }
    }
  }

  // ---------------------------------------------------------------------------
  // Longhand

  /** `shorthandNotation`: the full figures of the common abbreviations. */
  function Shorthand(numbers: seq<Option<nat>>): Option<seq<nat>> {
    if numbers == [None] || numbers == [Some(5)] then Some([5, 3])
    else if numbers == [Some(6)] then Some([6, 3])
    else if numbers == [Some(7)] then Some([7, 5, 3])
    else if numbers == [Some(6), Some(5)] then Some([6, 5, 3])
    else if numbers == [Some(4), Some(3)] then Some([6, 4, 3])
    else if numbers == [Some(4), Some(2)] then Some([6, 4, 2])
    else None
  }

  /** The numbers with a missing number read as a third. */
  function WithThirds(numbers: seq<Option<nat>>): (r: seq<nat>)
    ensures |r| == |numbers|
    ensures forall k :: 0 <= k < |r| ==> r[k] == if numbers[k].None? then 3 else numbers[k].value
  {
    seq(|numbers|, k requires 0 <= k < |numbers| => if numbers[k].None? then 3 else numbers[k].value)
  }

  /** `tuple.index`: the first position of `x`. */
  function FirstIndex(s: seq<nat>, x: nat): (k: nat)
    requires x in s
    ensures k < |s| && s[k] == x && forall j :: 0 <= j < k ==> s[j] != x
  {
    if s[0] == x then 0 else 1 + FirstIndex(s[1..], x)
  }

  /** `_translateToLonghand`: a shorthand column becomes its full figures, each
      full figure taking the modifier of the first original figure with the
      same number (a missing number counting as a third); any other column
      keeps its modifiers and reads a missing number as a third. */
  function TranslateToLonghand(numbers: seq<Option<nat>>, modifiers: seq<Option<string>>): (r: (seq<nat>, seq<Option<string>>))
    requires |numbers| == |modifiers|
    ensures |r.0| == |r.1|
    ensures Shorthand(numbers).None? ==> r == (WithThirds(numbers), modifiers)
    ensures Shorthand(numbers).Some? ==> r.0 == Shorthand(numbers).value
    ensures Shorthand(numbers).Some? ==> forall k :: 0 <= k < |r.0| ==>
              r.1[k] == if r.0[k] in WithThirds(numbers) then modifiers[FirstIndex(WithThirds(numbers), r.0[k])] else None
  {
    match Shorthand(numbers)
    case None => (WithThirds(numbers), modifiers)
    case Some(full) =>
      var orig := WithThirds(numbers);
      (full, seq(|full|, k requires 0 <= k < |full| =>
                   if full[k] in orig then modifiers[FirstIndex(orig, full[k])] else None))
  }

  /** Expanding shorthand never loses a figure: every original number (a
      missing one as a third) is among the full figures, and carries its
      modifier there. */
  lemma LonghandKeepsFigures(numbers: seq<Option<nat>>, modifiers: seq<Option<string>>, p: nat)
    requires |numbers| == |modifiers| && p < |numbers|
    ensures var r := TranslateToLonghand(numbers, modifiers);
            var orig := WithThirds(numbers);
            exists k :: 0 <= k < |r.0| && r.0[k] == orig[p] && r.1[k] == modifiers[FirstIndex(orig, orig[p])]
  {
    var r := TranslateToLonghand(numbers, modifiers);
    var orig := WithThirds(numbers);
    assert orig[p] in orig;
    var first := FirstIndex(orig, orig[p]);
    if Shorthand(numbers).None? {
      assert r.0[first] == orig[p] && r.1[first] == modifiers[first];
    } else {
      ShorthandContainsOriginals(numbers, p);
      var k: nat :| k < |r.0| && r.0[k] == orig[p];
      assert r.1[k] == modifiers[first];
    }
  }

  /** Every number of a shorthand column is among its full figures. */
  lemma ShorthandContainsOriginals(numbers: seq<Option<nat>>, p: nat)
    requires p < |numbers| && Shorthand(numbers).Some?
    ensures WithThirds(numbers)[p] in Shorthand(numbers).value
  {
  }

  // ---------------------------------------------------------------------------
  // Modifiers

  /** `specialModifiers`: figured-bass signs standing for an accidental. */
  const SpecialModifiers: map<string, string> := map["+" := "#", "/" := "-", "\\" := "#"]

  /** `Modifier._toAccidental`: no accidental for no modifier; the accidental the
      modifier names; else the accidental its special sign stands for; else an
      error. */
  function ToAccidental(modifier: Option<string>): (r: Result<Option<Accidental>, NotationError>)
    ensures modifier.None? <==> r == Success(None)
    ensures r.Success? <==>
              modifier.None? || AccidentalFromString(modifier.value).Some? || modifier.value in SpecialModifiers
    ensures r.Success? && r.value.Some? ==> IsSupported(r.value.value.quarterTones)
    ensures modifier.Some? && AccidentalFromString(modifier.value).Some? ==>
              r == Success(AccidentalFromString(modifier.value))
  {
    if modifier.None? then Success(None)
    else
      var m := modifier.value;
      match AccidentalFromString(m)
      case Some(a) => Success(Some(a))
      case None =>
        if m in SpecialModifiers then
          var standIn := SpecialModifiers[m];
          assert standIn == "#" || standIn == "-";
          Success(AccidentalFromString(standIn))
        else Failure(ModifierUnsupported(m))
  }

  lemma ToAccidentalNamed()
    ensures ToAccidental(Some("#")) == Success(Some(Sharp))
    ensures ToAccidental(Some("-")) == Success(Some(Flat))
    ensures ToAccidental(Some("n")) == Success(Some(Natural))
  {
    AccidentalFromPlainString("#");
    AccidentalFromPlainString("-");
    AccidentalFromPlainString("n");
  }

  lemma ToAccidentalSpecial(plus: string, slash: string, backslash: string)
    requires plus == "+" && slash == "/" && backslash == "\\"
    ensures ToAccidental(Some(plus)) == Success(Some(Sharp))
    ensures ToAccidental(Some(slash)) == Success(Some(Flat))
    ensures ToAccidental(Some(backslash)) == Success(Some(Sharp))
  {
    SpecialModifierReads(plus);
    SpecialModifierReads(slash);
    SpecialModifierReads(backslash);
  }

  /** A special sign is not itself an accidental string, so it reads as the
      accidental it stands for. */
  lemma SpecialModifierReads(m: string)
    requires m in SpecialModifiers
    ensures ToAccidental(Some(m)) == Success(AccidentalFromString(SpecialModifiers[m]))
    ensures SpecialModifiers[m] == "#" ==> ToAccidental(Some(m)) == Success(Some(Sharp))
    ensures SpecialModifiers[m] == "-" ==> ToAccidental(Some(m)) == Success(Some(Flat))
  {
    SpecialModifierNotAccidental(m);
    AccidentalFromPlainString("#");
    AccidentalFromPlainString("-");
  }

  lemma SpecialModifierNotAccidental(m: string)
    requires m in SpecialModifiers
    ensures AccidentalFromString(m).None?
  {
    assert |m| == 1 && (m[0] == '+' || m[0] == '/' || m[0] == '\\');
    AccidentalFromPlainString(m);
    NoSingleSignAccidental(m);
  }

  /** Accidental names are read in any case: "Sharp" is a sharp and "N" a natural. */
  lemma ToAccidentalCapitalised(sharp: string, natural: string)
    requires sharp == "Sharp" && natural == "N"
    ensures ToAccidental(Some(sharp)) == Success(Some(Sharp))
    ensures ToAccidental(Some(natural)) == Success(Some(Natural))
  {
    assert Strings.Lower(sharp) == "sharp";
    assert Strings.Lower(natural) == "n";
  }

  lemma ToAccidentalRefuses()
    ensures ToAccidental(Some("x")) == Failure(ModifierUnsupported("x"))
  {
    AccidentalFromPlainString("x");
  }

  /** A modifier: its string and the accidental it stands for. */
  datatype Modifier = Modifier(modifierString: Option<string>, accidental: Option<Accidental>)

  function NewModifier(modifier: Option<string>): (r: Result<Modifier, NotationError>)
    ensures r.Success? <==> ToAccidental(modifier).Success?
    ensures r.Success? ==> r.value == Modifier(modifier, ToAccidental(modifier).value)
  {
    var a :- ToAccidental(modifier);
    Success(Modifier(modifier, a))
  }

  /** `modifyPitch`: a natural replaces the pitch's accidental; any other
      accidental is put on a pitch without one and otherwise added to the
      pitch's own, the sum having to be an accidental that exists. The pitch
      given is a value and is never changed. */
  function ModifyPitch(m: Modifier, p: Pitch): (r: Result<Pitch, NotationError>)
    ensures r.Success? ==> r.value.step == p.step
    ensures m.accidental.None? ==> r == Success(p)
    ensures m.accidental.Some? && (m.accidental.value.quarterTones == 0 || p.accidental.None?) ==>
              r == Success(Pitch(p.step, m.accidental))
    ensures m.accidental.Some? && m.accidental.value.quarterTones != 0 && p.accidental.Some? ==>
              var sum := p.accidental.value.quarterTones + m.accidental.value.quarterTones;
              (r.Success? <==> IsSupported(sum))
              && (r.Success? ==> r.value.accidental == Some(Accidental(sum)))
              && (r.Failure? ==> r.error == ResultUnsupported(sum))
  {
    match m.accidental
    case None => Success(p)
    case Some(a) =>
      if a.quarterTones == 0 then Success(Pitch(p.step, Some(a)))
      else if p.accidental.None? then Success(Pitch(p.step, Some(a)))
      else
        var sum := p.accidental.value.quarterTones + a.quarterTones;
        if IsSupported(sum) then Success(Pitch(p.step, Some(Accidental(sum))))
        else Failure(ResultUnsupported(sum))
  }

  /** Raising and then lowering by the same accidental gives back a pitch that
      already carried an accidental. */
  lemma ModifyPitchUndo(a: Accidental, p: Pitch)
    requires a.quarterTones != 0 && p.accidental.Some?
    requires IsSupported(p.accidental.value.quarterTones) && IsSupported(p.accidental.value.quarterTones + a.quarterTones)
    ensures ModifyPitch(Modifier(None, Some(a)), p).Success?
    ensures ModifyPitch(Modifier(None, Some(Accidental(-a.quarterTones))), ModifyPitch(Modifier(None, Some(a)), p).value) == Success(p)
  {
  }

  /** A modifier whose accidental, if any, is one a pitch can carry. */
  predicate SupportedModifier(m: Modifier) {
    m.accidental.Some? ==> IsSupported(m.accidental.value.quarterTones)
  }

  /** `modifyPitchName`: the name of the named pitch once modified. Read back,
      the name gives the modified pitch (a natural read as no accidental). */
  function ModifyPitchName(m: Modifier, name: string): (r: Result<string, NotationError>)
    ensures ParseName(name).None? ==> r == Failure(UnparsablePitch(name))
    ensures ParseName(name).Some? ==>
              (r.Success? <==> ModifyPitch(m, ParseName(name).value).Success?)
              && (r.Failure? ==> r == Failure(ModifyPitch(m, ParseName(name).value).error))
    ensures r.Success? && SupportedModifier(m) ==>
              ParseName(r.value) == Some(PlainForm(ModifyPitch(m, ParseName(name).value).value))
  {
    match ParseName(name)
    case None => Failure(UnparsablePitch(name))
    case Some(p) =>
      var altered :- ModifyPitch(m, p);
      ModifiedNameReadBack(m, p);
      Success(Name(altered))
  }

  /** A supported modifier applied to a pitch with a supported accidental leaves
      a supported accidental, so the new pitch's name reads back as that pitch. */
  lemma ModifiedNameReadBack(m: Modifier, p: Pitch)
    requires p.accidental.Some? ==> IsSupported(p.accidental.value.quarterTones)
    ensures ModifyPitch(m, p).Success? && SupportedModifier(m) ==>
              ParseName(Name(ModifyPitch(m, p).value)) == Some(PlainForm(ModifyPitch(m, p).value))
  {
    if ModifyPitch(m, p).Success? && SupportedModifier(m) {
      var q := PlainForm(ModifyPitch(m, p).value);
      assert q.accidental.Some? ==> IsSupported(q.accidental.value.quarterTones);
      ParseNameOfName(q);
    }
  }

  lemma ModifyPitchNameExamples()
    ensures ModifyPitchName(Modifier(Some("#"), Some(Sharp)), "D") == Success("D#")
    ensures ModifyPitchName(Modifier(Some("-"), Some(Flat)), "F") == Success("F-")
    ensures ModifyPitchName(Modifier(Some("n"), Some(Natural)), "C#") == Success("C")
  {
    assert ParseName("D") == Some(Pitch(D, None));
    assert ParseName("F") == Some(Pitch(F, None));
    AccidentalFromPlainString("#");
    assert ParseName("C#") == Some(Pitch(C, Some(Sharp)));
    assert Name(Pitch(D, Some(Sharp))) == "D#";
    assert Name(Pitch(F, Some(Flat))) == "F-";
    assert Name(Pitch(C, Some(Natural))) == "C";
  }

  // ---------------------------------------------------------------------------
  // Notation

  datatype Figure = Figure(number: nat, modifier: Modifier)

  /** A parsed notation column: the figures as written and in longhand, and the
      modifiers and figures built from the longhand. */
  datatype Notation = Notation(
    notationColumn: string,
    origNumbers: seq<Option<nat>>, origModStrings: seq<Option<string>>,
    numbers: seq<nat>, modifierStrings: seq<Option<string>>,
    modifiers: seq<Modifier>, figures: seq<Figure>)

  /** `_getModifiers`: one modifier per longhand figure. */
  function MakeModifiers(strs: seq<Option<string>>): (r: Result<seq<Modifier>, NotationError>)
    ensures r.Success? <==> forall k :: 0 <= k < |strs| ==> ToAccidental(strs[k]).Success?
    ensures r.Success? ==> |r.value| == |strs|
    ensures r.Success? ==> forall k :: 0 <= k < |strs| ==> r.value[k] == Modifier(strs[k], ToAccidental(strs[k]).value)
    decreases |strs|
  {
    if |strs| == 0 then Success([])
    else
      var first :- NewModifier(strs[0]);
      var rest :- MakeModifiers(strs[1..]);
      Success([first] + rest)
  }

  /** `Notation(column)`: parse, expand to longhand, and build the modifiers and
      the figures, which run parallel to the longhand numbers. The notation
      exists exactly when the column parses and every longhand modifier string
      stands for an accidental. */
  function NewNotation(column: string): (r: Result<Notation, NotationError>)
    ensures r.Success? ==> r.value.notationColumn == column
    ensures r.Success? ==> ParseNotationColumn(column) == Success((r.value.origNumbers, r.value.origModStrings))
    ensures r.Success? ==> WellBuilt(r.value)
    ensures r.Success? <==>
              ParseNotationColumn(column).Success?
              && var orig := ParseNotationColumn(column).value;
                 var longhand := TranslateToLonghand(orig.0, orig.1);
                 forall k :: 0 <= k < |longhand.1| ==> ToAccidental(longhand.1[k]).Success?
    ensures ParseNotationColumn(column).Failure? ==> r.Failure?
  {
    match ParseNotationColumn(column)
    case Failure(e) => Failure(e)
    case Success(orig) => BuildNotation(column, orig.0, orig.1)
  }

  /** A notation's parts agree: the longhand is that of the figures as written,
      each modifier is built from its longhand string and stands for that
      string's accidental, and each figure pairs a longhand number with its
      modifier. */
  predicate WellBuilt(n: Notation) {
    |n.origNumbers| == |n.origModStrings|
    && (n.numbers, n.modifierStrings) == TranslateToLonghand(n.origNumbers, n.origModStrings)
    && |n.numbers| == |n.modifierStrings| == |n.modifiers| == |n.figures|
    && forall k :: 0 <= k < |n.figures| ==>
         n.figures[k] == Figure(n.numbers[k], n.modifiers[k])
         && n.modifiers[k].modifierString == n.modifierStrings[k]
         && ToAccidental(n.modifierStrings[k]).Success?
         && n.modifiers[k].accidental == ToAccidental(n.modifierStrings[k]).value
  }

  /** The notation built from a parsed column's numbers and modifier strings. */
  function BuildNotation(column: string, numbers: seq<Option<nat>>, mods: seq<Option<string>>): (r: Result<Notation, NotationError>)
    requires |numbers| == |mods|
    ensures r.Success? ==> r.value.notationColumn == column
    ensures r.Success? ==> r.value.origNumbers == numbers && r.value.origModStrings == mods
    ensures r.Success? ==> WellBuilt(r.value)
    ensures var longhand := TranslateToLonghand(numbers, mods);
            r.Success? <==> forall k :: 0 <= k < |longhand.1| ==> ToAccidental(longhand.1[k]).Success?
  {
    var longhand := TranslateToLonghand(numbers, mods);
    var modifiers :- MakeModifiers(longhand.1);
    var figures := seq(|longhand.0|, k requires 0 <= k < |longhand.0| => Figure(longhand.0[k], modifiers[k]));
    Success(Notation(column, numbers, mods, longhand.0, longhand.1, modifiers, figures))
  }

  /** A column written from figures is parsed back to those figures, so its
      notation is built from their longhand. */
  lemma NotationOfFigures(figs: seq<ParsedFigure>, column: string, numbers: seq<Option<nat>>, mods: seq<Option<string>>)
    requires |figs| > 0 && forall k :: 0 <= k < |figs| ==> WritableFigure(figs[k])
    requires column == Strings.Join(",", seq(|figs|, k requires 0 <= k < |figs| => FigureString(figs[k])))
    requires numbers == seq(|figs|, k requires 0 <= k < |figs| => figs[k].0)
    requires mods == seq(|figs|, k requires 0 <= k < |figs| => figs[k].1)
    requires var longhand := TranslateToLonghand(numbers, mods);
             forall k :: 0 <= k < |longhand.1| ==> ToAccidental(longhand.1[k]).Success?
    ensures NewNotation(column).Success?
    ensures NewNotation(column).value.origNumbers == numbers
    ensures (NewNotation(column).value.numbers, NewNotation(column).value.modifierStrings) == TranslateToLonghand(numbers, mods)
  {
    ParseNotationColumnOfFigures(figs);
  }

  /** A bare modifier stands for a five-three chord, the modifier on the third. */
  lemma LonghandOfThird(mods: seq<Option<string>>)
    requires |mods| == 1
    ensures TranslateToLonghand([None], mods) == ([5, 3], [None, mods[0]])
  {
    var r := TranslateToLonghand([None], mods);
    assert Shorthand([None]) == Some([5, 3]);
    assert r.0 == [5, 3];
    assert WithThirds([None]) == [3];
    assert FirstIndex([3], 3) == 0;
    assert 5 !in [3];
    assert r.1[0] == None && r.1[1] == mods[0];
    assert r.1 == [None, mods[0]];
  }

  /** "6" with a modifier on the third ("-6,-") is a six-three chord. */
  lemma LonghandOfSixThree(six: Option<string>, third: Option<string>)
    ensures TranslateToLonghand([Some(6), None], [six, third]) == ([6, 3], [six, third])
  {
    assert Shorthand([Some(6), None]).None?;
    assert WithThirds([Some(6), None]) == [6, 3];
  }

  /** "6,5" gains its third, which carries no modifier. */
  lemma LonghandOfSixFive(six: Option<string>, five: Option<string>)
    ensures TranslateToLonghand([Some(6), Some(5)], [six, five]) == ([6, 5, 3], [six, five, None])
  {
    assert Shorthand([Some(6), Some(5)]) == Some([6, 5, 3]);
    assert WithThirds([Some(6), Some(5)]) == [6, 5];
    assert FirstIndex([6, 5], 6) == 0;
    assert FirstIndex([6, 5], 5) == 1;
    assert 3 !in [6, 5];
    var r := TranslateToLonghand([Some(6), Some(5)], [six, five]);
    assert r.1[0] == six && r.1[1] == five && r.1[2] == None;
    assert r.1 == [six, five, None];
  }

  lemma NotationEmpty(column: string)
    requires column == ""
    ensures NewNotation(column).Success?
    ensures NewNotation(column).value.numbers == [5, 3] && NewNotation(column).value.modifierStrings == [None, None]
  {
    var figs: seq<ParsedFigure> := [(None, None)];
    assert FigureString(figs[0]) == "";
    assert seq(|figs|, k requires 0 <= k < |figs| => FigureString(figs[k])) == [""];
    assert seq(|figs|, k requires 0 <= k < |figs| => figs[k].0) == [None];
    assert seq(|figs|, k requires 0 <= k < |figs| => figs[k].1) == [None];
    LonghandOfThird([None]);
    NotationOfFigures(figs, column, [None], [None]);
  }

  lemma NotationSharp(column: string)
    requires column == "#"
    ensures NewNotation(column).Success?
    ensures NewNotation(column).value.numbers == [5, 3] && NewNotation(column).value.modifierStrings == [None, Some("#")]
  {
    var figs: seq<ParsedFigure> := [(None, Some("#"))];
    assert FigureString(figs[0]) == "#";
    assert seq(|figs|, k requires 0 <= k < |figs| => FigureString(figs[k])) == ["#"];
    assert seq(|figs|, k requires 0 <= k < |figs| => figs[k].0) == [None];
    assert seq(|figs|, k requires 0 <= k < |figs| => figs[k].1) == [Some("#")];
    LonghandOfThird([Some("#")]);
    ToAccidentalNamed();
    NotationOfFigures(figs, column, [None], [Some("#")]);
  }

  lemma NotationFlatSix(column: string)
    requires column == "-6,-"
    ensures NewNotation(column).Success?
    ensures NewNotation(column).value.numbers == [6, 3]
    ensures NewNotation(column).value.modifierStrings == [Some("-"), Some("-")]
  {
    var figs: seq<ParsedFigure> := [(Some(6), Some("-")), (None, Some("-"))];
    assert NumberPart(figs[0]) == "6";
    assert FigureString(figs[0]) == "-6" && FigureString(figs[1]) == "-";
    assert seq(|figs|, k requires 0 <= k < |figs| => FigureString(figs[k])) == ["-6", "-"];
    assert Strings.Join(",", ["-6", "-"]) == "-6,-";
    assert seq(|figs|, k requires 0 <= k < |figs| => figs[k].0) == [Some(6), None];
    assert seq(|figs|, k requires 0 <= k < |figs| => figs[k].1) == [Some("-"), Some("-")];
    LonghandOfSixThree(Some("-"), Some("-"));
    ToAccidentalNamed();
    NotationOfFigures(figs, column, [Some(6), None], [Some("-"), Some("-")]);
  }

  lemma NotationSharpSixFive(column: string)
    requires column == "#6,5"
    ensures NewNotation(column).Success?
    ensures NewNotation(column).value.origNumbers == [Some(6), Some(5)]
    ensures NewNotation(column).value.numbers == [6, 5, 3]
    ensures NewNotation(column).value.modifierStrings == [Some("#"), None, None]
  {
    var figs: seq<ParsedFigure> := [(Some(6), Some("#")), (Some(5), None)];
    assert NumberPart(figs[0]) == "6" && NumberPart(figs[1]) == "5";
    assert FigureString(figs[0]) == "#6" && FigureString(figs[1]) == "5";
    assert seq(|figs|, k requires 0 <= k < |figs| => FigureString(figs[k])) == ["#6", "5"];
    assert Strings.Join(",", ["#6", "5"]) == "#6,5";
    assert seq(|figs|, k requires 0 <= k < |figs| => figs[k].0) == [Some(6), Some(5)];
    assert seq(|figs|, k requires 0 <= k < |figs| => figs[k].1) == [Some("#"), None];
    LonghandOfSixFive(Some("#"), None);
    ToAccidentalNamed();
    NotationOfFigures(figs, column, [Some(6), Some(5)], [Some("#"), None]);
  }
}

=== FILE: pitches.dfy ===
/** Spelled pitches without octave, as the key and figured-bass code use them.
    A pitch is a diatonic step plus an optional accidental; an accidental is
    counted in quarter tones, so the twelve-tone accidentals are the even
    counts. Twelve-tone pitches sit on the line of fifths
    (..., B-, F, C, G, D, ...), numbered with C = 0. */
module Pitches {
  import opened Wrappers
  import Strings

  datatype Step = C | D | E | F | G | A | B

  /** The diatonic steps in circle-of-fifths order, F first. */
  const FifthsOrder: seq<Step> := [F, C, G, D, A, E, B]

  function FifthsIndex(s: Step): (i: nat)
    ensures i < 7 && FifthsOrder[i] == s
  {
    match s
    case F => 0
    case C => 1
    case G => 2
    case D => 3
    case A => 4
    case E => 5
    case B => 6
  }

  /** The upper-case letter of a step. */
  function StepName(s: Step): string {
    match s
    case C => "C"
    case D => "D"
    case E => "E"
    case F => "F"
    case G => "G"
    case A => "A"
    case B => "B"
  }

  /** The step named by a letter, in either case. */
  function StepFromChar(c: char): (r: Option<Step>)
    ensures r.Some? ==> StepName(r.value) == [Strings.UpperChar(c)]
  {
    match Strings.UpperChar(c)
    case 'C' => Some(C)
    case 'D' => Some(D)
    case 'E' => Some(E)
    case 'F' => Some(F)
    case 'G' => Some(G)
    case 'A' => Some(A)
    case 'B' => Some(B)
    case _ => None
  }

  /** An accidental; its alteration is `quarterTones / 2` semitones. */
  datatype Accidental = Accidental(quarterTones: int) {
    predicate IsTwelveTone() {
      quarterTones % 2 == 0
    }

    /** The alteration in semitones, for a twelve-tone accidental. */
    function Alter(): int
      requires IsTwelveTone()
    {
      quarterTones / 2
    }
  }

  const Natural := Accidental(0)
  const Sharp := Accidental(2)
  const Flat := Accidental(-2)
  const DoubleSharp := Accidental(4)
  const DoubleFlat := Accidental(-4)

  /** The alterations an accidental can be set to: natural, up to quadruple
      sharps and flats, and the half and one-and-a-half quarter-tone steps. */
  predicate IsSupported(q: int) {
    q in {-8, -6, -4, -3, -2, -1, 0, 1, 2, 3, 4, 6, 8}
  }

  /** The accidental as written in a pitch name: `#`/`-` per semitone, `~`/`` ` ``
      for a trailing quarter tone; a natural is written as nothing. */
  function Symbol(a: Accidental): string {
    var q := a.quarterTones;
    if q >= 0 then
      Strings.Repeat('#', q / 2) + (if q % 2 == 1 then "~" else "")
    else
      Strings.Repeat('-', (-q) / 2) + (if (-q) % 2 == 1 then "`" else "")
  }

  /** The strings an accidental can be set from: its symbol (`n` for natural) or
      its English name, in any case ("Sharp" and "N" are accepted). */
  function AccidentalFromString(s: string): (r: Option<Accidental>)
    ensures r.Some? ==> IsSupported(r.value.quarterTones)
    ensures r == AccidentalFromLower(Strings.Lower(s))
  {
    AccidentalFromLower(Strings.Lower(s))
  }

  /** The accidental table, keyed by lower-case strings. */
  function AccidentalFromLower(s: string): (r: Option<Accidental>)
    ensures r.Some? ==> IsSupported(r.value.quarterTones)
  {
    if s == "n" || s == "natural" then Some(Natural)
    else if s == "#" || s == "sharp" then Some(Sharp)
    else if s == "-" || s == "flat" then Some(Flat)
    else if s == "##" || s == "double-sharp" then Some(DoubleSharp)
    else if s == "--" || s == "double-flat" then Some(DoubleFlat)
    else if s == "###" || s == "triple-sharp" then Some(Accidental(6))
    else if s == "---" || s == "triple-flat" then Some(Accidental(-6))
    else if s == "####" || s == "quadruple-sharp" then Some(Accidental(8))
    else if s == "----" || s == "quadruple-flat" then Some(Accidental(-8))
    else if s == "~" || s == "half-sharp" then Some(Accidental(1))
    else if s == "`" || s == "half-flat" then Some(Accidental(-1))
    else if s == "#~" || s == "one-and-a-half-sharp" then Some(Accidental(3))
    else if s == "-`" || s == "one-and-a-half-flat" then Some(Accidental(-3))
    else None
  }

  /** Every supported accidental other than the natural is read back from its
      own symbol. */
  lemma AccidentalFromSymbol(a: Accidental)
    requires IsSupported(a.quarterTones) && a.quarterTones != 0
    ensures AccidentalFromString(Symbol(a)) == Some(a)
  {
    SymbolSigns(a);
    AccidentalFromPlainString(Symbol(a));
    AccidentalFromOwnSymbol(a);
  }

  /** The only one-character accidental strings are the symbols and `n`. */
  lemma NoSingleSignAccidental(s: string)
    requires |s| == 1 && s[0] !in {'n', '#', '-', '~', '`'}
    ensures AccidentalFromLower(s).None?
  {
    assert s != "n" && s != "#" && s != "-" && s != "~" && s != "`" by {
      assert "n"[0] == 'n' && "#"[0] == '#' && "-"[0] == '-' && "~"[0] == '~' && "`"[0] == '`';
    }
  }

  /** A string with no capital letter is looked up in the table as it is. */
  lemma AccidentalFromPlainString(s: string)
    requires forall k :: 0 <= k < |s| ==> !Strings.IsUpperChar(s[k])
    ensures AccidentalFromString(s) == AccidentalFromLower(s)
  {
    Strings.LowerUnchanged(s);
  }

  lemma AccidentalFromOwnSymbol(a: Accidental)
    requires IsSupported(a.quarterTones) && a.quarterTones != 0
    ensures AccidentalFromLower(Symbol(a)) == Some(a)
  {
    var q := a.quarterTones;
    if q == 2 { assert Symbol(a) == "#"; }
    else if q == 4 { assert Symbol(a) == "##"; }
    else if q == 6 { assert Symbol(a) == "###"; }
    else if q == 8 { assert Symbol(a) == "####"; }
    else if q == -2 { assert Symbol(a) == "-"; }
    else if q == -4 { assert Symbol(a) == "--"; }
    else if q == -6 { assert Symbol(a) == "---"; }
    else if q == -8 { assert Symbol(a) == "----"; }
    else if q == 1 { assert Symbol(a) == "~"; }
    else if q == -1 { assert Symbol(a) == "`"; }
    else if q == 3 { assert Symbol(a) == "#~"; }
    else { assert q == -3; assert Symbol(a) == "-`"; }
  }

  datatype Pitch = Pitch(step: Step, accidental: Option<Accidental>)

  predicate IsTwelveTone(p: Pitch) {
    p.accidental.None? || p.accidental.value.IsTwelveTone()
  }

  /** A pitch in the form the transposition code produces: a natural is written
      as no accidental at all. */
  predicate IsPlain(p: Pitch) {
    p.accidental.None? || p.accidental.value.quarterTones != 0
  }

  /** The alteration of a twelve-tone pitch, in semitones. */
  function Alter(p: Pitch): int
    requires IsTwelveTone(p)
  {
    if p.accidental.None? then 0 else p.accidental.value.Alter()
  }

  /** The pitch's number on the line of fifths: the step's index in `FifthsOrder`
      minus one, plus seven per semitone of alteration. */
  function LineOfFifths(p: Pitch): int
    requires IsTwelveTone(p)
  {
    FifthsIndex(p.step) - 1 + 7 * Alter(p)
  }

  /** The plain pitch at position `n` on the line of fifths. */
  function FromLineOfFifths(n: int): (p: Pitch)
    ensures IsTwelveTone(p) && IsPlain(p)
    ensures LineOfFifths(p) == n
  {
    var k := n + 1;
    var alter := k / 7;
    Pitch(FifthsOrder[k % 7], if alter == 0 then None else Some(Accidental(2 * alter)))
  }

  /** Each plain twelve-tone pitch is the one at its own line-of-fifths position. */
  lemma FromLineOfFifthsOfLine(p: Pitch)
    requires IsTwelveTone(p) && IsPlain(p)
    ensures FromLineOfFifths(LineOfFifths(p)) == p
  {
    var q := FromLineOfFifths(LineOfFifths(p));
    var k := LineOfFifths(p) + 1;
    assert k == FifthsIndex(p.step) + 7 * Alter(p);
    assert k / 7 == Alter(p) && k % 7 == FifthsIndex(p.step);
  }

  /** An interval, abstracted to its displacement on the line of fifths
      (a perfect fifth up is +1, a perfect fourth up is -1, a minor second up
      is -5). Octave displacement does not matter for octave-less pitches. */
  datatype Interval = Interval(fifths: int)

  const PerfectFifth := Interval(1)
  const PerfectFourth := Interval(-1)

  /** `Interval.transposePitch` on an octave-less twelve-tone pitch. */
  function Transpose(p: Pitch, iv: Interval): (r: Pitch)
    requires IsTwelveTone(p)
    ensures IsTwelveTone(r) && IsPlain(r)
    ensures LineOfFifths(r) == LineOfFifths(p) + iv.fifths
  {
    FromLineOfFifths(LineOfFifths(p) + iv.fifths)
  }

  /** The pitch name: the upper-case step letter followed by the accidental's
      symbol (`F#`, `B--`, `C`). */
  function Name(p: Pitch): string {
    StepName(p.step) + if p.accidental.None? then "" else Symbol(p.accidental.value)
  }

  /** A pitch name is an upper-case step letter followed by accidental signs:
      it has no lower-case letter, no space and no `M`. */
  lemma NameChars(p: Pitch)
    ensures |Name(p)| >= 1 && Strings.IsUpperChar(Name(p)[0])
    ensures Strings.NoLowerChars(Name(p)) && ' ' !in Name(p) && 'M' !in Name(p)
  {
    var step := StepName(p.step);
    assert |step| == 1 && Strings.IsUpperChar(step[0]) by {
      match p.step
      case C => case D => case E => case F => case G => case A => case B =>
    }
    var sym := if p.accidental.None? then "" else Symbol(p.accidental.value);
    if p.accidental.Some? {
      SymbolSigns(p.accidental.value);
    }
    var n := Name(p);
    assert n == step + sym;
    forall k | 0 <= k < |n| ensures !Strings.IsLowerChar(n[k]) && n[k] != ' ' && n[k] != 'M' {
      if k > 0 {
        assert n[k] == sym[k - 1];
      }
    }
  }

  predicate IsSign(c: char) {
    c == '#' || c == '-' || c == '~' || c == '`'
  }

  lemma SymbolSigns(a: Accidental)
    ensures forall k :: 0 <= k < |Symbol(a)| ==> IsSign(Symbol(a)[k])
  {
  }

  /** The plain pitch with the same name: a natural becomes no accidental. */
  function PlainForm(p: Pitch): (q: Pitch)
    ensures IsPlain(q) && q.step == p.step && Name(q) == Name(p)
    ensures IsPlain(p) ==> q == p
  {
    if p.accidental.Some? && p.accidental.value.quarterTones == 0 then Pitch(p.step, None) else p
  }

  /** `pitch.Pitch(name)` for an octave-less name: a step letter in either case
      followed by nothing or by a supported accidental string. */
  function ParseName(s: string): (r: Option<Pitch>)
    ensures r.Some? ==> |s| >= 1 && StepName(r.value.step) == [Strings.UpperChar(s[0])]
    ensures r.Some? && r.value.accidental.Some? ==> IsSupported(r.value.accidental.value.quarterTones)
  {
    if |s| == 0 then None
    else
      match StepFromChar(s[0])
      case None => None
      case Some(step) =>
        if |s| == 1 then Some(Pitch(step, None))
        else
          match AccidentalFromString(s[1..])
          case None => None
          case Some(a) => Some(Pitch(step, Some(a)))
  }

  /** Reading back a plain pitch's name gives the pitch again. */
  lemma ParseNameOfName(p: Pitch)
    requires IsPlain(p)
    requires p.accidental.Some? ==> IsSupported(p.accidental.value.quarterTones)
    ensures ParseName(Name(p)) == Some(p)
  {
    var n := Name(p);
    assert n[0] == StepName(p.step)[0];
    assert StepFromChar(n[0]) == Some(p.step) by {
      match p.step
      case C => case D => case E => case F => case G => case A => case B =>
    }
    if p.accidental.Some? {
      AccidentalFromSymbol(p.accidental.value);
      assert n[1..] == Symbol(p.accidental.value);
    }
  }
}

=== FILE: repetition_game.dfy ===
/** The repetition game: two players take turns repeating every note played so
    far and adding one new note. One call of `game` judges one turn from the list
    of notes the pitch detector heard; the microphone and the detector are not
    modelled, so that list is an input. */
module RepetitionGame {

  /** A heard note: its name without octave ("C#", "rest" for silence) and its
      octave. Notes are compared by name only. */
  datatype Heard = Heard(name: string, octave: int)

  predicate IsRest(n: Heard) {
    n.name == "rest"
  }

  /** The game state: the round counter, whether nobody has failed yet, and the
      notes to be repeated. */
  datatype Game = Game(round: int, good: bool, gameNotes: seq<Heard>)

  /** The state the constructor sets up. */
  const Start := Game(0, true, [])

  // ---------------------------------------------------------------------------
  // Reference meaning of one turn

  /** The notes of a turn with the rests left out, in the order they were heard. */
  function NonRests(s: seq<Heard>): (r: seq<Heard>)
    ensures |r| <= |s|
    ensures forall k :: 0 <= k < |r| ==> !IsRest(r[k])
    decreases |s|
  {
    if |s| == 0 then []
    else NonRests(s[..|s| - 1]) + if IsRest(s[|s| - 1]) then [] else [s[|s| - 1]]
  }

  /** Leaving rests out works piecewise. */
  lemma {:induction false} NonRestsAppend(a: seq<Heard>, b: seq<Heard>)
    ensures NonRests(a + b) == NonRests(a) + NonRests(b)
    decreases |b|
  {
    if |b| == 0 {
      assert a + b == a;
    } else {
      var ab := a + b;
      assert ab[..|ab| - 1] == a + b[..|b| - 1];
      assert ab[|ab| - 1] == b[|b| - 1];
      NonRestsAppend(a, b[..|b| - 1]);
    }
  }

  /** A turn repeats the remembered notes when its first non-rest notes carry
      their names, in order. */
  predicate Repeats(heard: seq<Heard>, gameNotes: seq<Heard>) {
    |heard| >= |gameNotes| && forall j :: 0 <= j < |gameNotes| ==> heard[j].name == gameNotes[j].name
  }

  /** One turn. The round counter goes up; a player who did not repeat the notes,
      or who plays after somebody has already failed, loses; otherwise the first
      note after the repeated ones joins the game, and if there is none the round
      counts again. */
  function Turn(g: Game, notes: seq<Heard>): Game {
    var heard := NonRests(notes);
    if !(g.good && Repeats(heard, g.gameNotes)) then
      Game(g.round + 1, false, g.gameNotes)
    else if |heard| > |g.gameNotes| then
      Game(g.round + 1, true, g.gameNotes + [heard[|g.gameNotes|]])
    else
      Game(g.round, true, g.gameNotes)
  }

  // ---------------------------------------------------------------------------
  // The loop as written

  /** `repetitionGame.game` after the microphone: match the remembered notes, then
      remember the next note heard, or count the round again when there is none.
      Returns the new state and `good`. */
  method Play(g: Game, notesList: seq<Heard>) returns (next: Game, good: bool)
    ensures next == Turn(g, notesList)
    ensures good == next.good
  {
    var round := g.round + 1;
    var gameNotes := g.gameNotes;
    var i;
    i, good := MatchRepeated(notesList, gameNotes, g.good);
    if good {
      var k := SkipRests(notesList, i);
      RestsAddNothing(notesList, i, k);
      NonRestsSplit(notesList, k);
      if k < |notesList| {
        NonRestsStep(notesList, k);
        NonRestsSplit(notesList, k + 1);
        gameNotes := gameNotes + [notesList[k]];
      } else {
        assert notesList[..k] == notesList;
        round := round - 1;
      }
    }
    next := Game(round, good, gameNotes);
  }

  /** The first loop of `game` and the check after it: walk the heard notes,
      skipping rests and matching names against the remembered notes until one
      differs, the notes run out or the remembered ones do; fail when the notes
      ran out first. On success `i` is just past the last matched note. */
  method MatchRepeated(notesList: seq<Heard>, gameNotes: seq<Heard>, good0: bool)
    returns (i: nat, good: bool)
    ensures i <= |notesList|
    ensures good <==> good0 && Repeats(NonRests(notesList), gameNotes)
    ensures good ==> |NonRests(notesList[..i])| == |gameNotes|
  {
    good := good0;
    i := 0;
    var j := 0;
    while i < |notesList| && j < |gameNotes| && good
      invariant 0 <= i <= |notesList| && 0 <= j <= |gameNotes|
      invariant |NonRests(notesList[..i])| == j
      invariant forall k :: 0 <= k < j ==> NonRests(notesList[..i])[k].name == gameNotes[k].name
      invariant good ==> good0
      invariant good0 && !good ==>
                  i < |notesList| && j < |gameNotes| && !IsRest(notesList[i]) &&
                  notesList[i].name != gameNotes[j].name
      decreases |notesList| - i, if good then 1 else 0
    {
      NonRestsStep(notesList, i);
      if notesList[i].name == "rest" {
        i := i + 1;
      } else if notesList[i].name == gameNotes[j].name {
        i := i + 1;
        j := j + 1;
      } else {
        good := false;
      }
    }
    NonRestsSplit(notesList, i);
    if good0 && !good {
      NonRestsStep(notesList, i);
      NonRestsSplit(notesList, i + 1);
      assert NonRests(notesList)[j] == notesList[i];
    }
    if good && j != |gameNotes| {
      assert notesList[..i] == notesList;
      good := false;
    }
  }

  /** The second loop of `game`: skip the rests that follow position `i`. */
  method SkipRests(notesList: seq<Heard>, i: nat) returns (k: nat)
    requires i <= |notesList|
    ensures i <= k <= |notesList|
    ensures forall m :: i <= m < k ==> IsRest(notesList[m])
    ensures k < |notesList| ==> !IsRest(notesList[k])
  {
    k := i;
    while k < |notesList| && notesList[k].name == "rest"
      invariant i <= k <= |notesList|
      invariant forall m :: i <= m < k ==> IsRest(notesList[m])
    {
      k := k + 1;
    }
  }

  /** Rests between `i` and `k` add nothing to the non-rests. */
  lemma {:induction false} RestsAddNothing(s: seq<Heard>, i: nat, k: nat)
    requires i <= k <= |s|
    requires forall m :: i <= m < k ==> IsRest(s[m])
    ensures NonRests(s[..k]) == NonRests(s[..i])
    decreases k - i
  {
    if k > i {
      RestsAddNothing(s, i, k - 1);
      NonRestsStep(s, k - 1);
    }
  }

  /** Taking one more note of the turn adds it to the non-rests unless it is a rest. */
  lemma NonRestsStep(s: seq<Heard>, i: nat)
    requires i < |s|
    ensures NonRests(s[..i + 1]) == NonRests(s[..i]) + if IsRest(s[i]) then [] else [s[i]]
  {
    assert s[..i + 1][..i] == s[..i];
  }

  /** The non-rests of a prefix start the non-rests of the whole turn. */
  lemma NonRestsSplit(s: seq<Heard>, i: nat)
    requires i <= |s|
    ensures NonRests(s) == NonRests(s[..i]) + NonRests(s[i..])
  {
    assert s == s[..i] + s[i..];
    NonRestsAppend(s[..i], s[i..]);
  }

  // ---------------------------------------------------------------------------
  // What a turn keeps

  /** Once somebody has failed the game stays lost, and nothing more is
      remembered. */
  lemma LostStaysLost(g: Game, notes: seq<Heard>)
    requires !g.good
    ensures Turn(g, notes).good == false
    ensures Turn(g, notes).gameNotes == g.gameNotes
    ensures Turn(g, notes).round == g.round + 1
  {
  }

  /** A turn either adds exactly one note, the first one heard after the repeated
      ones, and counts a round, or it remembers nothing new; the remembered notes
      are never rewritten. */
  lemma TurnGrowsByAtMostOne(g: Game, notes: seq<Heard>)
    ensures var t := Turn(g, notes);
            (t.good && |NonRests(notes)| > |g.gameNotes| &&
             t.gameNotes == g.gameNotes + [NonRests(notes)[|g.gameNotes|]] &&
             t.round == g.round + 1) ||
            (t.gameNotes == g.gameNotes && (t.good ==> t.round == g.round))
    ensures var t := Turn(g, notes);
            t.good <==> g.good && Repeats(NonRests(notes), g.gameNotes)
  {
  }

  /** While the game is on, the round counter equals the number of remembered
      notes; it never falls below it. */
  predicate Consistent(g: Game) {
    g.round >= |g.gameNotes| && (g.good ==> g.round == |g.gameNotes|)
  }

  lemma TurnKeepsConsistent(g: Game, notes: seq<Heard>)
    requires Consistent(g)
    ensures Consistent(Turn(g, notes))
  {
  }

  /** The state after a sequence of turns. */
  function Session(g: Game, turns: seq<seq<Heard>>): (r: Game)
    decreases |turns|
  {
    if |turns| == 0 then g else Session(Turn(g, turns[0]), turns[1..])
  }

  /** Every state a game reaches from its start is consistent, and the notes it
      remembers only ever grow at the end. */
  lemma {:induction false} SessionKeepsConsistent(g: Game, turns: seq<seq<Heard>>)
    requires Consistent(g)
    ensures Consistent(Session(g, turns))
    ensures g.gameNotes <= Session(g, turns).gameNotes
    decreases |turns|
  {
    if |turns| > 0 {
      TurnKeepsConsistent(g, turns[0]);
      TurnGrowsByAtMostOne(g, turns[0]);
      SessionKeepsConsistent(Turn(g, turns[0]), turns[1..]);
    }
  }

  /** A turn that repeats C (octave ignored) around rests and adds D wins a round;
      a turn that starts with D instead loses. */
  lemma TurnExamples(g: Game, good: seq<Heard>, bad: seq<Heard>)
    requires g == Game(1, true, [Heard("C", 4)])
    requires good == [Heard("rest", 0), Heard("C", 5), Heard("rest", 0), Heard("D", 4)]
    requires bad == [Heard("D", 4), Heard("C", 4)]
    ensures Turn(g, good) == Game(2, true, [Heard("C", 4), Heard("D", 4)])
    ensures Turn(g, bad) == Game(2, false, [Heard("C", 4)])
  {
    assert good[..0] == [] && bad[..0] == [];
    NonRestsStep(good, 0);
    NonRestsStep(good, 1);
    NonRestsStep(good, 2);
    NonRestsStep(good, 3);
    assert good[..4] == good;
    NonRestsStep(bad, 0);
    NonRestsStep(bad, 1);
    assert bad[..2] == bad;
  }
}

=== FILE: strings.dfy ===
/** The handful of Python string operations the modelled code relies on:
    `str(int)`, `int(digits)`, `lower`/`upper` (ASCII letters only), `strip`,
    `split` on one character, `join`, `in` on substrings and `replace`. */
module Strings {

  // ---------------------------------------------------------------------------
  // Digits and integer rendering

  predicate IsDigit(c: char) {
    '0' <= c <= '9'
  }

  predicate AllDigits(s: string) {
    forall k :: 0 <= k < |s| ==> IsDigit(s[k])
  }

  function DigitChar(d: nat): (c: char)
    requires d < 10
    ensures IsDigit(c) && c as int - '0' as int == d
  {
    (d + '0' as int) as char
  }

  function DigitValue(c: char): (d: nat)
    requires IsDigit(c)
    ensures d < 10 && DigitChar(d) == c
  {
    c as int - '0' as int
  }

  /** Python's `str(n)` for a non-negative integer: decimal, no leading zeros. */
  function NatToString(n: nat): (r: string)
    ensures 1 <= |r| && AllDigits(r)
    ensures |r| > 1 ==> r[0] != '0'
    decreases n
  {
    if n < 10 then [DigitChar(n)] else NatToString(n / 10) + [DigitChar(n % 10)]
  }

  /** Python's `str(i)` for any integer. */
  function IntToString(i: int): (r: string)
    ensures 1 <= |r|
    ensures (i < 0) <==> r[0] == '-'
  {
    if i < 0 then "-" + NatToString(-i) else NatToString(i)
  }

  /** Python's `int(s)` for a string of decimal digits (leading zeros allowed). */
  function DigitsValue(s: string): nat
    requires AllDigits(s)
    decreases |s|
  {
    if |s| == 0 then 0 else DigitsValue(s[..|s| - 1]) * 10 + DigitValue(s[|s| - 1])
  }

  /** `int(str(n)) == n`: rendering a natural number loses nothing. */
  lemma {:induction false} DigitsValueOfNatToString(n: nat)
    ensures DigitsValue(NatToString(n)) == n
    decreases n
  {
    if n >= 10 {
      var s := NatToString(n);
      assert s[..|s| - 1] == NatToString(n / 10);
      DigitsValueOfNatToString(n / 10);
    }
  }

  /** Distinct numbers print differently. */
  lemma NatToStringInjective(a: nat, b: nat)
    requires NatToString(a) == NatToString(b)
    ensures a == b
  {
    DigitsValueOfNatToString(a);
    DigitsValueOfNatToString(b);
  }

  // ---------------------------------------------------------------------------
  // Case mapping (ASCII letters; every other character is left alone)

  function LowerChar(c: char): char {
    if 'A' <= c <= 'Z' then (c as int + 32) as char else c
  }

  function UpperChar(c: char): char {
    if 'a' <= c <= 'z' then (c as int - 32) as char else c
  }

  function Lower(s: string): (r: string)
    ensures |r| == |s|
    ensures forall k :: 0 <= k < |s| ==> r[k] == LowerChar(s[k])
  {
    seq(|s|, k requires 0 <= k < |s| => LowerChar(s[k]))
  }

  function Upper(s: string): (r: string)
    ensures |r| == |s|
    ensures forall k :: 0 <= k < |s| ==> r[k] == UpperChar(s[k])
  {
    seq(|s|, k requires 0 <= k < |s| => UpperChar(s[k]))
  }

  /** Lower-casing forgets the case of the input completely. */
  lemma LowerOfUpper(s: string)
    ensures Lower(Upper(s)) == Lower(s)
    ensures Lower(Lower(s)) == Lower(s)
  {
  }

  predicate IsUpperChar(c: char) {
    'A' <= c <= 'Z'
  }

  /** Lower-casing changes a string exactly when it holds an upper-case letter. */
  lemma LowerUnchanged(s: string)
    ensures Lower(s) == s <==> forall k :: 0 <= k < |s| ==> !IsUpperChar(s[k])
  {
    if Lower(s) == s {
      forall k | 0 <= k < |s| ensures !IsUpperChar(s[k]) {
        assert Lower(s)[k] == s[k];
      }
    }
  }

  predicate IsLowerChar(c: char) {
    'a' <= c <= 'z'
  }

  predicate NoLowerChars(s: string) {
    forall k :: 0 <= k < |s| ==> !IsLowerChar(s[k])
  }

  /** Upper-casing leaves a string without lower-case letters alone. */
  lemma UpperUnchanged(s: string)
    requires NoLowerChars(s)
    ensures Upper(s) == s
  {
  }

  /** On strings without lower-case letters lower-casing loses nothing: two
      such strings with the same lower-case form are the same string. */
  lemma LowerInjective(a: string, b: string)
    requires NoLowerChars(a) && NoLowerChars(b)
    requires Lower(a) == Lower(b)
    ensures a == b
  {
    assert |a| == |b|;
    forall k | 0 <= k < |a| ensures a[k] == b[k] {
      assert LowerChar(a[k]) == LowerChar(b[k]);
    }
  }

  // ---------------------------------------------------------------------------
  // Whitespace stripping (Python's `str.strip()` with no argument)

  predicate IsSpace(c: char) {
    c == ' ' || c == '\t' || c == '\n' || c == '\r' || c == '\U{B}' || c == '\U{C}'
  }

  predicate AllSpace(s: string) {
    forall k :: 0 <= k < |s| ==> IsSpace(s[k])
  }

  function LStrip(s: string): (r: string)
    ensures |r| <= |s| && r == s[|s| - |r|..]
    ensures AllSpace(s[..|s| - |r|])
    ensures |r| > 0 ==> !IsSpace(r[0])
    decreases |s|
  {
    if |s| > 0 && IsSpace(s[0]) then
      var r := LStrip(s[1..]);
      assert s[..|s| - |r|] == [s[0]] + s[1..][..|s| - 1 - |r|];
      AllSpaceAppend([s[0]], s[1..][..|s| - 1 - |r|]);
      r
    else s
  }

  function RStrip(s: string): (r: string)
    ensures |r| <= |s| && r == s[..|r|]
    ensures AllSpace(s[|r|..])
    ensures |r| > 0 ==> !IsSpace(r[|r| - 1])
    decreases |s|
  {
    if |s| > 0 && IsSpace(s[|s| - 1]) then
      var r := RStrip(s[..|s| - 1]);
      assert s[|r|..] == s[..|s| - 1][|r|..] + [s[|s| - 1]];
      AllSpaceAppend(s[..|s| - 1][|r|..], [s[|s| - 1]]);
      r
    else s
  }

  lemma AllSpaceAppend(a: string, b: string)
    ensures AllSpace(a + b) <==> AllSpace(a) && AllSpace(b)
  {
    if AllSpace(a) && AllSpace(b) {
      forall k | 0 <= k < |a + b| ensures IsSpace((a + b)[k]) {
        if k >= |a| { assert (a + b)[k] == b[k - |a|]; }
      }
    }
    if AllSpace(a + b) {
      forall k | 0 <= k < |a| ensures IsSpace(a[k]) {
        assert (a + b)[k] == a[k];
      }
      forall k | 0 <= k < |b| ensures IsSpace(b[k]) {
        assert (a + b)[|a| + k] == b[k];
      }
    }
  }

  /** `r` is `s[i..]` up to trailing whitespace, with only whitespace before
      `i`, and starts and ends with a non-space character. */
  predicate StrippedAt(s: string, i: int, r: string) {
    0 <= i && i + |r| <= |s| && r == s[i..i + |r|] && AllSpace(s[..i]) && AllSpace(s[i + |r|..])
    && (|r| > 0 ==> !IsSpace(r[0]) && !IsSpace(r[|r| - 1]))
  }

  /** `s.strip()`: the result is the infix of `s` that starts at `|s| - |LStrip(s)|`,
      only whitespace was removed around it, and it neither starts nor ends with
      whitespace. */
  function Strip(s: string): (r: string)
    ensures |r| > 0 ==> !IsSpace(r[0]) && !IsSpace(r[|r| - 1])
  {
    var l := LStrip(s);
    var r := RStrip(l);
    assert |r| > 0 ==> r[0] == l[0];
    r
  }

  /** What `Strip` removes is whitespace around an infix of `s`. */
  lemma StripInfix(s: string)
    ensures StrippedAt(s, |s| - |LStrip(s)|, Strip(s))
  {
    StripFacts(s, LStrip(s), RStrip(LStrip(s)));
  }

  /** The facts behind `Strip`'s contract, for any left-stripped `l` of `s` and
      right-stripped `r` of `l`. */
  lemma StripFacts(s: string, l: string, r: string)
    requires |l| <= |s| && l == s[|s| - |l|..] && AllSpace(s[..|s| - |l|])
    requires |l| > 0 ==> !IsSpace(l[0])
    requires |r| <= |l| && r == l[..|r|] && AllSpace(l[|r|..])
    requires |r| > 0 ==> !IsSpace(r[|r| - 1])
    ensures StrippedAt(s, |s| - |l|, r)
  {
    StripParts(s, l, |s| - |l|, r);
    assert |r| > 0 ==> r[0] == l[0];
  }

  /** The right-stripped tail of `s[i..]` sits at `i` with spaces after it. */
  lemma StripParts(s: string, l: string, i: nat, r: string)
    requires i <= |s| && l == s[i..]
    requires |r| <= |l| && r == l[..|r|] && AllSpace(l[|r|..])
    ensures i + |r| <= |s| && r == s[i..i + |r|] && AllSpace(s[i + |r|..])
  {
    assert s[i + |r|..] == l[|r|..];
  }

  // ---------------------------------------------------------------------------
  // Joining and splitting

  /** `sep.join(parts)`. */
  function Join(sep: string, parts: seq<string>): string
    decreases |parts|
  {
    if |parts| == 0 then ""
    else if |parts| == 1 then parts[0]
    else parts[0] + sep + Join(sep, parts[1..])
  }

  /** `s.split(sep)` for a one-character separator: never empty, no part holds the
      separator, and joining the parts back with the separator gives `s`. */
  function Split(s: string, sep: char): (parts: seq<string>)
    ensures |parts| >= 1
    ensures forall k :: 0 <= k < |parts| ==> sep !in parts[k]
    ensures Join([sep], parts) == s
    decreases |s|
  {
    if |s| == 0 then [""]
    else
      var rest := Split(s[1..], sep);
      if s[0] == sep then
        assert Join([sep], [""] + rest) == [sep] + Join([sep], rest);
        [""] + rest
      else
        var parts := [[s[0]] + rest[0]] + rest[1..];
        JoinHead([sep], s[0], rest);
        parts
  }

  /** Prefixing a character to the first part prefixes it to the joined string. */
  lemma JoinHead(sep: string, c: char, parts: seq<string>)
    requires |parts| >= 1
    ensures Join(sep, [[c] + parts[0]] + parts[1..]) == [c] + Join(sep, parts)
  {
    var ps := [[c] + parts[0]] + parts[1..];
    if |parts| > 1 {
      assert ps[1..] == parts[1..];
    }
  }

  /** Splitting separator-free parts joined with the separator gives the parts back. */
  lemma {:induction false} SplitOfJoin(parts: seq<string>, sep: char)
    requires |parts| > 0 && forall k :: 0 <= k < |parts| ==> sep !in parts[k]
    ensures Split(Join([sep], parts), sep) == parts
    decreases |parts|, if |parts| == 0 then 0 else |parts[0]|
  {
    var first := parts[0];
    if |parts| == 1 {
      SplitOfPart(first, sep);
    } else {
      var rest := parts[1..];
      SplitOfJoin(rest, sep);
      var tail := Join([sep], rest);
      assert Join([sep], parts) == first + [sep] + tail;
      SplitPrefix(first, sep, tail, rest);
    }
  }

  /** A part without the separator splits to itself. */
  lemma {:induction false} SplitOfPart(p: string, sep: char)
    requires sep !in p
    ensures Split(p, sep) == [p]
    decreases |p|
  {
    if |p| > 0 {
      SplitOfPart(p[1..], sep);
      assert [p[0]] + p[1..] == p;
    }
  }

  /** Splitting `p + sep + tail` puts `p` before the parts of `tail`. */
  lemma {:induction false} SplitPrefix(p: string, sep: char, tail: string, rest: seq<string>)
    requires sep !in p && Split(tail, sep) == rest
    ensures Split(p + [sep] + tail, sep) == [p] + rest
    decreases |p|
  {
    var s := p + [sep] + tail;
    if |p| == 0 {
      assert s[0] == sep && s[1..] == tail;
    } else {
      assert s[0] == p[0] && s[1..] == p[1..] + [sep] + tail;
      SplitPrefix(p[1..], sep, tail, rest);
      assert [p[0]] + p[1..] == p;
    }
  }

  // ---------------------------------------------------------------------------
  // Substring search and replacement

  /** `pat in s`. */
  predicate Contains(s: string, pat: string)
    decreases |s|
  {
    |pat| <= |s| && (s[..|pat|] == pat || Contains(s[1..], pat))
  }

  function Repeat(c: char, n: nat): (r: string)
    ensures |r| == n && forall k :: 0 <= k < n ==> r[k] == c
  {
    if n == 0 then "" else [c] + Repeat(c, n - 1)
  }

  /** `s.replace(target, rep)`: every occurrence of `target`, scanned left to right and
      not overlapping, is replaced by `rep`. */
  function ReplaceAll(s: string, target: string, rep: string): string
    requires |target| > 0
    decreases |s|
  {
    if |s| < |target| then s
    else if s[..|target|] == target then rep + ReplaceAll(s[|target|..], target, rep)
    else [s[0]] + ReplaceAll(s[1..], target, rep)
  }

  /** `t * n`: `n` copies of `t`. */
  function RepeatString(t: string, n: nat): string {
    if n == 0 then "" else t + RepeatString(t, n - 1)
  }

  /** Copies of a one-character string form a run of that character. */
  lemma {:induction false} RepeatStringChar(c: char, n: nat)
    ensures RepeatString([c], n) == Repeat(c, n)
    decreases n
  {
    if n > 0 {
      RepeatStringChar(c, n - 1);
    }
  }

  /** A character absent from `t` is absent from any number of copies of `t`. */
  lemma {:induction false} RepeatStringAvoids(t: string, n: nat, c: char)
    requires c !in t
    ensures c !in RepeatString(t, n)
    decreases n
  {
    if n > 0 {
      RepeatStringAvoids(t, n - 1, c);
    }
  }

  /** A pattern cannot occur where its first character never does. */
  lemma {:induction false} NotContainsFirst(s: string, pat: string)
    requires |pat| > 0 && pat[0] !in s
    ensures !Contains(s, pat)
    decreases |s|
  {
    if |pat| <= |s| {
      assert s[..|pat|][0] == s[0];
      NotContainsFirst(s[1..], pat);
    }
  }

  /** Replacing a pattern in copies of itself replaces every copy. */
  lemma {:induction false} ReplaceAllRepeatString(t: string, rep: string, n: nat)
    requires |t| > 0
    ensures ReplaceAll(RepeatString(t, n), t, rep) == RepeatString(rep, n)
    decreases n
  {
    if n > 0 {
      var s := RepeatString(t, n);
      assert s[..|t|] == t;
      assert s[|t|..] == RepeatString(t, n - 1);
      ReplaceAllRepeatString(t, rep, n - 1);
    }
  }

  /** A leading character that cannot start an occurrence of a two-character
      pattern passes through the replacement unchanged. */
  lemma ReplaceAllCons(c: char, s: string, target: string, rep: string)
    requires |target| == 2
    requires c != target[0] || |s| == 0 || s[0] != target[1]
    ensures ReplaceAll([c] + s, target, rep) == [c] + ReplaceAll(s, target, rep)
  {
    var w := [c] + s;
    assert w[1..] == s;
    if |w| >= 2 {
      assert w[..2] == [c, s[0]];
    }
  }

  /** Replacing a pattern that does not occur leaves the string unchanged. */
  lemma {:induction false} ReplaceAllAbsent(s: string, target: string, rep: string)
    requires |target| > 0 && !Contains(s, target)
    ensures ReplaceAll(s, target, rep) == s
    decreases |s|
  {
    if |s| >= |target| {
      ReplaceAllAbsent(s[1..], target, rep);
    }
  }

  /** Replacing a single character by a string that does not hold it removes
      every occurrence of that character. */
  lemma {:induction false} ReplaceAllRemovesChar(s: string, c: char, rep: string)
    requires c !in rep
    ensures c !in ReplaceAll(s, [c], rep)
    decreases |s|
  {
    if |s| >= 1 {
      ReplaceAllRemovesChar(s[1..], c, rep);
    }
  }

  /** Replacing never introduces a character absent from both the string and
      the replacement. */
  lemma {:induction false} ReplaceAllKeepsAbsent(s: string, target: string, rep: string, c: char)
    requires |target| > 0 && c !in s && c !in rep
    ensures c !in ReplaceAll(s, target, rep)
    decreases |s|
  {
    if |s| >= |target| {
      if s[..|target|] == target {
        ReplaceAllKeepsAbsent(s[|target|..], target, rep, c);
      } else {
        ReplaceAllKeepsAbsent(s[1..], target, rep, c);
      }
    }
  }

  /** Replacing a character in a run of that character replaces every copy. */
  lemma {:induction false} ReplaceAllRepeat(c: char, d: char, n: nat)
    ensures ReplaceAll(Repeat(c, n), [c], [d]) == Repeat(d, n)
    decreases n
  {
    if n > 0 {
      var s := Repeat(c, n);
      assert s[..1] == [c];
      assert s[1..] == Repeat(c, n - 1);
      ReplaceAllRepeat(c, d, n - 1);
    }
  }

  /** Replacement works piecewise over a split point that no occurrence of a
      one-character pattern can straddle. */
  lemma {:induction false} ReplaceAllConcatChar(a: string, b: string, c: char, rep: string)
    ensures ReplaceAll(a + b, [c], rep) == ReplaceAll(a, [c], rep) + ReplaceAll(b, [c], rep)
    decreases |a|
  {
    if |a| == 0 {
      assert a + b == b;
    } else {
      assert (a + b)[..1] == a[..1] == [a[0]];
      assert (a + b)[1..] == a[1..] + b;
      ReplaceAllConcatChar(a[1..], b, c, rep);
      if a[0] == c {
        assert ReplaceAll(a + b, [c], rep) == rep + ReplaceAll(a[1..] + b, [c], rep);
        assert ReplaceAll(a, [c], rep) == rep + ReplaceAll(a[1..], [c], rep);
      } else {
        assert ReplaceAll(a + b, [c], rep) == [a[0]] + ReplaceAll(a[1..] + b, [c], rep);
        assert ReplaceAll(a, [c], rep) == [a[0]] + ReplaceAll(a[1..], [c], rep);
      }
    }
  }

  /** The first character of a replacement's result: `rep[0]` when `s` starts
      with the pattern, else `s[0]`. */
  lemma ReplaceAllHead(s: string, target: string, rep: string)
    requires |target| > 0 && |rep| > 0 && |s| > 0
    ensures |ReplaceAll(s, target, rep)| > 0
    ensures ReplaceAll(s, target, rep)[0] ==
            if |s| >= |target| && s[..|target|] == target then rep[0] else s[0]
  {
  }

  /** After `s.replace(target, rep)` with a two-character `target`, no occurrence of
      `target` survives, provided `rep` is not empty, does not contain `target[0]`
      and does not start with `target[1]`. */
  lemma {:induction false} ReplaceAllNoOccurrence(s: string, target: string, rep: string)
    requires |target| == 2 && |rep| > 0
    requires target[0] !in rep && rep[0] != target[1]
    ensures !Contains(ReplaceAll(s, target, rep), target)
    decreases |s|
  {
    var r := ReplaceAll(s, target, rep);
    if |s| < 2 {
      if |s| == 1 { assert r == s; }
    } else if s[..2] == target {
      var t := s[2..];
      ReplaceAllNoOccurrence(t, target, rep);
      NoOccurrenceAfterNew(rep, ReplaceAll(t, target, rep), target);
    } else {
      var t := s[1..];
      ReplaceAllNoOccurrence(t, target, rep);
      var rt := ReplaceAll(t, target, rep);
      assert r == [s[0]] + rt;
      if |t| > 0 {
        ReplaceAllHead(t, target, rep);
        assert rt[0] == if |t| >= 2 && t[..2] == target then rep[0] else t[0];
        if !(|t| >= 2 && t[..2] == target) {
          assert s[..2] == [s[0], t[0]];
        }
        assert r[..2] != target;
      }
      assert r[1..] == rt;
    }
  }

  /** Helper: `rep + rest` has no occurrence of a two-character `target` when `rest`
      has none and `rep` cannot contribute its first character. */
  lemma {:induction false} NoOccurrenceAfterNew(rep: string, rest: string, target: string)
    requires |target| == 2 && target[0] !in rep && !Contains(rest, target)
    ensures !Contains(rep + rest, target)
    decreases |rep|
  {
    if |rep| == 0 {
      assert rep + rest == rest;
    } else {
      var w := rep + rest;
      assert w[0] == rep[0] && w[0] != target[0];
      assert |w| >= 2 ==> w[..2][0] == w[0];
      assert w[1..] == rep[1..] + rest;
      NoOccurrenceAfterNew(rep[1..], rest, target);
      assert !Contains(w[1..], target);
      assert |w| >= 2 ==> w[..|target|] != target;
    }
  }
}

=== FILE: volume.dfy ===
/** The volume of a note: a MIDI-style velocity in [0, 127], the same value read
    as a scalar in [0, 1], and its realisation against a base level and the
    dynamic in effect. */
module Volume {
  import opened Wrappers

  datatype VolumeError =
    | VelocityNotANumber        // velocity set from something that is not a number
    | VelocityScalarNotANumber  // velocityScalar set from something that is not a number
    | VelocityUnset             // velocityScalar read while no velocity is set
    | NoParent                  // a dynamic context looked up for a volume without a parent note

  /** A value given to a setter: a number, or anything else. */
  datatype Arg = Num(x: real) | NotANumber

  /** A candidate parent object; only notes and chords (`NotRest` objects) are
      kept as parents. */
  datatype ParentObject = ParentObject(id: nat, isNotRest: bool)

  /** A volume: the parent note (by identity), the velocity if set, and whether
      the velocity is relative to the dynamic context. */
  datatype Volume = Volume(parent: Option<nat>, velocity: Option<real>, velocityIsRelative: bool)

  const MaxVelocity: real := 127.0

  function Clamp(x: real, lo: real, hi: real): (r: real)
    requires lo <= hi
    ensures lo <= r <= hi
    ensures lo <= x <= hi ==> r == x
    ensures x < lo ==> r == lo
    ensures x > hi ==> r == hi
  {
    if x < lo then lo else if x > hi then hi else x
  }

  /** Python 2's `round` on a non-negative number: halves round up. */
  function RoundHalfUp(x: real): (n: int)
    requires x >= 0.0
    ensures n >= 0
    ensures x - 0.5 < n as real <= x + 0.5
  {
    (x + 0.5).Floor
  }

  /** `_setParent`: a parent that is a note or chord is kept; None clears the
      parent; anything else leaves it as it was. */
  function SetParent(v: Volume, p: Option<ParentObject>): (r: Volume)
    ensures r.velocity == v.velocity && r.velocityIsRelative == v.velocityIsRelative
    ensures p.None? ==> r.parent.None?
    ensures p.Some? && p.value.isNotRest ==> r.parent == Some(p.value.id)
    ensures p.Some? && !p.value.isNotRest ==> r.parent == v.parent
  {
    match p
    case None => v.(parent := None)
    case Some(obj) => if obj.isNotRest then v.(parent := Some(obj.id)) else v
  }

  /** `_setVelocity`: a number, clamped to [0, 127]. */
  function SetVelocity(v: Volume, value: Arg): (r: Result<Volume, VolumeError>)
    ensures r.Success? <==> value.Num?
    ensures r.Failure? ==> r.error == VelocityNotANumber
    ensures r.Success? ==> r.value.parent == v.parent && r.value.velocityIsRelative == v.velocityIsRelative
    ensures r.Success? ==> r.value.velocity.Some? && 0.0 <= r.value.velocity.value <= MaxVelocity
    ensures r.Success? && 0.0 <= value.x <= MaxVelocity ==> r.value.velocity == Some(value.x)
    ensures r.Success? && value.x < 0.0 ==> r.value.velocity == Some(0.0)
    ensures r.Success? && value.x > MaxVelocity ==> r.value.velocity == Some(MaxVelocity)
  {
    match value
    case NotANumber => Failure(VelocityNotANumber)
    case Num(x) => Success(v.(velocity := Some(Clamp(x, 0.0, MaxVelocity))))
  }

  /** Setting a velocity to the value it already has changes nothing, so the
      clamp is idempotent. */
  lemma SetVelocityIdempotent(v: Volume, value: real)
    ensures var once := SetVelocity(v, Num(value)).value;
            SetVelocity(once, Num(once.velocity.value)) == Success(once)
  {
  }

  /** `_getVelocityScalar`: the velocity over 127. */
  function VelocityScalar(v: Volume): (r: Result<real, VolumeError>)
    ensures r.Success? <==> v.velocity.Some?
    ensures r.Failure? ==> r.error == VelocityUnset
    ensures r.Success? ==> r.value * MaxVelocity == v.velocity.value
  {
    if v.velocity.None? then Failure(VelocityUnset) else Success(v.velocity.value / MaxVelocity)
  }

  /** `_setVelocityScalar`: a number, clamped to [0, 1], stored as the nearest
      whole velocity. */
  function SetVelocityScalar(v: Volume, value: Arg): (r: Result<Volume, VolumeError>)
    ensures r.Success? <==> value.Num?
    ensures r.Failure? ==> r.error == VelocityScalarNotANumber
    ensures r.Success? ==> r.value.parent == v.parent && r.value.velocityIsRelative == v.velocityIsRelative
    ensures r.Success? ==> r.value.velocity.Some? && 0.0 <= r.value.velocity.value <= MaxVelocity
    ensures r.Success? ==> r.value.velocity.value == r.value.velocity.value.Floor as real
  {
    match value
    case NotANumber => Failure(VelocityScalarNotANumber)
    case Num(x) =>
      var scalar := Clamp(x, 0.0, 1.0);
      var n := RoundHalfUp(scalar * MaxVelocity);
      assert n <= 127;
      Success(v.(velocity := Some(n as real)))
  }

  /** Reading back a set scalar is off by at most half a velocity step: the
      value read is within 1/254 of the clamped value set. */
  lemma VelocityScalarOfSetVelocityScalar(v: Volume, x: real)
    ensures var stored := SetVelocityScalar(v, Num(x)).value;
            var read := VelocityScalar(stored).value;
            var s := Clamp(x, 0.0, 1.0);
            s - 1.0 / 254.0 <= read <= s + 1.0 / 254.0
  {
    var s := Clamp(x, 0.0, 1.0);
    var n := RoundHalfUp(s * MaxVelocity);
    assert s * MaxVelocity - 0.5 < n as real <= s * MaxVelocity + 0.5;
    var read := n as real / MaxVelocity;
    assert read * MaxVelocity == n as real;
  }

  /** The documented values: a scalar of 0.5 is velocity 64, and velocity 127
      reads as the scalar 1. */
  lemma VelocityExamples(v: Volume)
    ensures SetVelocityScalar(v, Num(0.5)).value.velocity == Some(64.0)
    ensures VelocityScalar(SetVelocity(v, Num(127.0)).value) == Success(1.0)
    ensures SetVelocity(v, Num(200.0)).value.velocity == Some(127.0)
    ensures SetVelocity(v, Num(-3.0)).value.velocity == Some(0.0)
  {
    assert (63.5 + 0.5).Floor == 64;
  }

  /** A volume with the given parent and nothing else set. */
  function Unset(parent: Option<ParentObject>): Volume {
    SetParent(Volume(None, None, true), parent)
  }

  /** `Volume(parent, velocity, velocityScalar, velocityIsRelative)`: a velocity
      given takes precedence over a scalar given; with neither the velocity is
      unset. */
  function NewVolume(parent: Option<ParentObject>, velocity: Option<Arg>, velocityScalar: Option<Arg>, velocityIsRelative: bool)
    : (r: Result<Volume, VolumeError>)
    ensures velocity.Some? ==>
              (r.Success? <==> velocity.value.Num?)
              && (r.Success? ==> r.value == SetVelocity(Unset(parent), velocity.value).value.(velocityIsRelative := velocityIsRelative))
    ensures velocity.None? && velocityScalar.Some? ==>
              (r.Success? <==> velocityScalar.value.Num?)
              && (r.Success? ==> r.value == SetVelocityScalar(Unset(parent), velocityScalar.value).value.(velocityIsRelative := velocityIsRelative))
    ensures velocity.None? && velocityScalar.None? ==> r == Success(Unset(parent).(velocityIsRelative := velocityIsRelative))
    ensures r.Success? ==> r.value.velocityIsRelative == velocityIsRelative
  {
    var start := Unset(parent);
    var withVelocity :-
      if velocity.Some? then SetVelocity(start, velocity.value)
      else if velocityScalar.Some? then SetVelocityScalar(start, velocityScalar.value)
      else Success(start);
    Success(withVelocity.(velocityIsRelative := velocityIsRelative))
  }

  /** When both are given, the scalar is ignored: any two scalars give the same
      volume. */
  lemma VelocityTakesPrecedence(parent: Option<ParentObject>, velocity: Arg, s1: Option<Arg>, s2: Option<Arg>, rel: bool)
    ensures NewVolume(parent, Some(velocity), s1, rel) == NewVolume(parent, Some(velocity), s2, rel)
  {
  }

  /** `mergeAttributes`: the velocity and its relativity are copied from the
      other volume; the parent is never copied; no other volume is a no-op. */
  function MergeAttributes(v: Volume, other: Option<Volume>): (r: Volume)
    ensures r.parent == v.parent
    ensures other.None? ==> r == v
    ensures other.Some? ==> r.velocity == other.value.velocity && r.velocityIsRelative == other.value.velocityIsRelative
  {
    match other
    case None => v
    case Some(o) => v.(velocity := o.velocity, velocityIsRelative := o.velocityIsRelative)
  }

  /** Merging twice is merging once, and the merged volume realises like the
      other one whenever no dynamic context is consulted. */
  lemma MergeAttributesIdempotent(v: Volume, other: Volume)
    ensures MergeAttributes(MergeAttributes(v, Some(other)), Some(other)) == MergeAttributes(v, Some(other))
    ensures forall useVelocity: bool, baseLevel: real, clip: bool ::
              GetRealized(MergeAttributes(v, Some(other)), false, useVelocity, baseLevel, clip, None)
              == GetRealized(other, false, useVelocity, baseLevel, clip, None)
  {
    var merged := MergeAttributes(v, Some(other));
    forall useVelocity: bool, baseLevel: real, clip: bool
      ensures GetRealized(merged, false, useVelocity, baseLevel, clip, None)
              == GetRealized(other, false, useVelocity, baseLevel, clip, None)
    {
      assert Scaled(merged, useVelocity, baseLevel, None) == Scaled(other, useVelocity, baseLevel, None);
    }
  }

  /** `getRealized`: starting from the base level, a set velocity either fixes
      the value (absolute velocity) or scales it (relative velocity, the
      scalar doubled); then, unless an absolute velocity was used, the dynamic
      in effect scales it (its scalar doubled); finally the value is clipped to
      [0, 1] when asked. `dynamic` is the volume scalar of the dynamic found
      before the note, if any; looking it up needs a parent note. */
  function GetRealized(v: Volume, useDynamicContext: bool, useVelocity: bool, baseLevel: real, clip: bool, dynamic: Option<real>)
    : (r: Result<real, VolumeError>)
    ensures r.Failure? <==> useDynamicContext && v.parent.None?
    ensures r.Failure? ==> r.error == NoParent
    ensures r.Success? && clip ==> 0.0 <= r.value <= 1.0
    ensures r.Success? && (v.velocity.None? || !useVelocity) ==>
              var dm := if useDynamicContext then dynamic else None;
              var level := if (v.velocityIsRelative || v.velocity.None?) && dm.Some? then baseLevel * (dm.value * 2.0) else baseLevel;
              r.value == if clip then Clamp(level, 0.0, 1.0) else level
    ensures r.Success? && !clip && (v.velocity.None? || !useVelocity) && (!useDynamicContext || dynamic.None?) ==>
              r.value == baseLevel
  {
    if useDynamicContext && v.parent.None? then Failure(NoParent)
    else
      var dm := if useDynamicContext then dynamic else None;
      var val := Scaled(v, useVelocity, baseLevel, dm);
      Success(if clip then Clamp(val, 0.0, 1.0) else val)
  }

  /** The unclipped realised value. */
  function Scaled(v: Volume, useVelocity: bool, baseLevel: real, dm: Option<real>): real {
    var val :=
      if useVelocity && v.velocity.Some? then
        if !v.velocityIsRelative then v.velocity.value / MaxVelocity
        else baseLevel * (v.velocity.value / MaxVelocity * 2.0)
      else baseLevel;
    if (v.velocityIsRelative || v.velocity.None?) && dm.Some? then val * (dm.value * 2.0) else val
  }

  /** An absolute velocity fully determines the result: the dynamic in effect
      and the base level are ignored, and the value is the velocity scalar. */
  lemma AbsoluteVelocityIgnoresDynamics(v: Volume, baseLevel1: real, baseLevel2: real, d1: Option<real>, d2: Option<real>, clip: bool)
    requires v.velocity.Some? && !v.velocityIsRelative && v.parent.Some?
    ensures GetRealized(v, true, true, baseLevel1, clip, d1) == GetRealized(v, true, true, baseLevel2, clip, d2)
    ensures !clip ==> GetRealized(v, true, true, baseLevel1, clip, d1) == VelocityScalar(v)
  {
  }

  /** A relative velocity and the dynamic both scale the base level, each
      doubled, so a scalar of 0.5 leaves it unchanged. */
  lemma RelativeVelocityScales(v: Volume, baseLevel: real, d: real)
    requires v.velocity.Some? && v.velocityIsRelative && v.parent.Some?
    ensures GetRealized(v, true, true, baseLevel, false, Some(d))
         == Success(baseLevel * (VelocityScalar(v).value * 2.0) * (d * 2.0))
    ensures d == 0.5 && v.velocity.value == MaxVelocity / 2.0 ==>
              GetRealized(v, true, true, baseLevel, false, Some(d)) == Success(baseLevel)
  {
    var a := VelocityScalar(v).value * 2.0;
    var val := Scaled(v, true, baseLevel, Some(d));
    assert val == baseLevel * (v.velocity.value / MaxVelocity * 2.0) * (d * 2.0);
    assert GetRealized(v, true, true, baseLevel, false, Some(d)).Success?;
    assert GetRealized(v, true, true, baseLevel, false, Some(d)).value == val;
    assert VelocityScalar(v).value == v.velocity.value / MaxVelocity;
    assert val == baseLevel * (VelocityScalar(v).value * 2.0) * (d * 2.0);
    if d == 0.5 && v.velocity.value == MaxVelocity / 2.0 {
      assert a == 1.0 && d * 2.0 == 1.0;
      assert val == baseLevel * 1.0 * 1.0;
    }
  }

  /** The documented realisations with the default base level 0.70866: a note
      under piano (scalar 0.3) realises 0.425196, under forte (0.7) 0.992124;
      velocity 20 under forte realises 0.70866 * (40 / 127) * 1.4, and once the
      velocity is absolute, 20 / 127. */
  lemma GetRealizedExamples(v: Volume, withVelocity: Volume)
    requires v == Volume(Some(1), None, true)
    requires withVelocity == Volume(Some(1), Some(20.0), true)
    ensures GetRealized(v, true, true, 0.70866, true, Some(0.3)) == Success(0.425196)
    ensures GetRealized(v, true, true, 0.70866, true, Some(0.7)) == Success(0.992124)
    ensures GetRealized(withVelocity, true, true, 0.70866, true, Some(0.7)) == Success(0.70866 * (40.0 / 127.0) * 1.4)
    ensures GetRealized(withVelocity.(velocityIsRelative := false), true, true, 0.70866, true, Some(0.7)) == Success(20.0 / 127.0)
  {
  }
}

=== FILE: wrappers.dfy ===
/** Failure-carrying result types shared by every module of the model.
    A Python exception raised by music21 becomes `Failure(e)`. */
module Wrappers {

  datatype Option<+T> = None | Some(value: T)

  datatype Result<+R, +E> = Success(value: R) | Failure(error: E) {
    predicate IsFailure() {
      Failure?
    }

    function PropagateFailure<U>(): Result<U, E>
      requires Failure?
    {
      Failure(error)
    }

    function Extract(): R
      requires Success?
    {
      value
    }
  }
}
